=== FILE: README.md ===
# FrontExamSystem client rules in Dafny

This project models the deterministic core of FrontExamSystem's React client. That client is the web front end of an exam system: teachers keep a question bank, assemble exams, print them with a QR code, and correct students' answer sheets. The project states and proves, in Dafny, the rules that client code follows.

The model covers these areas:
- **QR codes**: the exam-code validator and the payload generators, the 32-bit string hash, the continuous-scan dedup window and the scanner service's start/stop discipline (`qr_code.dfy`). The scanner hook on top of the service adds camera choice, the permission guard, image pre-checks, configuration presets, scan history and scan counters (`qr_scanner_hooks.dfy`).
- **Client utilities**: the sliding-window rate limiter, the cache with expiry, the retry loop with exponential backoff, the input validators and the pagination parameters (`api_client.dfy`).
- **Authentication**: token and user storage over the two browser stores and the validation before login, registration and password change (`auth_service.dfy`). Also the reducer behind the authentication context (`auth_context.dfy`) and the hooks derived from it: initials, display name, status, permissions, redirect target and route guard (`auth_hooks.dfy`).
- **List hooks**: the pagination and filter state, the query keys and the empty-data defaults (`api_hooks.dfy`).
- **Table and dialogs**:
  - `table.dfy`: the data table's nested-field lookup, search and sort, its sort toggle, cell fallback, header checkbox, pagination footer and row selection;
  - `modal.dfy`: the confirmation dialog's record and handlers, the open/closed flag, the Tab focus wrap and the close guards.
- **Pages**: the business rules of the four pages:
  - `login_page.dfy`: password strength, confirmation check, register payload, loading gate and sign-in;
  - `questions_page.dfy`: alternatives, tags, the tag column, the submit payload and the answer letters;
  - `corrections_page.dfy`: grade bands, status labels, counters, the correction guard and the answer sheet;
  - `exams_page.dfy`: counters, row actions, the question total, the payload, the edit reset and the question generator.

The remaining modules are shared vocabulary:
- `outcomes.dfy`: `Option` and `Result`.
- `js_value.dfy`: JavaScript values, truthiness, `||`, property reads, spread, `String(v)`, `===` and the `+` operator of ECMA-262, section 13.15.3.
- `js_string.dfy`: UTF-16 length, whitespace trimming, case mapping of Basic Latin and Latin-1 letters, `split` and number formatting.
- `web_storage.dfy`: a key/value store standing for `localStorage` and `sessionStorage`.
- `listing.dfy`: the `filter(...).length` counters shared by the pages.

Effects become parameters:
- the current time is an explicit `now`;
- `JSON.parse`, `JSON.stringify` and JWT decoding are functions passed in;
- every server request and camera call is a `Result` argument that says how it ended;
- a user callback that the scanner calls is a predicate `throws` saying on which values it throws.

Stateful pieces are classes whose methods are proved against pure specification functions:
- the scanner service and hook;
- the rate limiter and the auth storage;
- pagination and filters;
- the table's controls and selection;
- the dialogs, the question form, the answer sheet and the question generator.

## Model

| member | source | states |
|---|---|---|
| QrCode.FinalConfig | frontend/src/services/qrcode.js:27 | the scanner configuration is the defaults overlaid by the caller's keys; caller keys win, other defaults are kept |
| QrCode.DecodedValue | frontend/src/services/qrcode.js:47-58 | decoded text that parses is delivered as the parsed value, anything else as the raw text |
| QrCode.ScannerService.constructor | frontend/src/services/qrcode.js:17-18 | no scanner and not scanning |
| QrCode.ScannerService.StopScanner | frontend/src/services/qrcode.js:82-95 | succeeds iff there was no scanner or it cleared; then no scanner and not scanning; a failed clear changes nothing |
| QrCode.ScannerService.InitScanner | frontend/src/services/qrcode.js:21-36 | an existing scanner is stopped first; the new page scanner uses the merged configuration |
| QrCode.ScannerService.StartScanning | frontend/src/services/qrcode.js:39-79 | stops a running scan first, installs a page scanner, and is scanning afterwards iff rendering succeeded (or the old scan could not be stopped) |
| QrCode.ScannerService.OnPageScannerDecode | frontend/src/services/qrcode.js:47-58 | a decode marks the service as scanning and calls `onSuccess` with the parse-or-raw value; when `onSuccess` throws on a parsed value the catch calls it again with the raw text, and only then |
| QrCode.ScannerService.StartScanningWithCamera | frontend/src/services/qrcode.js:123-159 | stops an existing scanner first, installs a camera scanner, scanning afterwards iff the start succeeded |
| QrCode.ScannerService.Cleanup | frontend/src/services/qrcode.js:347-352 | a present scanner that clears is dropped and scanning stops; otherwise nothing changes |
| QrCode.ScannerService.OnVisibilityChange | frontend/src/services/qrcode.js:366-370 | hiding the page while scanning stops the scanner (when `clear()` succeeds or there is no scanner); any other event, or a failed `clear()`, leaves scanner and flag as they were |
| QrCode.ScanFile | frontend/src/services/qrcode.js:162-179 | a failed decode is the fixed error message; a decode delivers the parse-or-raw value |
| QrCode.GetCameras | frontend/src/services/qrcode.js:109-120 | one entry per device, in order, with the same id; a blank label becomes "Câmera <id>"; an enumeration failure gives none |
| QrCode.GetSupportInfo | frontend/src/services/qrcode.js:285-304 | supported iff getUserMedia exists and the page is HTTPS or localhost; each flag and requirement is the browser fact it reports, localhost meaning "localhost" or "127.0.0.1" |
| QrCode.CheckCameraSupport | frontend/src/services/qrcode.js:97-105 | supported iff the enumeration succeeded with at least one camera |
| QrCode.CameraEntry | frontend/src/services/qrcode.js:112-115 | the device's id and a non-empty label: its own label, or "Câmera <id>" when the label is blank |
| QrCode.PermissionErrorToast | frontend/src/services/qrcode.js:265-273 | the toast for each refusal name, a generic one for any other name |
| QrCode.ForwardsScanError | frontend/src/services/qrcode.js:60-66 | an engine error reaches onError iff there is one and the error is not the per-frame NotFoundException |
| QrCode.SupportedButInsecure | frontend/src/services/qrcode.js:280-304 | a browser with camera APIs on a plain-HTTP remote host is reported unsupported |
| QrCode.DateMillis | frontend/src/services/qrcode.js:201-203 | a number, or text the date parser reads, is a time value only within ±8.64e15 ms and otherwise invalid; null is 0, booleans 1 and 0, and arrays and objects are read through their text |
| QrCode.TimeClip | frontend/src/services/qrcode.js:202 | a time value is kept iff it lies within ±8.64e15 ms (TimeClip, section 21.4.1.31 of ECMA-262) |
| QrCode.Expired | frontend/src/services/qrcode.js:201-208 | more than 30 whole days of milliseconds have passed since a valid timestamp; an invalid one never expires |
| QrCode.QrPayload | frontend/src/services/qrcode.js:183-184 | text is parsed, any other value is inspected as it is |
| QrCode.ValidateExamQRCode | frontend/src/services/qrcode.js:182-228 | text that does not parse is "Formato de QR Code inválido"; then, in this order: a non-object is "QR Code inválido", a falsy exam_id "ID da prova não encontrado", a truthy type other than 'exam' "QR Code não é de uma prova", a timestamp more than 30 days old "QR Code expirado" with the warning; valid iff none applies, carrying exam_id, the version (1 when falsy) and the timestamp |
| QrCode.GenerateExamQRData | frontend/src/services/qrcode.js:231-238 | the payload is of type 'exam' with the exam id, the version (1 by default) and the current time |
| QrCode.GenerateCorrectionQRData | frontend/src/services/qrcode.js:241-249 | the payload is of type 'correction' with the exam id, answer id and student name |
| QrCode.GeneratedExamCodeValidates | frontend/src/services/qrcode.js:182-238 | a generated exam code read back within 30 days validates with its exam id and version (a falsy version reads as 1) |
| QrCode.GeneratedExamCodeExpires | frontend/src/services/qrcode.js:201-214 | the same code read back more than 30 days later is "QR Code expirado" with the warning |
| QrCode.IsoTimestampExpires | frontend/src/services/qrcode.js:199-212 | an exam code whose timestamp text parses to a time more than 30 days old is "QR Code expirado" with the warning |
| QrCode.CorrectionCodeIsNotAnExam | frontend/src/services/qrcode.js:196-198 | a generated correction code is always refused as not an exam code |
| QrCode.ValidateTextOrValue | frontend/src/services/qrcode.js:183-184 | validating the text of a payload is validating the payload itself |
| QrCode.ToInt32 | frontend/src/services/qrcode.js:341 | `hash & hash` lands in the signed 32-bit range |
| QrCode.ToInt32Periodic | frontend/src/services/qrcode.js:341 | the 32-bit conversion ignores multiples of 2^32 |
| QrCode.HashStep | frontend/src/services/qrcode.js:340-341 | the loop's `(hash << 5) - hash + c` truncated is the fold step `31·h + c` truncated |
| QrCode.HashOf | frontend/src/services/qrcode.js:336-344 | the fold over UTF-16 code units stays in the signed 32-bit range |
| QrCode.HashCode | frontend/src/services/qrcode.js:336-344 | the loop computes the fold over the string's UTF-16 units |
| QrCode.DistinctCodesCollide | frontend/src/services/qrcode.js:336-344 | "Aa" and "BB" hash alike (2112) |
| QrCode.HashOfDelivered | frontend/src/services/qrcode.js:332-338 | a delivered string hashes by its UTF-16 text; null throws; any other value throws iff its `length` property compares as a number above 0 (an object with a `length` key included), and hashes to 0 otherwise |
| QrCode.LengthObjectsThrow | frontend/src/services/qrcode.js:332-338 | objects with a `length` key of "3", [2] or true throw; `[]` and `{}` hash to 0 |
| QrCode.Cooldown | frontend/src/services/qrcode.js:310 | the cooldown is the configured value or 2000, never 0 |
| QrCode.Offer1 | frontend/src/services/qrcode.js:312-330 | a decode is suppressed iff within the cooldown and its hash was seen; otherwise its hash is recorded with the scan time |
| QrCode.OnContinuousDecode | frontend/src/services/qrcode.js:47-58 | for an `onScan` that returns normally: the parsed value is offered first and the raw text only when hashing the parsed value throws; a value is delivered iff the cooldown lets it through, and nothing delivered leaves the state unchanged |
| QrCode.DecodeWithCallback | frontend/src/services/qrcode.js:47-58 | with an `onScan` that may throw: a normal return is exactly OnContinuousDecode; an accepted parsed value that `onScan` throws on sends the raw text through the closure again from the new state, a second delivery iff that offer is accepted; at most two deliveries, the second always the raw text |
| QrCode.ThrowingCallbackDeliversTwice | frontend/src/services/qrcode.js:47-58 | a parsed `{}` that `onScan` throws on reaches `onScan` twice from a fresh state, then as the raw text |
| QrCode.RepeatAfterCooldownDelivered | frontend/src/services/qrcode.js:312-322 | a code delivered once is delivered again once the cooldown has passed |
| QrCode.FireDue | frontend/src/services/qrcode.js:325-327 | due removal timers forget their hashes and only later ones stay pending |
| QrCode.FireDueExactly | frontend/src/services/qrcode.js:325-327 | a timer stays pending iff it is not yet due; a hash stays remembered iff no due timer names it |
| QrCode.DueHashes | frontend/src/services/qrcode.js:325-327 | every due timer's hash is collected |
| QrCode.DueHashesExactly | frontend/src/services/qrcode.js:325-327 | a hash is collected iff some due timer names it |
| QrCode.NotDue | frontend/src/services/qrcode.js:325-327 | the timers left are pending ones not yet due |
| QrCode.NotDueExactly | frontend/src/services/qrcode.js:325-327 | a timer is left iff it was pending and is not yet due |
| QrCode.NotDueAppend | frontend/src/services/qrcode.js:325-327 | a later timer is kept after the earlier ones iff it is not yet due, so order is kept |
| QrCode.RepeatWithinCooldownSuppressed | frontend/src/services/qrcode.js:312-318 | the same code decoded again within the cooldown is not delivered |
| QrCode.RepeatAfterTimerDelivered | frontend/src/services/qrcode.js:320-330 | once its removal timer fired, the same code is delivered again |
| QrCode.CollidingCodeDropped | frontend/src/services/qrcode.js:312-344 | a different code with the same hash is dropped inside the window |
| QrCode.ContinuousScan.constructor | frontend/src/services/qrcode.js:308-310 | an empty seen-set, last scan time 0, and the effective cooldown |
| QrCode.ContinuousScan.OnDecode | frontend/src/services/qrcode.js:312-332 | the closure's state and its list of deliveries follow DecodeWithCallback |
| QrCode.ContinuousScan.RunTimers | frontend/src/services/qrcode.js:325-327 | firing timers leaves the state FireDue describes, so (by FireDueExactly) exactly the due hashes are forgotten |
| QrScannerHooks.FirstRear | frontend/src/hooks/useQRScanner.js:45-49 | the first camera labelled back/rear/environment, and none before it is |
| QrScannerHooks.IsRearLabel | frontend/src/hooks/useQRScanner.js:46-50 | a label counts as rear iff, lower-cased, it contains "back", "rear" or "environment" |
| QrScannerHooks.PreferredCamera | frontend/src/hooks/useQRScanner.js:44-52 | the first rear camera when there is one with a non-empty id, otherwise the first camera |
| QrScannerHooks.SupportError | frontend/src/hooks/useQRScanner.js:17-34 | an error exactly when scanning is not supported |
| QrScannerHooks.ErrorAfterScanError | frontend/src/hooks/useQRScanner.js:107-111 | "not found" scan errors never change the error; others become "Erro no scanner: …" |
| QrScannerHooks.QrScannerHook.constructor | frontend/src/hooks/useQRScanner.js:7-14 | the hook's initial state |
| QrScannerHooks.QrScannerHook.CheckSupport | frontend/src/hooks/useQRScanner.js:17-34 | support is read from the browser and an unsupported browser sets the error |
| QrScannerHooks.QrScannerHook.LoadCameras | frontend/src/hooks/useQRScanner.js:37-57 | cameras are listed when supported; a preferred camera is chosen only when none is selected |
| QrScannerHooks.QrScannerHook.RequestPermission | frontend/src/hooks/useQRScanner.js:60-78 | the answer is recorded; a refusal sets "Permissão de câmera negada"; on a grant while supported the camera list is reloaded and, when none is selected and some exist, the preferred camera is selected; otherwise cameras and selection stay |
| QrScannerHooks.QrScannerHook.StopScanning | frontend/src/hooks/useQRScanner.js:141-149 | not scanning and no scanner reference afterwards when `clear()` succeeds or nothing ran; a failed `clear()` leaves the service's scanner and flag as they were |
| QrScannerHooks.QrScannerHook.StartScanning | frontend/src/hooks/useQRScanner.js:81-138 | succeeds iff supported, permitted and the engine starts; unsupported and refused starts fail with their messages; permission is asked only once, and a first grant reloads the cameras and the selection; the selected camera decides the engine; a failure leaves it not scanning |
| QrScannerHooks.QrScannerHook.OnScanSuccess | frontend/src/hooks/useQRScanner.js:102-105 | a successful scan clears the error |
| QrScannerHooks.QrScannerHook.OnScanError | frontend/src/hooks/useQRScanner.js:107-111 | the error follows the not-found filter |
| QrScannerHooks.QrScannerHook.SwitchCamera | frontend/src/hooks/useQRScanner.js:152-168 | the new camera is selected; a running scan stops (scanner gone unless `clear()` fails, in which case the service is unchanged) and is not restarted |
| QrScannerHooks.QrScannerHook.ScanFile | frontend/src/hooks/useQRScanner.js:171-179 | the file result is the service's; a failure sets its message as the error |
| QrScannerHooks.ImageRejection | frontend/src/hooks/useQRScanner.js:376-384 | an image passes iff it is JPEG, PNG or GIF and at most 5 MB |
| QrScannerHooks.ImageSizeBoundary | frontend/src/hooks/useQRScanner.js:381-384 | exactly 5 MB passes, one byte more is refused |
| QrScannerHooks.QrImageScanner.constructor | frontend/src/hooks/useQRScanner.js:364-366 | idle with no result or error |
| QrScannerHooks.QrImageScanner.ScanImage | frontend/src/hooks/useQRScanner.js:369-395 | refused images never reach the decoder; result or error is recorded; processing always ends |
| QrScannerHooks.GetPreset | frontend/src/hooks/useQRScanner.js:439-469 | an unknown name gives the default preset; only the mobile preset constrains the video |
| QrScannerHooks.QrScannerConfig.constructor | frontend/src/hooks/useQRScanner.js:413-421 | the defaults |
| QrScannerHooks.QrScannerConfig.UpdateConfig | frontend/src/hooks/useQRScanner.js:423-425 | a shallow merge: new keys win, the rest stay |
| QrScannerHooks.QrScannerConfig.ResetConfig | frontend/src/hooks/useQRScanner.js:427-437 | back to the defaults |
| QrScannerHooks.QrScannerConfig.ApplyPreset | frontend/src/hooks/useQRScanner.js:471-474 | the preset is merged over the current configuration, keeping other keys |
| QrScannerHooks.NewHistoryItem | frontend/src/hooks/useQRScanner.js:490-496 | the item's type is 'text' iff the data is a string and its timestamp is `now`, unless metadata overrides them |
| QrScannerHooks.HistoryAfterAdd | frontend/src/hooks/useQRScanner.js:498-502 | the new item first, then the old items in order, cut to maxItems (a negative limit drops that many from the end, as `slice` does) |
| QrScannerHooks.WithoutId | frontend/src/hooks/useQRScanner.js:506-508 | only items whose id differs are kept, never more than there were |
| QrScannerHooks.WithoutIdAppend | frontend/src/hooks/useQRScanner.js:507 | removal distributes over concatenation, so order and repetitions are kept |
| QrScannerHooks.WithoutIdKeepsOthers | frontend/src/hooks/useQRScanner.js:506-508 | an item survives removal iff it was there and has another id |
| QrScannerHooks.WithoutAbsentId | frontend/src/hooks/useQRScanner.js:506-508 | removing an absent id changes nothing |
| QrScannerHooks.AddThenRemove | frontend/src/hooks/useQRScanner.js:489-508 | adding an item with a fresh id and removing it restores the history |
| QrScannerHooks.ByType | frontend/src/hooks/useQRScanner.js:514-516 | exactly the items of the requested type, never more than there were |
| QrScannerHooks.ByTypeAppend | frontend/src/hooks/useQRScanner.js:515 | the type filter distributes over concatenation, so order and repetitions are kept |
| QrScannerHooks.Search | frontend/src/hooks/useQRScanner.js:518-528 | an empty term returns the whole history; otherwise exactly the items whose JSON text contains the term, ignoring case |
| QrScannerHooks.SearchFilter | frontend/src/hooks/useQRScanner.js:521-527 | exactly the items whose JSON text, lower-cased, contains the lower-cased term |
| QrScannerHooks.SearchFilterAppend | frontend/src/hooks/useQRScanner.js:521-527 | the search filter distributes over concatenation, so order and repetitions are kept |
| QrScannerHooks.SearchIgnoresAccentedCase | frontend/src/hooks/useQRScanner.js:518-528 | searching "HISTÓRIA" finds an item whose data is "História" |
| QrScannerHooks.ScanHistory.constructor | frontend/src/hooks/useQRScanner.js:485-487 | empty, with a limit of 50 by default |
| QrScannerHooks.ScanHistory.AddToHistory | frontend/src/hooks/useQRScanner.js:489-504 | the history becomes the bounded, newest-first list |
| QrScannerHooks.ScanHistory.RemoveFromHistory | frontend/src/hooks/useQRScanner.js:506-508 | the history loses exactly that id's items |
| QrScannerHooks.ScanHistory.ClearHistory | frontend/src/hooks/useQRScanner.js:510-512 | empty |
| QrScannerHooks.ScanHistory.GetHistoryByType | frontend/src/hooks/useQRScanner.js:514-516 | exactly the stored items of that type |
| QrScannerHooks.ScanHistory.SearchHistory | frontend/src/hooks/useQRScanner.js:518-528 | everything for an empty term, otherwise exactly the stored items that match it |
| QrScannerHooks.ScanStats.constructor | frontend/src/hooks/useQRScanner.js:565-572 | zero counters |
| QrScannerHooks.ScanStats.RecordScan | frontend/src/hooks/useQRScanner.js:574-595 | total = successes + failures is kept; one more scan of its type |
| QrScannerHooks.ScanStats.ResetStats | frontend/src/hooks/useQRScanner.js:597-606 | every counter back to zero |
| ApiClient.PaginateParams | frontend/src/services/api.js:201-214 | page and limit (1 and 10 by default) overlaid by the filters, filter keys win |
| ApiClient.Recent | frontend/src/services/api.js:513 | exactly the timestamps after the window start, never more than there were |
| ApiClient.RecentAppend | frontend/src/services/api.js:513 | pruning distributes over concatenation, so order and repetitions are kept |
| ApiClient.RecentOfRecent | frontend/src/services/api.js:513 | a list already inside the window is kept whole |
| ApiClient.RecentShrinks | frontend/src/services/api.js:513 | pruning by an older window start and then a newer one is pruning by the newer one |
| ApiClient.CheckKey | frontend/src/services/api.js:503-523 | allowed iff fewer than max recent requests; then the pruned list plus now is stored, otherwise the list is left unpruned |
| ApiClient.AdmittedStayWithinLimit | frontend/src/services/api.js:503-523 | a key never holds more than max requests inside any later window |
| ApiClient.RateLimiter.constructor | frontend/src/services/api.js:500-501 | no keys |
| ApiClient.RateLimiter.Check | frontend/src/services/api.js:503-523 | the loop's answer and the new map follow the check, with 10 and 60000 as defaults; other keys are untouched |
| ApiClient.RateLimiter.Reset | frontend/src/services/api.js:525-527 | only that key is forgotten |
| ApiClient.RateLimiter.Clear | frontend/src/services/api.js:529-531 | no keys |
| ApiClient.CacheSetItems | frontend/src/services/api.js:400-407 | one entry under "cache_"+key, every other entry kept |
| ApiClient.CacheLookup | frontend/src/services/api.js:409-426 | nothing stored, empty text, text that does not parse or `null`: null and the store unchanged; an expired entry: null and the entry removed; a live entry: its `data`, the store unchanged |
| ApiClient.ExpirationPassed | frontend/src/services/api.js:417 | `now > expiration`: false when missing; any other value compared as the number ComparedNumber reads from it, false for NaN |
| JsValue.TextNumber | frontend/src/services/api.js:417 | text is a number iff it is all decimal digits, the empty text 0 |
| JsValue.ComparedNumber | frontend/src/services/api.js:417 | the number a comparison reads: numbers themselves, null 0, booleans 1 and 0, text and arrays through their text, objects NaN |
| JsValue.LengthProperty | frontend/src/services/api.js:477 | reading `.length`: a string's UTF-16 length, an array's item count, an object's own `length` key, nothing for null, booleans and numbers |
| JsValue.ComparedLength | frontend/src/services/api.js:477 | the number a comparison reads from `.length`: text and array lengths as they are, an object's `length` key through ToPrimitive and ToNumber |
| JsValue.ArraysCompareAsTheirText | frontend/src/services/api.js:417 | an empty array compares as 0, a one-number array as that number, a two-number array as NaN |
| ApiClient.CacheRoundTrip | frontend/src/services/api.js:400-426 | a stored value is read back until its expiration, inclusive, and is gone after it |
| ApiClient.CacheSet | frontend/src/services/api.js:400-407 | the store changes as the specification says |
| ApiClient.CacheGet | frontend/src/services/api.js:409-426 | the answer and the store follow the lookup |
| ApiClient.CacheRemove | frontend/src/services/api.js:428-430 | only that entry is removed |
| ApiClient.CacheClear | frontend/src/services/api.js:432-439 | exactly the keys with the "cache_" prefix are removed |
| ApiClient.Pow2 | frontend/src/services/api.js:462 | the backoff factor is at least 1 |
| ApiClient.Retryable | frontend/src/services/api.js:450-455 | a rejection is retried unless its status is 4xx other than 429 |
| ApiClient.RetryRequest | frontend/src/services/api.js:443-467 | at most maxRetries+1 attempts; every attempt but the last was retryable; the waits are delay·2^i |
| ApiClient.WaitsDouble | frontend/src/services/api.js:461-462 | exponential backoff: each wait RetryRequest sleeps is twice the one before |
| ApiClient.EmailIff | frontend/src/services/api.js:471-474 | the email check holds iff one '@' with a non-empty whitespace-free local part and a dotted domain |
| ApiClient.HexString | frontend/src/services/api.js:480-483 | hex digits spelled in lower case |
| ApiClient.UuidText | frontend/src/services/api.js:480-483 | the 8-4-4-4-12 rendering of 32 hex digits |
| ApiClient.UuidTextValid | frontend/src/services/api.js:480-483 | such a text is accepted iff the version digit is 1-5 and the variant digit 8, 9, a or b (RFC 4122, sections 4.1.1 and 4.1.3) |
| ApiClient.UuidIgnoresCase | frontend/src/services/api.js:480-483 | the UUID check is case-insensitive |
| ApiClient.LengthChecksRefuseEmpty | frontend/src/services/api.js:489-495 | minLength and maxLength refuse an empty or missing value |
| ApiClient.ValidateEmail | frontend/src/services/api.js:471-474 | one '@' after a non-empty local part, no whitespace, and a domain with a '.' that is neither its first nor its last character; EmailIff shows this is the pattern |
| ApiClient.ValidateEmailValue | frontend/src/services/api.js:471-474 | the pattern is tested on `String(value)`, "undefined" for a missing value |
| ApiClient.ValidatePassword | frontend/src/services/api.js:476-478 | a truthy value whose `length` property compares as at least 6 (UTF-16 units for text, items for arrays, the `length` key for objects) |
| ApiClient.ValidateUuid | frontend/src/services/api.js:480-483 | 36 characters: hex digits in the 8-4-4-4-12 layout with a version digit 1-5 and a variant digit 8, 9, a or b, in either case |
| ApiClient.NotEmpty | frontend/src/services/api.js:485-487 | neither null, undefined nor the empty string |
| ApiClient.MinLength | frontend/src/services/api.js:489-491 | a truthy value whose `length` property compares as at least min |
| ApiClient.MaxLength | frontend/src/services/api.js:493-495 | a truthy value whose `length` property compares as at most max |
| ApiClient.ObjectLengthCounts | frontend/src/services/api.js:476-495 | an object {length: 7} passes the password check, {length: "3"} is 3 long, {length: [9]} is longer than 8, and {} has no length |
| AuthService.LocalOrSession | frontend/src/services/auth.js:189-191 | the local value when truthy, otherwise the session value |
| AuthService.Token | frontend/src/services/auth.js:189-191 | the local token when truthy, otherwise the session token |
| AuthService.SetTokenSpec | frontend/src/services/auth.js:193-201 | remembered: local token and rememberMe flag; otherwise session token and the flag removed |
| AuthService.RemoveTokenSpec | frontend/src/services/auth.js:203-207 | the token goes from both stores and the flag from the local one |
| AuthService.AuthenticatedIff | frontend/src/services/auth.js:243-245 | authenticated iff some store holds a non-empty token |
| AuthService.IsAuthenticated | frontend/src/services/auth.js:243-245 | `!!getToken()` |
| AuthService.IsTokenExpired | frontend/src/services/auth.js:247-261 | no token, an undecodable one or a null payload is expired; otherwise exp·1000 < now |
| AuthService.RememberedTokenIsRead | frontend/src/services/auth.js:189-201 | a remembered non-empty token is what getToken returns |
| AuthService.SessionTokenIsRead | frontend/src/services/auth.js:189-201 | a session token is read back unless an old local token shadows it |
| AuthService.User | frontend/src/services/auth.js:210-218 | no stored user gives null; text that does not parse gives null; otherwise the parsed record |
| AuthService.SetUserSpec | frontend/src/services/auth.js:220-228 | stored locally iff remembered or the flag is set, otherwise in the session |
| AuthService.RemoveUserSpec | frontend/src/services/auth.js:230-233 | the user goes from both stores |
| AuthService.ClearStorageSpec | frontend/src/services/auth.js:236-240 | token, user and flag leave both stores |
| AuthService.StoredUserIsRead | frontend/src/services/auth.js:210-228 | a stored user is read back unless an old local user shadows a session write |
| AuthService.ClearStorageLogsOut | frontend/src/services/auth.js:236-261 | after clearing: not authenticated, no user, token expired, not admin |
| AuthService.TokenExpiryIff | frontend/src/services/auth.js:247-261 | no token or an undecodable one is expired; otherwise expired iff exp·1000 < now (RFC 7519, section 4.1.4); no exp never expires |
| AuthService.AdminIff | frontend/src/services/auth.js:359-362 | admin iff role 'admin' or a truthy isAdmin flag |
| AuthService.IsAdminUser | frontend/src/services/auth.js:359-362 | role 'admin' or a truthy isAdmin flag |
| AuthService.LoginCheck | frontend/src/services/auth.js:12-18 | passes iff the email and password are valid, the email checked first |
| AuthService.RegisterCheck | frontend/src/services/auth.js:45-55 | the name first, then the login checks |
| AuthService.ChangePasswordCheck | frontend/src/services/auth.js:136-146 | passes iff a current password, a long enough new one, and the two differ, with each message in order; the short-password message appears iff a current password is given and the new one is too short |
| AuthService.SamePasswordRefused | frontend/src/services/auth.js:144-146 | reusing the current password is refused |
| AuthService.AcceptResponse | frontend/src/services/auth.js:22-39 | success iff the response has a truthy token and user, carrying them and the server's message or the default; a null response throws |
| AuthService.AuthStorage.constructor | frontend/src/services/auth.js:189-245 | the two stores |
| AuthService.AuthStorage.SetToken | frontend/src/services/auth.js:193-201 | the stores change as the specification says |
| AuthService.AuthStorage.RemoveToken | frontend/src/services/auth.js:203-207 | the stores change as the specification says |
| AuthService.AuthStorage.SetUser | frontend/src/services/auth.js:220-228 | the stores change as the specification says |
| AuthService.AuthStorage.RemoveUser | frontend/src/services/auth.js:230-233 | the stores change as the specification says |
| AuthService.AuthStorage.ClearStorage | frontend/src/services/auth.js:236-240 | the stores change as the specification says |
| AuthService.AuthStorage.Login | frontend/src/services/auth.js:10-40 | validation failures come before the request and leave storage unchanged; success stores token and user with the remember flag |
| AuthService.AuthStorage.Register | frontend/src/services/auth.js:43-77 | as login, and the session is never remembered |
| AuthService.LoginAuthenticates | frontend/src/services/auth.js:22-29 | a successful login with a non-empty token leaves the client authenticated |
| AuthContext.InitialState | frontend/src/context/AuthContext.js:6-12 | signed out and loading |
| AuthContext.Prop | frontend/src/context/AuthContext.js:38-39 | a payload property is present iff the key is |
| AuthContext.Reduce | frontend/src/context/AuthContext.js:27-97 | each action's effect, with only the fields it names changed; unknown actions change nothing |
| AuthContext.UserFields | frontend/src/context/AuthContext.js:88-92 | the user's own fields, none for a non-object |
| AuthContext.UpdateUserOverlays | frontend/src/context/AuthContext.js:88-92 | the update overlays its fields on the user and keeps the others |
| AuthContext.ReduceIdempotent | frontend/src/context/AuthContext.js:27-97 | dispatching the same action twice is dispatching it once |
| AuthContext.LogoutForgetsEverything | frontend/src/context/AuthContext.js:56-64 | logout gives the same state whatever came before |
| AuthContext.Run | frontend/src/context/AuthContext.js:27-97 | no actions leave the state as it is |
| AuthContext.ReducePreservesErrorExclusion | frontend/src/context/AuthContext.js:27-97 | every action keeps "an error means signed out" |
| AuthContext.RunPreservesErrorExclusion | frontend/src/context/AuthContext.js:27-97 | so does every sequence of actions |
| AuthContext.NoErrorWhileSignedIn | frontend/src/context/AuthContext.js:6-97 | from the initial state, a signed-in state never carries an error |
| AuthContext.OwnsIdIff | frontend/src/context/AuthContext.js:285-287 | own user iff the user's id strictly equals the given id; a missing user and id compare equal |
| AuthContext.OwnsId | frontend/src/context/AuthContext.js:285-287 | `user?.id === userId`, undefined when there is no user |
| AuthContext.IsOwnUser | frontend/src/context/AuthContext.js:285-287 | the test on the state's user |
| AuthHooks.Firsts | frontend/src/hooks/useAuth.js:112 | exactly the first character of each non-empty word, in order |
| AuthHooks.NonEmptyWords | frontend/src/hooks/useAuth.js:112 | the words that contribute a character: no longer than the list, none empty |
| AuthHooks.FirstsAppend | frontend/src/hooks/useAuth.js:112 | the characters of a concatenation are those of each part |
| AuthHooks.InitialsOf | frontend/src/hooks/useAuth.js:110-115 | the upper-cased first characters of the first two non-empty words, so the first is the name's first letter |
| AuthHooks.SplitTwoWords | frontend/src/hooks/useAuth.js:111 | two words split back into themselves |
| AuthHooks.TwoWordInitials | frontend/src/hooks/useAuth.js:110-115 | a two-word name gives the two first letters upper-cased |
| AuthHooks.BlankNameHasNoInitials | frontend/src/hooks/useAuth.js:110-115 | a name of spaces gives empty initials |
| AuthHooks.Initials | frontend/src/hooks/useAuth.js:107-116 | 'U' without a name, the initials of a text name, and a throw for a truthy non-string name |
| AuthHooks.DisplayName | frontend/src/hooks/useAuth.js:118-120 | the name, else the email, else 'Usuário'; never empty |
| AuthHooks.StatusFrom | frontend/src/hooks/useAuth.js:135-140 | loading before error before authenticated before unauthenticated |
| AuthHooks.CheckAuthFrom | frontend/src/hooks/useAuth.js:44-50 | refused iff not loading and not authenticated |
| AuthHooks.StatusAsWritten | frontend/src/hooks/useAuth.js:131-140 | the status as written, from the context value whose isLoading is a function |
| AuthHooks.CheckAuthAsWritten | frontend/src/hooks/useAuth.js:40-50 | the guard as written, from the same context value |
| AuthHooks.Status | frontend/src/hooks/useAuth.js:135-140 | the status from the state's own flags |
| AuthHooks.CheckAuth | frontend/src/hooks/useAuth.js:44-50 | the guard from the state's own flags |
| AuthHooks.ContextValue | frontend/src/context/AuthContext.js:310-331 | the state spread, then isLoading and isAuthenticated replaced by functions |
| AuthHooks.ExposedFunctionsMaskState | frontend/src/hooks/useAuth.js:41-50 | as written the status is always "loading" and the guard always passes; read from the state they follow it |
| AuthHooks.CheckAuthAllowsSession | frontend/src/hooks/useAuth.js:44-50 | a signed-in user passes and an unauthenticated status is refused |
| AuthHooks.AdminRights | frontend/src/hooks/useAuth.js:67-81 | the admin role may edit anything; the isAdmin flag alone makes an admin who still cannot edit others' data |
| AuthHooks.CanModify | frontend/src/hooks/useAuth.js:67-73 | canEdit and canDelete: the owner or role 'admin' |
| AuthHooks.IsAdmin | frontend/src/hooks/useAuth.js:79-81 | the service's admin test on the signed-in user; false without one |
| AuthHooks.RedirectTarget | frontend/src/hooks/useAuth.js:22 | the page the user came from, else '/dashboard' |
| ApiHooks.AtLeastFirst | frontend/src/hooks/useApi.js:95-97 | the page is never below 1 and a valid page is kept |
| ApiHooks.PreviousPage | frontend/src/hooks/useApi.js:91-93 | one page back, never below 1 |
| ApiHooks.BackAfterForward | frontend/src/hooks/useApi.js:87-93 | next then previous returns to the page |
| ApiHooks.BackFromFirst | frontend/src/hooks/useApi.js:91-93 | previous on the first page stays there |
| ApiHooks.Pagination.constructor | frontend/src/hooks/useApi.js:83-85 | the initial page and limit, 1 and 10 by default |
| ApiHooks.Pagination.NextPage | frontend/src/hooks/useApi.js:87-89 | one page on |
| ApiHooks.Pagination.PrevPage | frontend/src/hooks/useApi.js:91-93 | one page back, at least 1 |
| ApiHooks.Pagination.GoToPage | frontend/src/hooks/useApi.js:95-97 | the page asked for, at least 1 |
| ApiHooks.Pagination.ChangeLimit | frontend/src/hooks/useApi.js:99-102 | the new limit, back to page 1 |
| ApiHooks.Pagination.Reset | frontend/src/hooks/useApi.js:104-107 | the initial page and limit |
| ApiHooks.UpdateFilterActivity | frontend/src/hooks/useApi.js:126-151 | an active value makes the filters active; an empty one counts as removing the key |
| ApiHooks.RemoveInactiveFilter | frontend/src/hooks/useApi.js:133-151 | removing an inactive filter does not change whether filters are active |
| ApiHooks.Active | frontend/src/hooks/useApi.js:146-149 | a filter value counts unless it is '', null or undefined |
| ApiHooks.HasActive | frontend/src/hooks/useApi.js:145-151 | some key holds a value that counts |
| ApiHooks.Filters.constructor | frontend/src/hooks/useApi.js:123-124 | the initial filters |
| ApiHooks.Filters.UpdateFilter | frontend/src/hooks/useApi.js:126-131 | only that key changes |
| ApiHooks.Filters.RemoveFilter | frontend/src/hooks/useApi.js:133-139 | only that key is removed |
| ApiHooks.Filters.ClearFilters | frontend/src/hooks/useApi.js:141-143 | the initial filters again |
| ApiHooks.EnabledWith | frontend/src/hooks/useApi.js:384-388 | the caller's `enabled` option overrides the hook's rule |
| ApiHooks.EntityQuery | frontend/src/hooks/useApi.js:376-391 | an unknown entity throws; the key is [type, id]; enabled iff the id is truthy |
| ApiHooks.StatsQuery | frontend/src/hooks/useApi.js:394-407 | an entity without statistics throws; the key includes the id only when given |
| ApiHooks.SearchQuery | frontend/src/hooks/useApi.js:410-432 | enabled iff the term has at least 2 characters; page 1, limit 50 |
| ApiHooks.ShortTermsDoNotSearch | frontend/src/hooks/useApi.js:426-429 | a one-character term never searches |
| ApiHooks.ListDefaults | frontend/src/hooks/useApi.js:209-210 | the list or an empty list, the pagination or an empty object |
| ApiHooks.NoDataGivesEmptyList | frontend/src/hooks/useApi.js:357-358 | no data gives empty defaults, and corrections are read from `answers` |
| Table.Property | frontend/src/components/Table.jsx:69-71 | an object's property read |
| Table.ArrayIndex | frontend/src/components/Table.jsx:69-71 | an array index key names exactly one element |
| Table.Step | frontend/src/components/Table.jsx:70 | `current && current[key]` keeps a falsy value |
| Table.FalsyStopsWalk | frontend/src/components/Table.jsx:69-71 | once the walk meets a falsy value it stays there |
| Table.WalkAppend | frontend/src/components/Table.jsx:69-71 | walking a longer path is walking its parts in turn |
| Table.FalsyPrefixDecides | frontend/src/components/Table.jsx:69-71 | a falsy value part-way decides the whole lookup |
| Table.TwoLevelPath | frontend/src/components/Table.jsx:69-71 | "a.b" reads b inside a |
| Table.Walk | frontend/src/components/Table.jsx:70 | the reduce over the keys, one property read per key |
| Table.NestedValue | frontend/src/components/Table.jsx:69-71 | the path split at '.' and walked from the row |
| Table.FilterMatching | frontend/src/components/Table.jsx:42-47 | an order-keeping subsequence that holds every matching row and only matching rows |
| Table.FilterMatchingAppend | frontend/src/components/Table.jsx:42-47 | filtering distributes over concatenation, so order and repetitions are kept |
| Table.RestIsSubsequence | frontend/src/components/Table.jsx:42-47 | dropping a first row keeps a subsequence |
| Table.Matches | frontend/src/components/Table.jsx:42-46 | some column's text, lower-cased, contains the lower-cased term |
| Table.Filtered | frontend/src/components/Table.jsx:39-48 | no search term or no search: the data unchanged; always a subsequence |
| Table.LessIrreflexive | frontend/src/components/Table.jsx:56-62 | no value sorts before itself |
| Table.LessTransitive | frontend/src/components/Table.jsx:56-62 | the comparison is transitive |
| Table.BeforeIrreflexive | frontend/src/components/Table.jsx:56-62 | in either direction, no value sorts before itself |
| Table.BeforeTransitive | frontend/src/components/Table.jsx:56-62 | in either direction the comparison is transitive |
| Table.Less | frontend/src/components/Table.jsx:58-61 | `a < b` for two numbers or two strings (by UTF-16 units); any other pair is false |
| Table.Comparator | frontend/src/components/Table.jsx:55-63 | -1, 1 or 0 as the first key sorts before, after or level with the second in the chosen direction |
| Table.Insert | frontend/src/components/Table.jsx:55-63 | inserting keeps every row |
| Table.InsertSorted | frontend/src/components/Table.jsx:55-63 | inserting into a sorted list keeps it sorted |
| Table.SortRows | frontend/src/components/Table.jsx:55-63 | a permutation sorted by the key |
| Table.Sorted | frontend/src/components/Table.jsx:51-66 | no key or no sorting: unchanged; otherwise a sorted permutation |
| Table.View | frontend/src/components/Table.jsx:39-66 | the shown rows are a permutation of the filtered ones |
| Table.ViewAsWritten | frontend/src/components/Table.jsx:39-71 | throws a ReferenceError iff a search meets a row and a column, or a sort meets two rows; otherwise it shows what View shows |
| Table.SearchBreaksAsWritten | frontend/src/components/Table.jsx:39-71 | a search that has rows to check throws as written, while the evidently intended view shows the match |
| Table.NextSort | frontend/src/components/Table.jsx:82-93 | descending iff the same column was ascending |
| Table.SortHeaderToggles | frontend/src/components/Table.jsx:82-93 | a second click flips the direction, a new column starts ascending, three clicks equal one |
| Table.TableControls.constructor | frontend/src/components/Table.jsx:35-36 | no search, no sort |
| Table.TableControls.HandleSearch | frontend/src/components/Table.jsx:74-79 | the term is kept and forwarded |
| Table.TableControls.HandleSort | frontend/src/components/Table.jsx:82-93 | no-op when not sortable; otherwise the next sort, which is also forwarded |
| Table.TableControls.HeaderClick | frontend/src/components/Table.jsx:236 | a column marked not sortable ignores clicks |
| Table.RenderCell | frontend/src/components/Table.jsx:110-141 | a custom render wins; a date is formatted iff truthy and a currency iff a number; a status cell throws iff its value is present and neither text nor null, shows the lower-cased text as its class, and falls back to 'inactive' and 'N/A'; an unformatted value shows itself, '-' when falsy |
| Table.HeaderCheckboxStates | frontend/src/components/Table.jsx:155-156 | never both all and some; none selected is neither; nothing without selection |
| Table.AllSelected | frontend/src/components/Table.jsx:155 | selectable, with as many selected as rows, and some rows |
| Table.Indeterminate | frontend/src/components/Table.jsx:156 | selectable, with some but not all rows selected |
| Table.PaginationFooter | frontend/src/components/Table.jsx:347-409 | the first and last item shown, the info text, and the previous and next buttons' disabled rules |
| Table.FooterWindow | frontend/src/components/Table.jsx:357-358 | on a page with items, 1 ≤ start ≤ end ≤ total and less than a page apart; pages follow on |
| Table.WithoutRowId | frontend/src/components/Table.jsx:424-427 | keeps, in order, exactly the rows whose id differs |
| Table.RowId | frontend/src/components/Table.jsx:425 | the row's `id` |
| Table.WithoutRowIdAppend | frontend/src/components/Table.jsx:424-427 | removal distributes over concatenation |
| Table.SelectThenDeselect | frontend/src/components/Table.jsx:420-428 | selecting a row and deselecting it gives the selection without that id |
| Table.TableState.constructor | frontend/src/components/Table.jsx:412-418 | the initial data, idle, no error, nothing selected, page 1 of 10 |
| Table.TableState.HandleSelect | frontend/src/components/Table.jsx:420-428 | checked appends, unchecked removes every row with that id; nothing else changes |
| Table.TableState.HandleSelectAll | frontend/src/components/Table.jsx:430-436 | all rows or none |
| Table.TableState.ClearSelection | frontend/src/components/Table.jsx:438-440 | none |
| Table.TableState.UpdateData | frontend/src/components/Table.jsx:442-445 | new data, error cleared |
| Table.TableState.SetLoadingState | frontend/src/components/Table.jsx:447-449 | only loading changes |
| Table.TableState.SetErrorState | frontend/src/components/Table.jsx:451-454 | the error is set and loading ends |
| Modal.InitialConfirmState | frontend/src/components/Modal.jsx:308-316 | closed and idle with empty texts |
| Modal.WithDefault | frontend/src/components/Modal.jsx:321-331 | a truthy option, else the default |
| Modal.CallbackOption | frontend/src/components/Modal.jsx:330-331 | the no-op exactly when no truthy callback was given |
| Modal.Shown | frontend/src/components/Modal.jsx:318-334 | open and idle, each option defaulted: 'Confirmação', 'Confirmar', 'Cancelar', 'primary', 'secondary', '❓', 'info' |
| Modal.EmptyOptionsGiveDefaults | frontend/src/components/Modal.jsx:318-334 | no options give the stock dialog |
| Modal.Hidden | frontend/src/components/Modal.jsx:336-338 | closed, every other field kept |
| Modal.Confirmed | frontend/src/components/Modal.jsx:340-351 | idle afterwards; still open iff the caller's callback failed |
| Modal.ConfirmAfterShow | frontend/src/components/Modal.jsx:318-351 | a shown dialog closes on success and stays open, retryable, on failure |
| Modal.HideIdempotent | frontend/src/components/Modal.jsx:336-338 | hiding twice is hiding once |
| Modal.ConfirmDialog.constructor | frontend/src/components/Modal.jsx:308-316 | the initial record |
| Modal.ConfirmDialog.ShowConfirm | frontend/src/components/Modal.jsx:318-334 | the record is the shown one |
| Modal.ConfirmDialog.HideConfirm | frontend/src/components/Modal.jsx:336-338 | the record is hidden |
| Modal.ConfirmDialog.HandleConfirm | frontend/src/components/Modal.jsx:340-351 | loading while running; then the confirmed record |
| Modal.ConfirmDialog.HandleCancel | frontend/src/components/Modal.jsx:353-356 | the record is hidden unless the caller's onCancel throws, which leaves it as it was and reaches the caller |
| Modal.ModalFlag.constructor | frontend/src/components/Modal.jsx:283-284 | closed unless asked open |
| Modal.ModalFlag.OpenModal | frontend/src/components/Modal.jsx:286-288 | open |
| Modal.ModalFlag.CloseModal | frontend/src/components/Modal.jsx:290-292 | closed |
| Modal.ModalFlag.ToggleModal | frontend/src/components/Modal.jsx:294-296 | flipped |
| Modal.FocusWrap | frontend/src/components/Modal.jsx:73-96 | only Tab moves focus, and only from the last element forward or the first backward, to an element inside |
| Modal.FocusWrapCycles | frontend/src/components/Modal.jsx:73-96 | Tab from the last goes to the first, Shift+Tab from the first to the last, the middle is left alone |
| Modal.ConfirmModalControls | frontend/src/components/Modal.jsx:200-225 | while loading, no backdrop or Escape close and every button disabled |
| Modal.NoCloseWhileConfirming | frontend/src/components/Modal.jsx:57-102 | nothing closes a confirming dialog; an idle one closes by Escape and backdrop |
| Modal.ClosedIgnoresEscape | frontend/src/components/Modal.jsx:57-61 | Escape on a closed dialog does nothing |
| Modal.EscapeCloses | frontend/src/components/Modal.jsx:57-61 | Escape closes an open dialog that allows it |
| Modal.BackdropCloses | frontend/src/components/Modal.jsx:98-102 | a click on the backdrop itself closes a dialog that allows it |
| Listing.CountWhere | frontend/src/pages/QuestionsPage.jsx:44-46 | the count is within the list length, 0 iff no row matches, the whole length iff all do, and a one-row list counts 1 iff the row matches |
| Listing.BadgeClass | frontend/src/pages/ExamsPage.jsx:71 | the status badge class: the lower-cased status, the fallback when missing, null or empty, a throw for any other non-string |
| Listing.CountWhereAppend | frontend/src/pages/QuestionsPage.jsx:44-46 | counts add up over concatenation |
| Listing.CountsPartition | frontend/src/pages/ExamsPage.jsx:46-48 | counts for distinct values never exceed the list length and add up to it when every row has one of them |
| LoginPage.Score | frontend/src/pages/LoginPage.jsx:65-70 | at most 5; 5 iff all five criteria hold; 0 iff none does |
| LoginPage.Label | frontend/src/pages/LoginPage.jsx:72-81 | scores 1 to 5 give "Muito fraca", "Fraca", "Média", "Forte", "Muito forte" with their colours, and 0 neither caption nor colour |
| LoginPage.PasswordStrength | frontend/src/pages/LoginPage.jsx:62-82 | a missing or empty password is 0 with no caption; otherwise the score, with the caption and colour Label gives it |
| LoginPage.StrengthMonotone | frontend/src/pages/LoginPage.jsx:65-70 | typing more never lowers the strength |
| LoginPage.StrengthSamples | frontend/src/pages/LoginPage.jsx:62-82 | a single space is 0; "Ab1!xy" is 5, 'Muito forte' |
| LoginPage.ConfirmPasswordCheck | frontend/src/pages/LoginPage.jsx:273-277 | accepted iff equal to the password, else "Senhas não conferem" |
| LoginPage.RegisterPayload | frontend/src/pages/LoginPage.jsx:33-39 | name, email and password as typed, '' for a missing institution or subject |
| LoginPage.RegisterPayloadKeepsChecks | frontend/src/pages/LoginPage.jsx:33-39 | the payload passes the service's checks iff the form data does |
| LoginPage.LoadingGateHidesForm | frontend/src/pages/LoginPage.jsx:86-92 | as written the loading screen always shows; read from the state it goes once the session is settled |
| LoginPage.ShowsLoadingAsWritten | frontend/src/pages/LoginPage.jsx:86-92 | the gate as written, testing the context's isLoading function |
| LoginPage.ShowsLoading | frontend/src/pages/LoginPage.jsx:86-92 | the gate from the state's own flag |
| LoginPage.RememberMeIsDropped | frontend/src/pages/LoginPage.jsx:46 | as written a remembered sign-in lands in the session store; passed on, it lands in the local store |
| LoginPage.SignInStoresAsWritten | frontend/src/pages/LoginPage.jsx:46 | the stores after a sign-in whose remember choice is dropped |
| LoginPage.SignInStores | frontend/src/pages/LoginPage.jsx:46 | the stores after a sign-in that honours the remember choice |
| LoginPage.SubmitSignInAsWritten | frontend/src/pages/LoginPage.jsx:45-50 | navigates to '/dashboard' iff the checks pass and the server accepts; the response's token and user are then stored unremembered |
| LoginPage.SubmitSignIn | frontend/src/pages/LoginPage.jsx:45-50 | the same with the response's token and user stored where the remember choice says |
| QuestionsPage.Stats | frontend/src/pages/QuestionsPage.jsx:42-47 | the total and the three difficulty counts, which never add up to more than the list |
| QuestionsPage.TagColumn | frontend/src/pages/QuestionsPage.jsx:77-88 | at most three tags plus "+n" for the rest; a truthy non-array throws |
| QuestionsPage.WithAlternative | frontend/src/pages/QuestionsPage.jsx:372-376 | an empty alternative is appended only below 5 |
| QuestionsPage.WithoutAlternative | frontend/src/pages/QuestionsPage.jsx:378-382 | that alternative is removed only above 2 |
| QuestionsPage.AlternativeCountStaysInRange | frontend/src/pages/QuestionsPage.jsx:312-382 | between 2 and 5 alternatives stay between 2 and 5 |
| QuestionsPage.AddedTag | frontend/src/pages/QuestionsPage.jsx:384-391 | a new trimmed tag is appended and the input cleared; the list stays duplicate-free |
| QuestionsPage.RemovedTag | frontend/src/pages/QuestionsPage.jsx:393-397 | exactly that tag goes, the others stay, in order |
| QuestionsPage.RemovedTagAppend | frontend/src/pages/QuestionsPage.jsx:393-397 | removing a tag distributes over concatenation, so every copy of it goes |
| QuestionsPage.RemovedTagCutsOne | frontend/src/pages/QuestionsPage.jsx:393-397 | in a duplicate-free list only its position goes, order kept |
| QuestionsPage.RemovedTagAbsent | frontend/src/pages/QuestionsPage.jsx:393-397 | removing an absent tag changes nothing |
| QuestionsPage.AddThenRemoveTag | frontend/src/pages/QuestionsPage.jsx:384-397 | adding a new tag then removing it restores the list |
| QuestionsPage.QuestionForm.constructor | frontend/src/pages/QuestionsPage.jsx:310-316 | two empty alternatives and no tags |
| QuestionsPage.QuestionForm.AddAlternative | frontend/src/pages/QuestionsPage.jsx:372-376 | the alternatives follow the rule and the 2..5 invariant is kept |
| QuestionsPage.QuestionForm.RemoveAlternative | frontend/src/pages/QuestionsPage.jsx:378-382 | the alternatives follow the rule and the invariant is kept |
| QuestionsPage.QuestionForm.SetTagInput | frontend/src/pages/QuestionsPage.jsx:508 | only the input changes |
| QuestionsPage.QuestionForm.AddTag | frontend/src/pages/QuestionsPage.jsx:384-391 | tags and input follow the rule; duplicate-free and trimmed tags are kept |
| QuestionsPage.QuestionForm.RemoveTag | frontend/src/pages/QuestionsPage.jsx:393-397 | tags follow the rule; the invariant is kept |
| QuestionsPage.QuestionForm.ResetForNew | frontend/src/pages/QuestionsPage.jsx:339-347 | two empty alternatives and no tags again, which is a valid form; the tag input is untouched |
| QuestionsPage.QuestionForm.ResetForEdit | frontend/src/pages/QuestionsPage.jsx:328-338 | a missing or non-array `alternativas` throws a TypeError and changes nothing; otherwise the alternatives are the question's and the tags its array (none when falsy); the tag input is untouched |
| QuestionsPage.KeepTruthy | frontend/src/pages/QuestionsPage.jsx:356 | exactly the truthy alternatives, never more than there were |
| QuestionsPage.KeepTruthyAppend | frontend/src/pages/QuestionsPage.jsx:356 | `filter(Boolean)` distributes over concatenation, so order and repetitions are kept |
| QuestionsPage.KeepTruthyKeepsAllTruthy | frontend/src/pages/QuestionsPage.jsx:356 | with no empty alternative the list is kept whole |
| QuestionsPage.QuestionPayload | frontend/src/pages/QuestionsPage.jsx:350-358 | the form data with the non-empty alternatives and the local tags |
| QuestionsPage.EditRoundTrip | frontend/src/pages/QuestionsPage.jsx:328-358 | editing a question whose alternatives are all non-empty and submitting gives back its alternatives and tags, an empty tag list included |
| QuestionsPage.Letter | frontend/src/pages/QuestionsPage.jsx:449 | alternative i is a capital letter |
| QuestionsPage.MarkedCorrect | frontend/src/pages/QuestionsPage.jsx:594-600 | alternative i is marked iff its letter strictly equals the answer |
| QuestionsPage.OneCorrectAlternative | frontend/src/pages/QuestionsPage.jsx:594-600 | an alternative is marked correct iff its letter is the answer, and at most one is |
| CorrectionsPage.ScoreClass | frontend/src/pages/CorrectionsPage.jsx:74 | good from 70, average from 50, poor below or without a number |
| CorrectionsPage.ApprovalBadge | frontend/src/pages/CorrectionsPage.jsx:75 | 'aprovado' iff at least 60 |
| CorrectionsPage.ApprovalTitle | frontend/src/pages/CorrectionsPage.jsx:524 | 'Aprovado' iff at least 60 |
| CorrectionsPage.Approved | frontend/src/pages/CorrectionsPage.jsx:75 | a grade of at least 60 |
| CorrectionsPage.GradeBandsAgree | frontend/src/pages/CorrectionsPage.jsx:74-75 | an approved grade is never poor; a good one is approved; 50 to 60 is average yet failed |
| CorrectionsPage.Corrected | frontend/src/pages/CorrectionsPage.jsx:72 | the item's status is 'corrigida' |
| CorrectionsPage.NotaGrade | frontend/src/pages/CorrectionsPage.jsx:69-75 | the grade the comparisons see: missing is NaN, any other value the number ComparedNumber reads from it |
| CorrectionsPage.GradeColumn | frontend/src/pages/CorrectionsPage.jsx:67-87 | '-' iff not corrected; a throw iff the grade is truthy but not a number; otherwise the class and badge of the grade and the grade to one decimal, '0.0' when falsy |
| CorrectionsPage.GradeColumnSamples | frontend/src/pages/CorrectionsPage.jsx:67-87 | a corrected 75 shows '75.0', 'score-good' and 'aprovado'; a text grade throws |
| CorrectionsPage.Fixed1 | frontend/src/pages/CorrectionsPage.jsx:80 | `toFixed(1)` of an integer ends in '.0' |
| CorrectionsPage.HitsColumn | frontend/src/pages/CorrectionsPage.jsx:89-98 | '-' unless corrected; otherwise hits/total with 0 for missing counts |
| CorrectionsPage.HitsColumnSamples | frontend/src/pages/CorrectionsPage.jsx:94-95 | no counts show "0/0"; counts show themselves |
| CorrectionsPage.TableStatusLabel | frontend/src/pages/CorrectionsPage.jsx:105 | 'Pendente' iff 'pendente', else 'Corrigida', as shown once the cell renders |
| CorrectionsPage.TableStatusCell | frontend/src/pages/CorrectionsPage.jsx:101-107 | the cell throws iff the status is present and neither a string nor null; otherwise its class is the lower-cased status or "pendente" and its caption is TableStatusLabel |
| CorrectionsPage.DetailStatusLabel | frontend/src/pages/CorrectionsPage.jsx:551 | 'Corrigida' iff 'corrigida', else 'Pendente' |
| CorrectionsPage.StatusLabelsAgreeOnKnownStatuses | frontend/src/pages/CorrectionsPage.jsx:105 | the two labels agree on the two known statuses and disagree on any other |
| CorrectionsPage.Stats | frontend/src/pages/CorrectionsPage.jsx:42-50 | the total and the two status counts, which never exceed the list |
| CorrectionsPage.CorrectOptions | frontend/src/pages/CorrectionsPage.jsx:163-171 | the correction dialog's title, button and success style, with no cancel text of its own |
| CorrectionsPage.HandleCorrectExam | frontend/src/pages/CorrectionsPage.jsx:160-177 | a corrected item is refused; any other asks to correct that id |
| CorrectionsPage.CorrectExamDialog | frontend/src/pages/CorrectionsPage.jsx:160-177 | the dialog opens titled 'Corrigir Prova' with 'Corrigir' and the default 'Cancelar' |
| CorrectionsPage.CorrectActionsOnKnownStatuses | frontend/src/pages/CorrectionsPage.jsx:128 | a pending item can always be corrected |
| CorrectionsPage.WithAnswer | frontend/src/pages/CorrectionsPage.jsx:393-398 | that question gets the answer, every other answer stays |
| CorrectionsPage.ChoosingHighlightsOne | frontend/src/pages/CorrectionsPage.jsx:455-481 | after choosing, exactly the chosen option is highlighted for that question, and other questions are unchanged |
| CorrectionsPage.AnswerSheet.constructor | frontend/src/pages/CorrectionsPage.jsx:340-341 | no exam, no answers |
| CorrectionsPage.AnswerSheet.HandleAnswerChange | frontend/src/pages/CorrectionsPage.jsx:393-398 | the answers follow the update |
| CorrectionsPage.AnswerSheet.ExamIdChanged | frontend/src/pages/CorrectionsPage.jsx:362-375 | answers are always reset; a chosen id loads a placeholder exam of ten questions |
| CorrectionsPage.AnswerSheet.Submit | frontend/src/pages/CorrectionsPage.jsx:377-391 | the answers go under `respostas`; after a save the answers are cleared and, through the form reset, the selected exam too; after a failure nothing changes |
| ExamsPage.Stats | frontend/src/pages/ExamsPage.jsx:44-49 | the total and the three status counts, which never exceed the list |
| ExamsPage.SelectedLength | frontend/src/pages/ExamsPage.jsx:80 | selected questions have a length iff they are an array, a string or an object with a `length` key; an array's is its item count, an object's that key |
| ExamsPage.SelectedLengthSamples | frontend/src/pages/ExamsPage.jsx:77-131 | {length: 2} shows 2 questions with the PDF enabled; [] shows 0 with the PDF disabled |
| ExamsPage.Actions | frontend/src/pages/ExamsPage.jsx:104-131 | generating and editing are off iff finished, the PDF iff the selected questions' `length` property is missing or falsy (an object's `length` key included), deleting never |
| ExamsPage.ActionRules | frontend/src/pages/ExamsPage.jsx:110-124 | a PDF needs a selected question; a finished exam can only be printed and deleted |
| ExamsPage.QuestionsColumn | frontend/src/pages/ExamsPage.jsx:77-81 | the selected questions' `length` property when truthy (item count, UTF-16 length, or an object's `length` key), 0 otherwise |
| ExamsPage.StatusBadgeClass | frontend/src/pages/ExamsPage.jsx:71 | the lower-cased status, 'rascunho' when missing, null or empty, a throw for any other non-string |
| ExamsPage.DeleteOptions | frontend/src/pages/ExamsPage.jsx:157-170 | the delete dialog's title, button and danger style |
| ExamsPage.DeleteAsksFirst | frontend/src/pages/ExamsPage.jsx:157-170 | deleting opens a danger dialog with 'Excluir' and the default 'Cancelar' |
| ExamsPage.CountOr0 | frontend/src/pages/ExamsPage.jsx:350 | a truthy count, else 0 |
| ExamsPage.FieldCount | frontend/src/pages/ExamsPage.jsx:480-510 | a number input's value read as a number: digits spell their value |
| ExamsPage.Total | frontend/src/pages/ExamsPage.jsx:349-350 | the intended sum of the three counts read as numbers; NumericTotalsAgree and TypedCountConcatenates relate it to the expression as written |
| ExamsPage.TotalAsWritten | frontend/src/pages/ExamsPage.jsx:349-350 | the expression as written, with JavaScript's `+` |
| ExamsPage.NumericCount | frontend/src/pages/ExamsPage.jsx:350 | a numeric or missing count reads the same either way |
| ExamsPage.NumericTotalsAgree | frontend/src/pages/ExamsPage.jsx:349-350 | with numeric counts the expression as written is the numeric total |
| ExamsPage.StringThenZeros | frontend/src/pages/ExamsPage.jsx:349-350 | a typed count followed by two zeros is concatenated, not added |
| ExamsPage.TypedCountConcatenates | frontend/src/pages/ExamsPage.jsx:349-350 | typing 3 gives the total "300" as written and 3 as intended |
| ExamsPage.ExamPayload | frontend/src/pages/ExamsPage.jsx:377-385 | the form data with its question config extended by `total`; nothing else changes |
| ExamsPage.Submitted | frontend/src/pages/ExamsPage.jsx:377-385 | the payload's total is the numeric total |
| ExamsPage.SubmittedAsWritten | frontend/src/pages/ExamsPage.jsx:377-385 | the payload as written, carrying that expression's total |
| ExamsPage.SubmittedTotal | frontend/src/pages/ExamsPage.jsx:377-385 | a typed count submits its number as intended and a string total as written, the counts as typed |
| ExamsPage.SaveCall | frontend/src/pages/ExamsPage.jsx:387-391 | editing updates that exam's id, otherwise a new exam is created, with the same payload |
| ExamsPage.DatePart | frontend/src/pages/ExamsPage.jsx:359 | the text before the first 'T' |
| ExamsPage.DatePartOfTimestamp | frontend/src/pages/ExamsPage.jsx:359 | an ISO timestamp gives its date |
| ExamsPage.EditValues | frontend/src/pages/ExamsPage.jsx:353-363 | the exam's values with '', 60 minutes and zero counts as fallbacks; a truthy non-string date throws |
| ExamsPage.BlankForm | frontend/src/pages/ExamsPage.jsx:364-373 | empty texts, 60 minutes and a total of 0 |
| ExamsPage.OpenedForm | frontend/src/pages/ExamsPage.jsx:353-375 | editing loads the exam, creating loads a blank form |
| ExamsPage.EditValuesSamples | frontend/src/pages/ExamsPage.jsx:353-363 | a stored timestamp comes back as its date; no config gives zero counts and total 0 |
| ExamsPage.GeneratorConfig | frontend/src/pages/ExamsPage.jsx:708 | the exam's config or an empty one |
| ExamsPage.GenerateNeedsQuestions | frontend/src/pages/ExamsPage.jsx:708-777 | with numeric counts "Gerar Questões" is disabled iff they add up to 0; without a config it always is |
| ExamsPage.GenerateButtonDisabled | frontend/src/pages/ExamsPage.jsx:709-777 | "Gerar Questões" is disabled iff the total as written is the number 0 |
| ExamsPage.QuestionGenerator.constructor | frontend/src/pages/ExamsPage.jsx:702-704 | step 1, nothing generated, idle |
| ExamsPage.QuestionGenerator.HandleGenerate | frontend/src/pages/ExamsPage.jsx:711-722 | busy while running; on an answer its questions and step 2; on an error nothing changes; idle afterwards |
| ExamsPage.QuestionGenerator.HandleConfirm | frontend/src/pages/ExamsPage.jsx:724-728 | back to step 1 with nothing generated |
| WebStorage.KeyValueStore.constructor | frontend/src/services/auth.js:189-240 | an empty storage area |
| WebStorage.KeyValueStore.GetItem | frontend/src/services/auth.js:190 | the stored value, null for a key that is not stored |
| WebStorage.KeyValueStore.SetItem | frontend/src/services/api.js:406 | the key maps to the value; every other key is kept |
| WebStorage.KeyValueStore.RemoveItem | frontend/src/services/api.js:418 | only that key is removed |
| JsString.LowerChar | frontend/src/components/Table.jsx:45 | a Basic Latin or Latin-1 capital maps to its small letter, which upper-cases back to it; every other character is kept |
| JsString.UpperChar | frontend/src/hooks/useAuth.js:115 | a Basic Latin or Latin-1 small letter maps to its capital, which lower-cases back to it; every other character is kept |
| JsString.LowerCaseFoldsAccents | frontend/src/components/Table.jsx:45 | "HISTÓRIA" and "História" lower-case to the same text |

## Left out

- Rendering, styling, toasts, console logging, navigation side effects other than the target path, and the camera, network and DOM themselves. Those effects are parameters (`Result` outcomes, device lists, `now`).
- JSON text, JWT base64 decoding and `JSON.stringify` are functions passed in. The round trips are stated under the hypothesis that parsing a stringified value gives it back.
- Numbers are integers. These are left out:
  - floating point: the corrections page's average, percentage and `toFixed`, and the strength bar's width;
  - the scan statistics' average time.
  
  Grades are `real` only in the corrections page.
- AuthService.IsTokenExpired: an `exp` claim that is a string, array or object is treated as NaN (never expired), rather than converted by `Number`.
- Table.Property: strings have no indexed properties in the nested lookup, only `length`.
- Table.Sorted: mixed-type, null and boolean comparisons are treated as incomparable, where JavaScript would convert the operands.
- Table.SortRows: states a sorted permutation only; it does not state that rows with equal keys keep their input order.
- AuthHooks.Initials: works on code points, and upper-cases Basic Latin and Latin-1 letters only.
- JsValue.Spread: spreading a string or an array into an object is treated as spreading nothing, where JavaScript would copy their index keys.
- Left out of the authentication service and context:
  - `forgotPassword`, `resetPassword`, `getCurrentUser`, `updateProfile`, `validateSession` and token refresh;
  - the session-check interval and the `onAuthChange` listener.
  
  They are calls to the server and timers with no rule beyond those modelled.
- The search debounce timer is left out. Service lookups by prototype keys (`toString` and the like) are not modelled.
- QuestionsPage.QuestionForm.ResetForEdit: a truthy non-array `tags_assuntos` is treated as no tags. Tags that are objects, removed by reference, are not modelled.
- CorrectionsPage.WithAnswer: answer keys are JavaScript object keys (strings). They are modelled as the question numbers they come from.
- The form library's own `required`, `minLength`, `min` and `pattern` validators are library behaviour. Only the custom `validate` rule and the values the forms hold are modelled.
- The callbacks passed to `showConfirm` are represented by the id they act on. Their effect on the server is the caller's outcome argument.
- The corrections page's "edit observations" action (CorrectionsPage.jsx:183) uses a browser prompt (I/O) and is not modelled.
- ExamsPage.QuestionGenerator.HandleGenerate: an `undefined` answer from the server is modelled as `null`, both of which throw on `.questions`.
- Table.FilterMatching, Table.Matches, QrScannerHooks.Search and QrScannerHooks.SearchFilter: `toLowerCase` is modelled for Basic Latin and Latin-1 letters. Other scripts (Greek, Cyrillic, Latin Extended) and the letters without a one-to-one Latin-1 partner (`ß`, `ÿ`, `µ`) are left as they are.
- QrCode.ScannerService.OnPageScannerDecode and QrCode.ContinuousScan.OnDecode: a throw from a call made inside the catch, and what the scanner library does with an exception that leaves its success callback, are not modelled; the deliveries made before it are.
- QrCode.DateMillis: the parsing of date text by `new Date` is a function passed in, like `JSON.parse`; only its result range is modelled.
- ApiClient.ExpirationPassed: text other than plain decimal digits (a sign, a decimal point, an exponent, surrounding spaces) compares as NaN, where `Number` would read some of it. The same holds for CorrectionsPage.NotaGrade and JsValue.TextNumber, and for an array whose joined text is of that kind.
- CorrectionsPage.Fixed1: numbers are integers here, so `toFixed(1)` always ends in ".0"; fractions and the exponent form of numbers from 1e21 up are not modelled.
- Table.WithoutRowId: a `null` row in the selection would make `row.id` throw; here it simply has no id.
- ExamsPage.Stats: the average, filters and PDF generation are server calls with no client rule.
- Dashboard, layout, loading and button components are not part of this model.

## Findings

| source | as written | input that shows it | evidently intended | confidence | as-written member | corrected member |
|---|---|---|---|---|---|---|
| frontend/src/context/AuthContext.js:328-329 | the context value replaces the `isLoading` and `isAuthenticated` flags with functions, so `useAuthStatus` reads a function (always truthy) and reports "loading" forever, and `useRequireAuth` never redirects | any state, e.g. after logout | the hooks read the state's flags | high, not executed | AuthHooks.StatusAsWritten | AuthHooks.Status |
| frontend/src/pages/LoginPage.jsx:86-92 | the page tests the context's `isLoading` function, so it always shows the loading screen instead of the form | any state, e.g. after a failed login | show the form once loading is over | high, not executed | LoginPage.ShowsLoadingAsWritten | LoginPage.ShowsLoading |
| frontend/src/pages/ExamsPage.jsx:349-350 | the number inputs hold strings once typed, and `+` concatenates them | typing 3 easy questions with 0 medium and 0 hard shows and submits the total "300" | add the counts as numbers | medium, not executed | ExamsPage.TypedCountConcatenates | ExamsPage.Submitted |
| frontend/src/components/Table.jsx:39-71 | `getNestedValue` is a `const` declared after the memoised search and sort that call it, so they throw a ReferenceError while rendering | searching "a" in a table with one row and one column | search and sort through the nested lookup | high, not executed | Table.ViewAsWritten | Table.View |
| frontend/src/pages/LoginPage.jsx:46 | the page passes `rememberMe` to the context's two-argument `login`, which drops it, so the token always goes to the session store | signing in with "remember me" checked | remember the session in the local store | high, not executed | LoginPage.SubmitSignInAsWritten | LoginPage.SubmitSignIn |

=== FILE: api_client.dfy ===
/**
 * The client-side utilities of the API layer: the per-key sliding-window rate
 * limiter, the expiring cache kept in local storage, the retry loop with
 * exponential backoff, the input validators and the pagination parameters.
 * The clock (`now`), the request being retried and the JSON text codec are
 * parameters.
 */
module ApiClient {
  import opened Outcomes
  import opened JsValue
  import opened JsString
  import WebStorage

  // ---------------------------------------------------------------- pagination

  /** paginate's query parameters: page (default 1) and limit (default 10), overlaid by the filters. */
  function PaginateParams(page: Option<Json>, limit: Option<Json>, filters: map<string, Json>): (params: map<string, Json>)
    ensures params.Keys == {"page", "limit"} + filters.Keys
    ensures forall k :: k in filters ==> params[k] == filters[k]
    ensures "page" !in filters ==> params["page"] == (if page.Some? then page.value else JNum(1))
    ensures "limit" !in filters ==> params["limit"] == (if limit.Some? then limit.value else JNum(10))
  {
    map["page" := (if page.Some? then page.value else JNum(1)),
        "limit" := (if limit.Some? then limit.value else JNum(10))] + filters
  }

  /** A JavaScript default parameter: the argument when passed, else the default. */
  function OrDefault(arg: Option<int>, default: int): int
  {
    if arg.Some? then arg.value else default
  }

  // ---------------------------------------------------------------- rate limiting

  /** `requests.filter(time => time > windowStart)` */
  function Recent(requests: seq<int>, windowStart: int): (r: seq<int>)
    ensures |r| <= |requests|
    ensures forall k :: 0 <= k < |r| ==> r[k] > windowStart
    ensures forall t :: t in r <==> t in requests && t > windowStart
  {
    if requests == [] then []
    else Recent(requests[..|requests| - 1], windowStart)
         + (if requests[|requests| - 1] > windowStart then [requests[|requests| - 1]] else [])
  }

  /** The filter keeps order: filtering a concatenation filters each part in turn. */
  lemma {:induction false} RecentAppend(a: seq<int>, b: seq<int>, windowStart: int)
    ensures Recent(a + b, windowStart) == Recent(a, windowStart) + Recent(b, windowStart)
  {
    if b != [] {
      var init, last := b[..|b| - 1], b[|b| - 1];
      assert (a + b)[..|a + b| - 1] == a + init;
      assert (a + b)[|a + b| - 1] == last;
      RecentAppend(a, init, windowStart);
    } else {
      assert a + b == a;
    }
  }

  /** A list whose times are all inside the window is its own filtered list. */
  lemma {:induction false} RecentOfRecent(requests: seq<int>, windowStart: int)
    requires forall k :: 0 <= k < |requests| ==> requests[k] > windowStart
    ensures Recent(requests, windowStart) == requests
  {
    if requests != [] {
      RecentOfRecent(requests[..|requests| - 1], windowStart);
    }
  }

  /** Filtering for a later window start keeps no more than filtering for an earlier one. */
  lemma {:induction false} RecentShrinks(requests: seq<int>, s1: int, s2: int)
    requires s1 <= s2
    ensures Recent(Recent(requests, s1), s2) == Recent(requests, s2)
  {
    if requests != [] {
      var init, last := requests[..|requests| - 1], requests[|requests| - 1];
      RecentShrinks(init, s1, s2);
      var a := Recent(init, s1);
      if last > s1 {
        assert Recent(requests, s1) == a + [last];
        assert (a + [last])[..|a + [last]| - 1] == a;
        assert Recent(a + [last], s2) == Recent(a, s2) + (if last > s2 then [last] else []);
      } else {
        assert Recent(requests, s1) == a;
      }
    }
  }

  /** rateLimit.check on one key's stored list: the verdict and the list stored afterwards. */
  function CheckKey(stored: seq<int>, maxRequests: int, windowMs: int, now: int): (res: (bool, seq<int>))
    ensures res.0 <==> |Recent(stored, now - windowMs)| < maxRequests
    ensures res.0 ==> res.1 == Recent(stored, now - windowMs) + [now]
    ensures !res.0 ==> res.1 == stored
  {
    var valid := Recent(stored, now - windowMs);
    if |valid| >= maxRequests then (false, stored) else (true, valid + [now])
  }

  /**
   * With a fixed limit and window and a clock that does not go back, a key
   * never has more than `maxRequests` admitted requests inside one window.
   */
  lemma AdmittedStayWithinLimit(stored: seq<int>, maxRequests: int, windowMs: int, now: int, later: int)
    requires windowMs > 0 && now <= later
    requires |Recent(stored, now - windowMs)| <= maxRequests
    ensures |Recent(CheckKey(stored, maxRequests, windowMs, now).1, later - windowMs)| <= maxRequests
  {
    var res := CheckKey(stored, maxRequests, windowMs, now);
    var valid := Recent(stored, now - windowMs);
    if res.0 {
      RecentOfRecent(res.1, now - windowMs);
      RecentShrinks(res.1, now - windowMs, later - windowMs);
    } else {
      RecentShrinks(stored, now - windowMs, later - windowMs);
      assert |Recent(valid, later - windowMs)| <= |valid|;
    }
  }

  /** The limiter's module-level `requestCounts` map. */
  class RateLimiter {
    var requestCounts: map<string, seq<int>>

    constructor ()
      ensures requestCounts == map[]
    {
      requestCounts := map[];
    }

    /** check(key, maxRequests = 10, windowMs = 60000); only `key` is ever touched. */
    /** The list stored for `key`, created empty when missing. */
    static function StoredList(m: map<string, seq<int>>, key: string): seq<int>
    {
      if key in m then m[key] else []
    }

    method Check(key: string, maxRequestsArg: Option<int>, windowMsArg: Option<int>, now: int) returns (allowed: bool)
      modifies this
      ensures allowed == CheckKey(StoredList(old(requestCounts), key), OrDefault(maxRequestsArg, 10),
                                  OrDefault(windowMsArg, 60000), now).0
      ensures requestCounts == old(requestCounts)[key := CheckKey(StoredList(old(requestCounts), key),
                                  OrDefault(maxRequestsArg, 10), OrDefault(windowMsArg, 60000), now).1]
    {
      var maxRequests := OrDefault(maxRequestsArg, 10);
      var windowMs := OrDefault(windowMsArg, 60000);
      var windowStart := now - windowMs;
      if key !in requestCounts {
        requestCounts := requestCounts[key := []];
      }
      var requests := requestCounts[key];
      var validRequests: seq<int> := [];
      var i := 0;
      while i < |requests|
        invariant 0 <= i <= |requests|
        invariant validRequests == Recent(requests[..i], windowStart)
      {
        assert requests[..i + 1][..i] == requests[..i];
        if requests[i] > windowStart {
          validRequests := validRequests + [requests[i]];
        }
        i := i + 1;
      }
      assert requests[..|requests|] == requests;
      if |validRequests| >= maxRequests {
        return false;
      }
      validRequests := validRequests + [now];
      requestCounts := requestCounts[key := validRequests];
      allowed := true;
    }

    method Reset(key: string)
      modifies this
      ensures requestCounts == old(requestCounts) - {key}
    {
      requestCounts := requestCounts - {key};
    }

    method Clear()
      modifies this
      ensures requestCounts == map[]
    {
      requestCounts := map[];
    }
  }

  // ---------------------------------------------------------------- cache

  const CachePrefix: string := "cache_"

  /** The record cacheUtils.set serialises. */
  function CacheEntry(data: Json, expiration: int): Json
  {
    JObj(map["data" := data, "expiration" := JNum(expiration)])
  }

  /**
   * `now > cacheData.expiration`: a missing expiration (undefined) compares
   * false; any other value is compared as the number the comparison reads
   * from it, and a NaN compares false.
   */
  predicate ExpirationPassed(expiration: Option<Json>, now: int)
  {
    expiration.Some? && ComparedNumber(expiration.value).Some? && now > ComparedNumber(expiration.value).value
  }

  /** set(key, data, expirationMinutes = 60): the entry and its expiry time, under "cache_" + key. */
  function CacheSetItems(items: map<string, string>, key: string, data: Json, minutes: Option<int>, now: int,
                         stringify: Json -> string): (r: map<string, string>)
    ensures r.Keys == items.Keys + {CachePrefix + key}
    ensures forall k :: k in items && k != CachePrefix + key ==> r[k] == items[k]
  {
    var m := if minutes.Some? then minutes.value else 60;
    items[CachePrefix + key := stringify(CacheEntry(data, now + m * 60 * 1000))]
  }

  /**
   * get(key): null (None) for a missing or empty entry, for text that does not
   * parse or parses to null, and for an expired entry, which is also removed;
   * otherwise the stored `data` (None when the record has none).
   */
  function CacheLookup(items: map<string, string>, key: string, now: int, parse: string -> Option<Json>)
    : (res: (Option<Json>, map<string, string>))
    ensures res.1 == items || res.1 == items - {CachePrefix + key}
    ensures res.1 != items ==> res.0.None?
    // nothing stored, or an empty text: null, nothing removed
    ensures CachePrefix + key !in items || items[CachePrefix + key] == "" ==> res == (None, items)
    // text that JSON.parse rejects, or the text "null": the catch gives null, nothing removed
    ensures CachePrefix + key in items && items[CachePrefix + key] != "" &&
            (parse(items[CachePrefix + key]).None? || parse(items[CachePrefix + key]) == Some(JNull)) ==>
            res == (None, items)
    // an entry whose expiration has passed: removed, and null
    ensures CachePrefix + key in items && items[CachePrefix + key] != "" &&
            parse(items[CachePrefix + key]).Some? && parse(items[CachePrefix + key]) != Some(JNull) &&
            ExpirationPassed(Get(parse(items[CachePrefix + key]).value, "expiration"), now) ==>
            res == (None, items - {CachePrefix + key})
    // a live entry: its data, the store untouched
    ensures CachePrefix + key in items && items[CachePrefix + key] != "" &&
            parse(items[CachePrefix + key]).Some? && parse(items[CachePrefix + key]) != Some(JNull) &&
            !ExpirationPassed(Get(parse(items[CachePrefix + key]).value, "expiration"), now) ==>
            res == (Get(parse(items[CachePrefix + key]).value, "data"), items)
  {
    var k := CachePrefix + key;
    if k !in items || items[k] == "" then (None, items)
    else
      var parsed := parse(items[k]);
      if parsed.None? || parsed.value == JNull then (None, items)
      else if ExpirationPassed(Get(parsed.value, "expiration"), now) then (None, items - {k})
      else (Get(parsed.value, "data"), items)
  }

  /** What was set is read back until its expiry instant, inclusive, when the codec round-trips the entry. */
  lemma CacheRoundTrip(items: map<string, string>, key: string, data: Json, minutes: int, setAt: int, now: int,
                       parse: string -> Option<Json>, stringify: Json -> string)
    requires parse(stringify(CacheEntry(data, setAt + minutes * 60000))) == Some(CacheEntry(data, setAt + minutes * 60000))
    requires stringify(CacheEntry(data, setAt + minutes * 60000)) != ""
    ensures now <= setAt + minutes * 60000 ==>
      CacheLookup(CacheSetItems(items, key, data, Some(minutes), setAt, stringify), key, now, parse)
        == (Some(data), CacheSetItems(items, key, data, Some(minutes), setAt, stringify))
    ensures now > setAt + minutes * 60000 ==>
      CacheLookup(CacheSetItems(items, key, data, Some(minutes), setAt, stringify), key, now, parse)
        == (None, items - {CachePrefix + key})
  {
    var after := CacheSetItems(items, key, data, Some(minutes), setAt, stringify);
    assert after[CachePrefix + key] == stringify(CacheEntry(data, setAt + minutes * 60000));
    assert after - {CachePrefix + key} == items - {CachePrefix + key};
  }

  method CacheSet(store: WebStorage.KeyValueStore, key: string, data: Json, minutes: Option<int>, now: int,
                  stringify: Json -> string)
    modifies store
    ensures store.items == CacheSetItems(old(store.items), key, data, minutes, now, stringify)
  {
    var m := if minutes.Some? then minutes.value else 60;
    var expirationTime := now + m * 60 * 1000;
    store.SetItem(CachePrefix + key, stringify(CacheEntry(data, expirationTime)));
  }

  method CacheGet(store: WebStorage.KeyValueStore, key: string, now: int, parse: string -> Option<Json>)
    returns (r: Option<Json>)
    modifies store
    ensures (r, store.items) == CacheLookup(old(store.items), key, now, parse)
  {
    var cached := store.GetItem(CachePrefix + key);
    if cached.None? || cached.value == "" {
      return None;
    }
    var cacheData := parse(cached.value);
    if cacheData.None? || cacheData.value == JNull {
      return None;
    }
    if ExpirationPassed(Get(cacheData.value, "expiration"), now) {
      store.RemoveItem(CachePrefix + key);
      return None;
    }
    r := Get(cacheData.value, "data");
  }

  method CacheRemove(store: WebStorage.KeyValueStore, key: string)
    modifies store
    ensures store.items == old(store.items) - {CachePrefix + key}
  {
    store.RemoveItem(CachePrefix + key);
  }

  /** clear: every key with the "cache_" prefix goes, every other key stays. */
  method CacheClear(store: WebStorage.KeyValueStore)
    modifies store
    ensures store.items == map k | k in old(store.items) && !StartsWith(k, CachePrefix) :: old(store.items)[k]
  {
    var keys := store.items.Keys;
    while keys != {}
      invariant keys <= old(store.items).Keys
      invariant store.items == map k | k in old(store.items) && (k in keys || !StartsWith(k, CachePrefix)) :: old(store.items)[k]
      decreases keys
    {
      var key :| key in keys;
      if StartsWith(key, CachePrefix) {
        store.RemoveItem(key);
      }
      keys := keys - {key};
    }
  }

  // ---------------------------------------------------------------- retry

  /** One call of the request function: it resolves, or it rejects with the response status (if any). */
  datatype Attempt = Resolved(value: Json) | Rejected(status: Option<int>)

  datatype RetryOutcome =
    | Returned(value: Json)
    | Rethrown(status: Option<int>)  // the last error
    | NoAttempt                      // `throw lastError` with lastError still undefined

  /** A rejection worth retrying: anything but a 4xx status other than 429 (section 4 of RFC 6585). */
  predicate Retryable(a: Attempt)
  {
    a.Rejected? && !(a.status.Some? && 400 <= a.status.value < 500 && a.status.value != 429)
  }

  function Pow2(i: nat): (p: nat)
    ensures p >= 1
  {
    if i == 0 then 1 else 2 * Pow2(i - 1)
  }

  /** The wait before retry k is twice the wait before retry k - 1. */
  /** The wait before retry k is twice the wait before retry k - 1. */
  lemma BackoffDoubles(delay: int, k: nat)
    requires k > 0
    ensures delay * Pow2(k) == 2 * (delay * Pow2(k - 1))
  {
  }

  /** Exponential backoff: in waits of the form RetryRequest promises, each wait doubles the one before. */
  lemma WaitsDouble(delay: int, waits: seq<int>)
    requires forall k :: 0 <= k < |waits| ==> waits[k] == delay * Pow2(k)
    ensures forall k :: 0 < k < |waits| ==> waits[k] == 2 * waits[k - 1]
  {
    forall k | 0 < k < |waits|
      ensures waits[k] == 2 * waits[k - 1]
    {
      BackoffDoubles(delay, k);
    }
  }

  /**
   * retryRequest(requestFn, maxRetries = 3, delay = 1000). `request(i)` is how
   * attempt i ends; `waits` are the backoff delays slept, in order.
   */
  method RetryRequest(request: nat -> Attempt, maxRetriesArg: Option<int>, delayArg: Option<int>)
    returns (r: RetryOutcome, attempts: nat, waits: seq<int>)
    ensures var maxRetries := if maxRetriesArg.Some? then maxRetriesArg.value else 3;
      (maxRetries < 0 <==> attempts == 0) && attempts <= (if maxRetries < 0 then 0 else maxRetries + 1)
    ensures attempts == 0 ==> r == NoAttempt && waits == []
    ensures attempts > 0 ==> |waits| == attempts - 1
    ensures var delay := if delayArg.Some? then delayArg.value else 1000;
      forall k :: 0 <= k < |waits| ==> waits[k] == delay * Pow2(k)
    ensures forall k :: 0 <= k < attempts - 1 ==> Retryable(request(k))
    ensures attempts > 0 && request(attempts - 1).Resolved? ==> r == Returned(request(attempts - 1).value)
    ensures attempts > 0 && request(attempts - 1).Rejected? ==> r == Rethrown(request(attempts - 1).status)
    ensures var maxRetries := if maxRetriesArg.Some? then maxRetriesArg.value else 3;
      attempts > 0 && Retryable(request(attempts - 1)) ==> attempts == maxRetries + 1
  {
    var maxRetries := if maxRetriesArg.Some? then maxRetriesArg.value else 3;
    var delay := if delayArg.Some? then delayArg.value else 1000;
    waits := [];
    attempts := 0;
    var i := 0;
    while i <= maxRetries
      invariant 0 <= i && attempts == i
      invariant maxRetries >= 0 ==> i <= maxRetries
      invariant maxRetries < 0 ==> i == 0
      invariant |waits| == i
      invariant forall k :: 0 <= k < i ==> waits[k] == delay * Pow2(k)
      invariant forall k :: 0 <= k < i ==> Retryable(request(k))
      decreases maxRetries + 1 - i
    {
      var outcome := request(i);
      attempts := attempts + 1;
      if outcome.Resolved? {
        return Returned(outcome.value), attempts, waits;
      }
      if !Retryable(outcome) {
        return Rethrown(outcome.status), attempts, waits;
      }
      if i == maxRetries {
        return Rethrown(outcome.status), attempts, waits;
      }
      waits := waits + [delay * Pow2(i)];
      i := i + 1;
    }
    r := NoAttempt;
  }

  // ---------------------------------------------------------------- validators

  /** `[^\s@]` */
  predicate EmailChar(c: char)
  {
    !IsJsWhitespace(c) && c != '@'
  }

  /** The pattern `^[^\s@]+@[^\s@]+\.[^\s@]+$`, spelled out: an '@' at `at` and a '.' at `dot`. */
  ghost predicate EmailPattern(s: string)
  {
    exists at, dot :: 0 < at && at + 1 < dot && dot + 1 < |s| && s[at] == '@' && s[dot] == '.' &&
      forall k :: 0 <= k < |s| && k != at ==> EmailChar(s[k])
  }

  /** validateData.email as the parts of the address: one '@', a local part, a domain with an inner '.'. */
  predicate ValidateEmail(s: string)
  {
    '@' in s &&
    var at := FirstIndex(s, '@');
    at > 0 && '@' !in s[at + 1..] && (forall k :: 0 <= k < |s| ==> !IsJsWhitespace(s[k])) &&
    HasInnerDot(s[at + 1..])
  }

  /** A '.' that is neither the first nor the last character. */
  predicate HasInnerDot(t: string)
  {
    exists d :: 0 < d < |t| - 1 && t[d] == '.'
  }

  /** The two readings agree on every string. */
  lemma EmailIff(s: string)
    ensures ValidateEmail(s) <==> EmailPattern(s)
  {
    if ValidateEmail(s) {
      var at := FirstIndex(s, '@');
      var t := s[at + 1..];
      var d :| 0 < d < |t| - 1 && t[d] == '.';
      var dot := at + 1 + d;
      assert s[dot] == t[d];
      forall k | 0 <= k < |s| && k != at ensures EmailChar(s[k]) {
        if k < at {
          assert s[k] in s[..at];
        } else {
          assert s[k] == s[at + 1..][k - at - 1];
        }
      }
      assert s[at] == '@' && s[dot] == '.';
    }
    if EmailPattern(s) {
      var at, dot :| 0 < at && at + 1 < dot && dot + 1 < |s| && s[at] == '@' && s[dot] == '.' &&
        forall k :: 0 <= k < |s| && k != at ==> EmailChar(s[k]);
      assert s[at] in s;
      var first := FirstIndex(s, '@');
      assert first == at;
      var t := s[at + 1..];
      assert '@' !in t by {
        forall j | 0 <= j < |t| ensures t[j] != '@' {
          assert t[j] == s[at + 1 + j];
        }
      }
      assert t[dot - at - 1] == '.';
    }
  }

  /** validateData.email on any value: the pattern is tested against `String(value)` ("undefined" when absent). */
  predicate ValidateEmailValue(value: Option<Json>)
  {
    ValidateEmail(if value.None? then "undefined" else JsToString(value.value))
  }

  /** validateData.password: a truthy value at least 6 long (a string counts UTF-16 code units). */
  predicate ValidatePassword(password: Option<Json>)
  {
    MinLength(password, 6)
  }

  predicate IsHex(c: char)
  {
    '0' <= c <= '9' || 'a' <= c <= 'f' || 'A' <= c <= 'F'
  }

  /** Character `k` of the case-insensitive UUID pattern: hyphens, the version digit, the variant digit, hex. */
  predicate UuidCharOk(c: char, k: int)
  {
    if k == 8 || k == 13 || k == 18 || k == 23 then c == '-'
    else if k == 14 then '1' <= c <= '5'
    else if k == 19 then c in "89abAB"
    else IsHex(c)
  }

  /** validateData.uuid */
  predicate ValidateUuid(s: string)
  {
    |s| == 36 && forall k :: 0 <= k < |s| ==> UuidCharOk(s[k], k)
  }

  function HexDigit(v: nat): char
    requires v < 16
  {
    "0123456789abcdef"[v]
  }

  function HexString(ds: seq<nat>): (r: string)
    requires forall k :: 0 <= k < |ds| ==> ds[k] < 16
    ensures |r| == |ds| && forall k :: 0 <= k < |ds| ==> r[k] == HexDigit(ds[k])
  {
    seq(|ds|, k requires 0 <= k < |ds| => HexDigit(ds[k]))
  }

  /** The string form of section 3 of RFC 4122: 32 hex digits in groups of 8-4-4-4-12. */
  function UuidText(ds: seq<nat>): (r: string)
    requires |ds| == 32 && forall k :: 0 <= k < 32 ==> ds[k] < 16
    ensures |r| == 36
  {
    HexString(ds[..8]) + "-" + HexString(ds[8..12]) + "-" + HexString(ds[12..16]) + "-"
      + HexString(ds[16..20]) + "-" + HexString(ds[20..])
  }

  /**
   * A formatted UUID passes the check iff its version (13th digit, section
   * 4.1.3 of RFC 4122) is 1 to 5 and its variant digit (17th, section 4.1.1)
   * has the bits 10xx, i.e. is 8 to 11.
   */
  lemma UuidTextValid(ds: seq<nat>)
    requires |ds| == 32 && forall k :: 0 <= k < 32 ==> ds[k] < 16
    ensures ValidateUuid(UuidText(ds)) <==> 1 <= ds[12] <= 5 && 8 <= ds[16] <= 11
  {
    var s := UuidText(ds);
    forall k | 0 <= k < 36
      ensures k !in {8, 13, 18, 23} ==> s[k] == HexDigit(ds[k - (if k < 8 then 0 else if k < 13 then 1 else if k < 18 then 2 else if k < 23 then 3 else 4)])
      ensures k in {8, 13, 18, 23} ==> s[k] == '-'
    {
    }
    if 1 <= ds[12] <= 5 && 8 <= ds[16] <= 11 {
      forall k | 0 <= k < 36 ensures UuidCharOk(s[k], k) {
      }
    }
    if ValidateUuid(s) {
      assert UuidCharOk(s[14], 14) && UuidCharOk(s[19], 19);
    }
  }

  /** The check ignores case. */
  lemma UuidIgnoresCase(s: string)
    ensures ValidateUuid(s) <==> ValidateUuid(ToLower(s))
  {
    if ValidateUuid(s) {
      forall k | 0 <= k < |s| ensures UuidCharOk(ToLower(s)[k], k) {
        assert UuidCharOk(s[k], k);
      }
    }
    if ValidateUuid(ToLower(s)) {
      forall k | 0 <= k < |s| ensures UuidCharOk(s[k], k) {
        assert UuidCharOk(ToLower(s)[k], k);
      }
    }
  }

  /** validateData.notEmpty: not null, not undefined (None), not the empty string. */
  predicate NotEmpty(value: Option<Json>)
  {
    value.Some? && value.value != JNull && value.value != JStr("")
  }

  /** validateData.minLength: a truthy value whose length is at least `min`. */
  predicate MinLength(value: Option<Json>, min: int)
  {
    TruthyOpt(value) && ComparedLength(value.value).Some? && ComparedLength(value.value).value >= min
  }

  /** validateData.maxLength: a truthy value whose length is at most `max`. */
  predicate MaxLength(value: Option<Json>, max: int)
  {
    TruthyOpt(value) && ComparedLength(value.value).Some? && ComparedLength(value.value).value <= max
  }

  /** An object with a numeric `length` passes the checks as a string of that length would. */
  lemma ObjectLengthCounts()
    ensures ValidatePassword(Some(JObj(map["length" := JNum(7)])))
    ensures MinLength(Some(JObj(map["length" := JStr("3")])), 3)
    ensures !MaxLength(Some(JObj(map["length" := JArr([JNum(9)])])), 8)
    ensures !MinLength(Some(JObj(map[])), 0)
  {
    assert TextNumber("3") == Some(3);
    ArraysCompareAsTheirText(9);
  }

  /** Both length checks refuse an empty or absent value, whatever the bound. */
  lemma LengthChecksRefuseEmpty(min: int, max: int)
    ensures !MinLength(None, min) && !MinLength(Some(JStr("")), min)
    ensures !MaxLength(None, max) && !MaxLength(Some(JStr("")), max)
  {
  }
}

=== FILE: api_hooks.dfy ===
/**
 * The data hooks: page and page-size state, the filter record, the query
 * keys and enabling rules of the entity, statistics and search queries, and
 * the defaults the list hooks return before data arrives.
 */
module ApiHooks {
  import opened Outcomes
  import opened JsValue
  import opened JsString

  // -------------------------------------------------------- pagination

  /** `Math.max(1, n)`: the page goToPage moves to. */
  function AtLeastFirst(n: int): (p: int)
    ensures p >= 1
    ensures n >= 1 ==> p == n
    ensures n < 1 ==> p == 1
  {
    if n < 1 then 1 else n
  }

  /** The page before `page`, never below the first. */
  function PreviousPage(page: int): (p: int)
    ensures p >= 1
    ensures page > 1 ==> p == page - 1
  {
    AtLeastFirst(page - 1)
  }

  /** Going forward a page and back again returns to where it started. */
  lemma BackAfterForward(page: int)
    requires page >= 1
    ensures PreviousPage(page + 1) == page
  {
  }

  /** Going back from the first page stays there. */
  lemma BackFromFirst()
    ensures PreviousPage(1) == 1
  {
  }

  /** usePagination: the current page and page size. */
  class Pagination {
    const initialPage: int
    const initialLimit: int
    var page: int
    var limit: int

    /** usePagination(initialPage = 1, initialLimit = 10) */
    constructor (initialPageArg: Option<int>, initialLimitArg: Option<int>)
      ensures initialPage == (if initialPageArg.Some? then initialPageArg.value else 1)
      ensures initialLimit == (if initialLimitArg.Some? then initialLimitArg.value else 10)
      ensures page == initialPage && limit == initialLimit
    {
      initialPage := if initialPageArg.Some? then initialPageArg.value else 1;
      initialLimit := if initialLimitArg.Some? then initialLimitArg.value else 10;
      page := if initialPageArg.Some? then initialPageArg.value else 1;
      limit := if initialLimitArg.Some? then initialLimitArg.value else 10;
    }

    method NextPage()
      modifies this
      ensures page == old(page) + 1 && limit == old(limit)
    {
      page := page + 1;
    }

    method PrevPage()
      modifies this
      ensures page == PreviousPage(old(page)) && limit == old(limit)
    {
      page := PreviousPage(page);
    }

    method GoToPage(newPage: int)
      modifies this
      ensures page == AtLeastFirst(newPage) && limit == old(limit)
    {
      page := AtLeastFirst(newPage);
    }

    /** changeLimit: a new page size starts again at page 1. */
    method ChangeLimit(newLimit: int)
      modifies this
      ensures limit == newLimit && page == 1
    {
      limit := newLimit;
      page := 1;
    }

    method Reset()
      modifies this
      ensures page == initialPage && limit == initialLimit
    {
      page := initialPage;
      limit := initialLimit;
    }
  }

  // ----------------------------------------------------------- filters

  /** A filter value counts unless it is '', `null` or `undefined`. */
  predicate Active(v: Option<Json>)
  {
    v.Some? && v.value != JStr("") && v.value != JNull
  }

  /** hasActiveFilters */
  predicate HasActive(filters: map<string, Option<Json>>)
  {
    exists k :: k in filters && Active(filters[k])
  }

  /** Setting a key to an active value makes the filters active; setting it to an inactive one leaves the rest deciding. */
  lemma {:induction false} UpdateFilterActivity(filters: map<string, Option<Json>>, key: string, value: Option<Json>)
    ensures Active(value) ==> HasActive(filters[key := value])
    ensures !Active(value) ==> (HasActive(filters[key := value]) <==> HasActive(filters - {key}))
  {
    var updated := filters[key := value];
    if Active(value) {
      assert key in updated && Active(updated[key]);
    } else {
      if HasActive(updated) {
        var k :| k in updated && Active(updated[k]);
        assert k != key && k in filters - {key};
      }
      if HasActive(filters - {key}) {
        var k :| k in filters - {key} && Active((filters - {key})[k]);
        assert k in updated && updated[k] == filters[k];
      }
    }
  }

  /** Removing an inactive key never changes whether the filters are active. */
  lemma {:induction false} RemoveInactiveFilter(filters: map<string, Option<Json>>, key: string)
    requires key in filters && !Active(filters[key])
    ensures HasActive(filters - {key}) <==> HasActive(filters)
  {
    if HasActive(filters) {
      var k :| k in filters && Active(filters[k]);
      assert k != key && k in filters - {key};
    }
    if HasActive(filters - {key}) {
      var k :| k in filters - {key} && Active((filters - {key})[k]);
      assert k in filters;
    }
  }

  /** useFilters: the filter record, keyed by filter name. */
  class Filters {
    const initialFilters: map<string, Option<Json>>
    var filters: map<string, Option<Json>>

    constructor (initial: map<string, Option<Json>>)
      ensures initialFilters == initial && filters == initial
    {
      initialFilters := initial;
      filters := initial;
    }

    /** updateFilter(key, value): only `key` changes. */
    method UpdateFilter(key: string, value: Option<Json>)
      modifies this
      ensures filters == old(filters)[key := value]
      ensures forall k :: k != key ==> (k in filters <==> k in old(filters))
      ensures forall k :: k != key && k in filters ==> filters[k] == old(filters)[k]
    {
      filters := filters[key := value];
    }

    /** removeFilter(key): only `key` goes. */
    method RemoveFilter(key: string)
      modifies this
      ensures filters == old(filters) - {key}
      ensures key !in filters
      ensures forall k :: k != key ==> (k in filters <==> k in old(filters))
    {
      filters := filters - {key};
    }

    method ClearFilters()
      modifies this
      ensures filters == initialFilters
    {
      filters := initialFilters;
    }
  }

  // -------------------------------------------------------- query keys

  /** The services apiServices defines, and those with a getStats. */
  const Services: set<string> := {"auth", "questions", "exams", "corrections", "categories"}
  const ServicesWithStats: set<string> := {"questions", "exams", "categories"}

  /** A query: its cache key and whether it runs. */
  datatype Query = Query(key: seq<Option<Json>>, enabled: Json)

  /** `{ enabled: default, ...options }`: an `enabled` option wins. */
  function EnabledWith(default: bool, options: map<string, Json>): (e: Json)
    ensures "enabled" in options ==> e == options["enabled"]
    ensures "enabled" !in options ==> e == JBool(default)
  {
    if "enabled" in options then options["enabled"] else JBool(default)
  }

  /** useEntity(entityType, id, options) */
  function EntityQuery(entityType: string, id: Option<Json>, options: map<string, Json>): (r: Result<Query, string>)
    ensures r.Failure? <==> entityType !in Services
    ensures r.Failure? ==> r.error == "Serviço não encontrado para entidade: " + entityType
    ensures r.Success? ==> r.value.key == [Some(JStr(entityType)), id]
    ensures r.Success? && "enabled" !in options ==> (r.value.enabled == JBool(true) <==> TruthyOpt(id))
  {
    if entityType !in Services then Failure("Serviço não encontrado para entidade: " + entityType)
    else Success(Query([Some(JStr(entityType)), id], EnabledWith(TruthyOpt(id), options)))
  }

  /** useStats(entityType, id = null): the key has the id only when it is truthy. */
  function StatsQuery(entityType: string, id: Option<Json>): (r: Result<Query, string>)
    ensures r.Failure? <==> entityType !in ServicesWithStats
    ensures r.Failure? ==> r.error == "Serviço de estatísticas não encontrado para: " + entityType
    ensures r.Success? && TruthyOpt(id) ==> r.value.key == [Some(JStr(entityType)), Some(JStr("stats")), id]
    ensures r.Success? && !TruthyOpt(id) ==> r.value.key == [Some(JStr(entityType)), Some(JStr("stats"))]
    ensures r.Success? ==> r.value.enabled == JBool(true)
  {
    if entityType !in ServicesWithStats then Failure("Serviço de estatísticas não encontrado para: " + entityType)
    else if TruthyOpt(id) then Success(Query([Some(JStr(entityType)), Some(JStr("stats")), id], JBool(true)))
    else Success(Query([Some(JStr(entityType)), Some(JStr("stats"))], JBool(true)))
  }

  /** The page, page size and filters of a search request: `getAll(1, 50, { search: term })`. */
  datatype ListRequest = ListRequest(page: int, limit: int, filters: map<string, Json>)

  /** useSearch: keyed by the debounced term, enabled from two UTF-16 code units on. */
  function SearchQuery(entityType: string, debouncedTerm: string, options: map<string, Json>): (r: (Query, ListRequest))
    ensures r.0.key == [Some(JStr(entityType)), Some(JStr("search")), Some(JStr(debouncedTerm))]
    ensures "enabled" !in options ==> (r.0.enabled == JBool(true) <==> Length(debouncedTerm) >= 2)
    ensures r.1 == ListRequest(1, 50, map["search" := JStr(debouncedTerm)])
  {
    (Query([Some(JStr(entityType)), Some(JStr("search")), Some(JStr(debouncedTerm))],
           EnabledWith(Length(debouncedTerm) >= 2, options)),
     ListRequest(1, 50, map["search" := JStr(debouncedTerm)]))
  }

  /** A one-character term never triggers a search unless the options say so. */
  lemma ShortTermsDoNotSearch(entityType: string, c: char)
    ensures (c as int) < 0x10000 ==> SearchQuery(entityType, [c], map[]).0.enabled == JBool(false)
  {
    assert Utf16Units([c]) == Utf16Units([]) + CodeUnits(c);
  }

  /** The lists the list hooks read: questions, exams, and corrections from `answers`. */
  datatype ListKind = Questions | Exams | Corrections

  function ListField(kind: ListKind): string
  {
    match kind
    case Questions => "questions"
    case Exams => "exams"
    case Corrections => "answers"
  }

  /** `data?.<list> || []` and `data?.pagination || {}` */
  function ListDefaults(kind: ListKind, data: Option<Json>): (r: (Json, Json))
    ensures !TruthyOpt(GetOpt(data, ListField(kind))) ==> r.0 == JArr([])
    ensures TruthyOpt(GetOpt(data, ListField(kind))) ==> r.0 == GetOpt(data, ListField(kind)).value
    ensures !TruthyOpt(GetOpt(data, "pagination")) ==> r.1 == JObj(map[])
    ensures TruthyOpt(GetOpt(data, "pagination")) ==> r.1 == GetOpt(data, "pagination").value
  {
    (OrElse(GetOpt(data, ListField(kind)), JArr([])), OrElse(GetOpt(data, "pagination"), JObj(map[])))
  }

  /** Before any data arrives every list hook shows an empty list and an empty pagination record. */
  lemma NoDataGivesEmptyList(kind: ListKind)
    ensures ListDefaults(kind, None) == (JArr([]), JObj(map[]))
    ensures ListDefaults(Corrections, Some(JObj(map["corrections" := JArr([JNum(1)])]))).0 == JArr([])
  {
    assert GetOpt(Some(JObj(map["corrections" := JArr([JNum(1)])])), "answers") == None;
  }
}

=== FILE: auth_context.dfy ===
/**
 * The authentication context's state machine: the record every component
 * sees (`user`, `token`, `isAuthenticated`, `isLoading`, `error`), the
 * actions the provider dispatches, and the reducer that answers each with a
 * fresh record.
 */
module AuthContext {
  import opened Outcomes
  import opened JsValue

  /** The reducer state; `None` is a field that was set to `undefined`. */
  datatype AuthState = AuthState(
    user: Option<Json>,
    token: Option<Json>,
    isAuthenticated: bool,
    isLoading: Json,
    error: Json)

  /** The dispatched actions; `Other` is any other action type. */
  datatype Action =
    | LoginStart
    | LoginSuccess(payload: map<string, Json>)
    | LoginFailure(failure: Json)
    | Logout
    | SetUser(payload: map<string, Json>)
    | SetLoading(loading: Json)
    | ClearError
    | UpdateUser(changes: Json)
    | Other(actionType: string)

  /** initialState: nobody signed in, still loading. */
  function InitialState(): (s: AuthState)
    ensures s.user == Some(JNull) && s.token == Some(JNull) && !s.isAuthenticated
    ensures Truthy(s.isLoading) && s.error == JNull
  {
    AuthState(Some(JNull), Some(JNull), false, JBool(true), JNull)
  }

  /** `payload.key`, `undefined` when the payload has no such key. */
  function Prop(payload: map<string, Json>, key: string): (r: Option<Json>)
    ensures r.Some? <==> key in payload
  {
    if key in payload then Some(payload[key]) else None
  }

  /** The state after signing out or a failed attempt, except for the error. */
  function SignedOut(s: AuthState, error: Json): AuthState
  {
    s.(user := Some(JNull), token := Some(JNull), isAuthenticated := false, isLoading := JBool(false), error := error)
  }

  /** authReducer */
  function Reduce(s: AuthState, a: Action): (r: AuthState)
    ensures a.LoginStart? ==>
      r.user == s.user && r.token == s.token && r.isAuthenticated == s.isAuthenticated &&
      r.isLoading == JBool(true) && r.error == JNull
    ensures a.LoginSuccess? ==>
      r.user == Prop(a.payload, "user") && r.token == Prop(a.payload, "token") &&
      r.isAuthenticated && r.isLoading == JBool(false) && r.error == JNull
    ensures a.LoginFailure? || a.Logout? ==>
      r.user == Some(JNull) && r.token == Some(JNull) && !r.isAuthenticated && r.isLoading == JBool(false)
    ensures a.LoginFailure? ==> r.error == a.failure
    ensures a.Logout? ==> r.error == JNull
    ensures a.SetUser? ==>
      r.user == Prop(a.payload, "user") && r.token == Prop(a.payload, "token") &&
      (r.isAuthenticated <==> TruthyOpt(Prop(a.payload, "user"))) && r.isLoading == JBool(false) && r.error == JNull
    ensures a.SetLoading? ==> r == s.(isLoading := a.loading)
    ensures a.ClearError? ==> r == s.(error := JNull)
    ensures a.UpdateUser? ==>
      r.token == s.token && r.isAuthenticated == s.isAuthenticated && r.isLoading == s.isLoading && r.error == s.error
    ensures a.UpdateUser? ==> r.user.Some? && r.user.value.JObj?
    ensures a.Other? ==> r == s
  {
    match a
    case LoginStart => s.(isLoading := JBool(true), error := JNull)
    case LoginSuccess(p) =>
      s.(user := Prop(p, "user"), token := Prop(p, "token"), isAuthenticated := true,
         isLoading := JBool(false), error := JNull)
    case LoginFailure(e) => SignedOut(s, e)
    case Logout => SignedOut(s, JNull)
    case SetUser(p) =>
      s.(user := Prop(p, "user"), token := Prop(p, "token"), isAuthenticated := TruthyOpt(Prop(p, "user")),
         isLoading := JBool(false), error := JNull)
    case SetLoading(l) => s.(isLoading := l)
    case ClearError => s.(error := JNull)
    case UpdateUser(changes) => s.(user := Some(JObj(UserFields(s.user) + Spread(changes))))
    case Other(_) => s
  }

  /** The properties `{ ...state.user }` copies: none from `null` or `undefined`. */
  function UserFields(user: Option<Json>): (m: map<string, Json>)
    ensures user.Some? && user.value.JObj? ==> m == user.value.fields
    ensures !(user.Some? && user.value.JObj?) ==> m == map[]
  {
    if user.Some? then Spread(user.value) else map[]
  }

  /** UPDATE_USER overlays the changes: changed keys take the new value, every other key of the user is kept. */
  lemma {:induction false} UpdateUserOverlays(s: AuthState, changes: map<string, Json>)
    ensures var u := Reduce(s, UpdateUser(JObj(changes))).user.value.fields;
      (forall k :: k in changes ==> k in u && u[k] == changes[k]) &&
      (forall k :: k in UserFields(s.user) && k !in changes ==> k in u && u[k] == UserFields(s.user)[k]) &&
      u.Keys == UserFields(s.user).Keys + changes.Keys
  {
    var u := Reduce(s, UpdateUser(JObj(changes))).user.value.fields;
    assert u == UserFields(s.user) + changes;
  }

  /** Dispatching the same action twice in a row has the effect of dispatching it once. */
  lemma {:induction false} ReduceIdempotent(s: AuthState, a: Action)
    ensures Reduce(Reduce(s, a), a) == Reduce(s, a)
  {
    match a
    case UpdateUser(changes) =>
      var once := Reduce(s, a);
      var m := UserFields(s.user) + Spread(changes);
      assert UserFields(once.user) == m;
      assert m + Spread(changes) == m;
    case _ =>
  }

  /** LOGOUT ends in the same state whatever came before. */
  lemma LogoutForgetsEverything(s: AuthState, t: AuthState)
    ensures Reduce(s, Logout) == Reduce(t, Logout)
    ensures Reduce(s, Logout) == InitialState().(isLoading := JBool(false))
  {
  }

  /** The states reached from `s` by dispatching `actions` in order. */
  function Run(s: AuthState, actions: seq<Action>): (r: AuthState)
    ensures actions == [] ==> r == s
    decreases actions
  {
    if actions == [] then s else Run(Reduce(s, actions[0]), actions[1..])
  }

  /** A recorded error and a signed-in state never coexist. */
  predicate ErrorExcludesSession(s: AuthState)
  {
    s.error != JNull ==> !s.isAuthenticated
  }

  /** Every action preserves ErrorExcludesSession. */
  lemma ReducePreservesErrorExclusion(s: AuthState, a: Action)
    requires ErrorExcludesSession(s)
    ensures ErrorExcludesSession(Reduce(s, a))
  {
  }

  /**
   * No sequence of actions leads from a state without the clash (the initial
   * state, for one) to a signed-in state that still shows an error.
   */
  lemma {:induction false} RunPreservesErrorExclusion(s: AuthState, actions: seq<Action>)
    requires ErrorExcludesSession(s)
    ensures ErrorExcludesSession(Run(s, actions))
    decreases actions
  {
    if actions != [] {
      ReducePreservesErrorExclusion(s, actions[0]);
      RunPreservesErrorExclusion(Reduce(s, actions[0]), actions[1..]);
    }
  }

  /** Whatever the provider dispatches from initialState, an error and a signed-in state never show together. */
  lemma {:induction false} NoErrorWhileSignedIn(actions: seq<Action>)
    ensures var s := Run(InitialState(), actions); s.isAuthenticated ==> s.error == JNull
  {
    RunPreservesErrorExclusion(InitialState(), actions);
  }

  /** `state.user?.id === userId` */
  predicate OwnsId(user: Option<Json>, userId: Option<Json>)
  {
    StrictEquals(if user.Some? then Get(user.value, "id") else None, userId)
  }

  /** isOwnUser */
  predicate IsOwnUser(s: AuthState, userId: Option<Json>)
  {
    OwnsId(s.user, userId)
  }

  /**
   * For a number or string id, the current user owns it iff it is a record
   * whose `id` is that value; asking about `undefined` with nobody signed in
   * holds too, since both sides are `undefined`.
   */
  lemma OwnsIdIff(user: Option<Json>, id: Json)
    ensures (id.JNum? || id.JStr?) ==>
      (OwnsId(user, Some(id)) <==> user.Some? && user.value.JObj? && "id" in user.value.fields && user.value.fields["id"] == id)
    ensures OwnsId(Some(JNull), None)
  {
  }
}

=== FILE: auth_hooks.dfy ===
/**
 * The hooks built on the authentication context: the user's initials and
 * display name, the overall status, the route guard, the permission checks
 * and where to go after signing in.
 *
 * The context value spreads the reducer state and then overrides
 * `isLoading` and `isAuthenticated` with accessor functions
 * (`ContextValue`). Hooks that destructure those two names therefore get
 * functions, which are always truthy; `StatusAsWritten` and
 * `CheckAuthAsWritten` model that, `Status` and `CheckAuth` the evident
 * intent of reading the state's booleans.
 */
module AuthHooks {
  import opened Outcomes
  import opened JsValue
  import opened JsString
  import opened AuthContext
  import AuthService

  // ---------------------------------------------------------- initials

  /** The words that are not empty, in order. */
  function NonEmptyWords(words: seq<string>): (r: seq<string>)
    ensures |r| <= |words|
    ensures forall k :: 0 <= k < |r| ==> r[k] != ""
  {
    if words == [] then []
    else (if words[0] == "" then [] else [words[0]]) + NonEmptyWords(words[1..])
  }

  /**
   * The first character of each word, in order: `word.charAt(0)` is "" for
   * an empty word, so the result holds the first character of every
   * non-empty word and nothing else.
   */
  function Firsts(words: seq<string>): (r: string)
    ensures |r| == |NonEmptyWords(words)| <= |words|
    ensures forall k :: 0 <= k < |r| ==> r[k] == NonEmptyWords(words)[k][0]
  {
    if words == [] then ""
    else (if words[0] == "" then "" else [words[0][0]]) + Firsts(words[1..])
  }

  /** Joining the first characters of a concatenation joins those of each part. */
  lemma {:induction false} FirstsAppend(a: seq<string>, b: seq<string>)
    ensures Firsts(a + b) == Firsts(a) + Firsts(b)
  {
    if a == [] {
      assert a + b == b;
    } else {
      assert (a + b)[0] == a[0];
      assert (a + b)[1..] == a[1..] + b;
      FirstsAppend(a[1..], b);
    }
  }

  /**
   * `name.split(' ').map(w => w.charAt(0)).join('').substring(0, 2).toUpperCase()`:
   * the upper-cased first characters of the first two non-empty words.
   */
  function InitialsOf(name: string): (r: string)
    ensures |r| == if |NonEmptyWords(Split(name, ' '))| < 2 then |NonEmptyWords(Split(name, ' '))| else 2
    ensures forall k :: 0 <= k < |r| ==> r[k] == UpperChar(NonEmptyWords(Split(name, ' '))[k][0])
    ensures name != "" && name[0] != ' ' ==> |r| >= 1 && r[0] == UpperChar(name[0])
  {
    var firsts := Firsts(Split(name, ' '));
    ToUpper(if |firsts| <= 2 then firsts else firsts[..2])
  }

  /** Splitting "first last" on the space gives the two words. */
  lemma {:induction false} SplitTwoWords(first: string, last: string)
    requires ' ' !in first && ' ' !in last
    ensures Split(first + " " + last, ' ') == [first, last]
  {
    var name := first + " " + last;
    assert name[|first|] == ' ';
    var i := FirstIndex(name, ' ');
    assert name[..|first|] == first;
    assert i == |first|;
    assert name[i + 1..] == last;
    assert Split(last, ' ') == [last];
  }

  /** A first and a last name give the two upper-cased initials. */
  lemma {:induction false} TwoWordInitials(first: string, last: string)
    requires first != "" && last != "" && ' ' !in first && ' ' !in last
    ensures InitialsOf(first + " " + last) == [UpperChar(first[0]), UpperChar(last[0])]
  {
    SplitTwoWords(first, last);
    assert Firsts([last]) == [last[0]] + Firsts([]);
    assert Firsts([first, last]) == [first[0]] + Firsts([last]);
  }

  /** A name made only of spaces is truthy but has no initials. */
  lemma BlankNameHasNoInitials()
    ensures InitialsOf("  ") == ""
  {
    assert Split("  ", ' ') == ["", "", ""] by {
      assert FirstIndex("  ", ' ') == 0;
      assert FirstIndex(" ", ' ') == 0;
    }
  }

  /** getInitials: 'U' without a name; None when a truthy non-string name makes `split` throw. */
  function Initials(user: Option<Json>): (r: Option<string>)
    ensures !TruthyOpt(GetOpt(user, "name")) ==> r == Some("U")
    ensures r.Some? ==> |r.value| <= 2
    ensures TruthyOpt(GetOpt(user, "name")) && GetOpt(user, "name").value.JStr? ==>
      r == Some(InitialsOf(GetOpt(user, "name").value.s))
    ensures r.None? <==> TruthyOpt(GetOpt(user, "name")) && !GetOpt(user, "name").value.JStr?
  {
    var name := GetOpt(user, "name");
    if !TruthyOpt(name) then Some("U")
    else if name.value.JStr? then Some(InitialsOf(name.value.s))
    else None
  }

  /** getDisplayName: `user?.name || user?.email || 'Usuário'`. */
  function DisplayName(user: Option<Json>): (r: Json)
    ensures TruthyOpt(GetOpt(user, "name")) ==> r == GetOpt(user, "name").value
    ensures !TruthyOpt(GetOpt(user, "name")) && TruthyOpt(GetOpt(user, "email")) ==> r == GetOpt(user, "email").value
    ensures !TruthyOpt(GetOpt(user, "name")) && !TruthyOpt(GetOpt(user, "email")) ==> r == JStr("Usuário")
    ensures Truthy(r)
  {
    OrElse(GetOpt(user, "name"), OrElse(GetOpt(user, "email"), JStr("Usuário")))
  }

  // ------------------------------------------------------ status, guard

  /** The precedence of useAuthStatus's status: loading, then error, then authenticated. */
  function StatusFrom(loading: bool, error: bool, authenticated: bool): (r: string)
    ensures r == "loading" <==> loading
    ensures r == "error" <==> !loading && error
    ensures r == "authenticated" <==> !loading && !error && authenticated
    ensures r == "unauthenticated" <==> !loading && !error && !authenticated
  {
    if loading then "loading"
    else if error then "error"
    else if authenticated then "authenticated"
    else "unauthenticated"
  }

  /** checkAuth: false (and a redirect to the login page) iff not loading and not authenticated. */
  function CheckAuthFrom(loading: bool, authenticated: bool): (allowed: bool)
    ensures !allowed <==> !loading && !authenticated
  {
    if !loading && !authenticated then false else true
  }

  /** A property of the context value: data from the state, or one of the provider's functions. */
  datatype Member = Data(v: Option<Json>) | Callable

  predicate MemberTruthy(m: Member)
  {
    m.Callable? || TruthyOpt(m.v)
  }

  /** The provider's value: `{ ...state, login, …, isLoading: isLoading, isAuthenticated: isAuthenticated, getToken }`. */
  function ContextValue(s: AuthState): (value: map<string, Member>)
    ensures "isLoading" in value && value["isLoading"] == Callable
    ensures "isAuthenticated" in value && value["isAuthenticated"] == Callable
    ensures "user" in value && value["user"] == Data(s.user)
    ensures "error" in value && value["error"] == Data(Some(s.error))
  {
    map["user" := Data(s.user), "token" := Data(s.token), "error" := Data(Some(s.error)),
        "login" := Callable, "register" := Callable, "logout" := Callable, "updateProfile" := Callable,
        "changePassword" := Callable, "forgotPassword" := Callable, "resetPassword" := Callable,
        "clearError" := Callable, "hasPermission" := Callable, "isOwnUser" := Callable,
        "getUserData" := Callable, "isLoading" := Callable, "isAuthenticated" := Callable, "getToken" := Callable]
  }

  /** useAuthStatus().status as written: reads the context value's `isLoading`, a function. */
  function StatusAsWritten(s: AuthState): string
  {
    var value := ContextValue(s);
    StatusFrom(MemberTruthy(value["isLoading"]), MemberTruthy(value["error"]), MemberTruthy(value["isAuthenticated"]))
  }

  /** useRequireAuth().checkAuth as written. */
  function CheckAuthAsWritten(s: AuthState): bool
  {
    var value := ContextValue(s);
    CheckAuthFrom(MemberTruthy(value["isLoading"]), MemberTruthy(value["isAuthenticated"]))
  }

  /** The status read from the reducer state, as the hook evidently intends. */
  function Status(s: AuthState): string
  {
    StatusFrom(Truthy(s.isLoading), Truthy(s.error), s.isAuthenticated)
  }

  /** The route guard read from the reducer state. */
  function CheckAuth(s: AuthState): bool
  {
    CheckAuthFrom(Truthy(s.isLoading), s.isAuthenticated)
  }

  /**
   * As written, the status is "loading" and the guard lets everyone through
   * in every state; read from the state, a successful login shows
   * "authenticated" and a logout sends the visitor to the login page.
   */
  lemma {:induction false} ExposedFunctionsMaskState(s: AuthState, user: Json)
    ensures StatusAsWritten(s) == "loading" && CheckAuthAsWritten(s)
    ensures Status(Reduce(s, LoginSuccess(map["user" := user]))) == "authenticated"
    ensures !CheckAuth(Reduce(s, Logout))
  {
    var value := ContextValue(s);
    assert MemberTruthy(value["isLoading"]);
  }

  /** Once loading is over the two readings of the state agree: a signed-in state is never turned away. */
  lemma CheckAuthAllowsSession(s: AuthState)
    ensures s.isAuthenticated ==> CheckAuth(s)
    ensures Status(s) == "unauthenticated" ==> !CheckAuth(s)
  {
  }

  // ------------------------------------------------------- permissions

  /** `user?.role === 'admin'` */
  predicate RoleIsAdmin(user: Option<Json>)
  {
    GetOpt(user, "role") == Some(JStr("admin"))
  }

  /** canEdit and canDelete (the same test): owner or role 'admin'. */
  predicate CanModify(user: Option<Json>, resourceUserId: Option<Json>)
  {
    OwnsId(user, resourceUserId) || RoleIsAdmin(user)
  }

  /** usePermissions().isAdmin: the service's test on the context's user. */
  predicate IsAdmin(user: Option<Json>)
  {
    user.Some? && AuthService.IsAdminUser(user.value)
  }

  /**
   * A role 'admin' may change any resource and is an admin; the `isAdmin`
   * flag alone makes `isAdmin()` hold but grants no edit or delete right
   * over someone else's resource.
   */
  lemma {:induction false} AdminRights(user: Option<Json>, rid: Option<Json>)
    ensures RoleIsAdmin(user) ==> CanModify(user, rid) && IsAdmin(user)
    ensures var flagged := Some(JObj(map["id" := JNum(1), "isAdmin" := JBool(true)]));
      IsAdmin(flagged) && !CanModify(flagged, Some(JNum(2)))
  {
    var flagged := Some(JObj(map["id" := JNum(1), "isAdmin" := JBool(true)]));
    assert GetOpt(flagged, "isAdmin") == Some(JBool(true));
    assert GetOpt(flagged, "id") == Some(JNum(1));
    assert GetOpt(flagged, "role") == None;
  }

  // ---------------------------------------------------------- redirect

  /** redirectAfterLogin's target: `location.state?.from?.pathname || '/dashboard'`. */
  function RedirectTarget(locationState: Option<Json>): (target: Json)
    ensures TruthyOpt(GetOpt(GetOpt(locationState, "from"), "pathname")) ==>
      target == GetOpt(GetOpt(locationState, "from"), "pathname").value
    ensures !TruthyOpt(GetOpt(GetOpt(locationState, "from"), "pathname")) ==> target == JStr("/dashboard")
  {
    OrElse(GetOpt(GetOpt(locationState, "from"), "pathname"), JStr("/dashboard"))
  }
}

=== FILE: auth_service.dfy ===
/**
 * The authentication service: where the token and the user record live
 * (the persistent local store when "remember me" is on, the per-tab session
 * store otherwise), the checks `login`, `register` and `changePassword` run
 * before calling the server, token expiry and the admin check.
 *
 * The read-side rules are functions of a `Stores` snapshot of both areas;
 * `AuthStorage` mutates the two stores and each of its methods ties the new
 * snapshot to those functions.
 */
module AuthService {
  import opened Outcomes
  import opened JsValue
  import opened JsString
  import opened ApiClient
  import opened WebStorage

  const TokenKey := "token"
  const UserKey := "user"
  const RememberMeKey := "rememberMe"

  /** The contents of `localStorage` and `sessionStorage`. */
  datatype Stores = Stores(local: map<string, string>, session: map<string, string>)

  /** `getItem(key)` on one area. */
  function Lookup(m: map<string, string>, key: string): Option<string>
  {
    if key in m then Some(m[key]) else None
  }

  /** A stored string is truthy iff it is present and non-empty. */
  predicate TruthyItem(item: Option<string>)
  {
    item.Some? && item.value != ""
  }

  /** `localStorage.getItem(key) || sessionStorage.getItem(key)` */
  function LocalOrSession(st: Stores, key: string): (r: Option<string>)
    ensures TruthyItem(r) <==> TruthyItem(Lookup(st.local, key)) || TruthyItem(Lookup(st.session, key))
    ensures TruthyItem(Lookup(st.local, key)) ==> r == Lookup(st.local, key)
  {
    var l := Lookup(st.local, key);
    if TruthyItem(l) then l else Lookup(st.session, key)
  }

  // ------------------------------------------------------------- token

  /** getToken */
  function Token(st: Stores): Option<string>
  {
    LocalOrSession(st, TokenKey)
  }

  /** The stores after setToken(token, remember). */
  function SetTokenSpec(st: Stores, token: string, remember: bool): (r: Stores)
    ensures remember ==> r.session == st.session && r.local == st.local[TokenKey := token][RememberMeKey := "true"]
    ensures !remember ==> r.session == st.session[TokenKey := token] && r.local == st.local - {RememberMeKey}
  {
    if remember then Stores(st.local[TokenKey := token][RememberMeKey := "true"], st.session)
    else Stores(st.local - {RememberMeKey}, st.session[TokenKey := token])
  }

  /** The stores after removeToken. */
  function RemoveTokenSpec(st: Stores): (r: Stores)
    ensures r.local == st.local - {TokenKey, RememberMeKey} && r.session == st.session - {TokenKey}
  {
    Stores(st.local - {TokenKey} - {RememberMeKey}, st.session - {TokenKey})
  }

  /** isAuthenticated: `!!getToken()`. */
  predicate IsAuthenticated(st: Stores)
  {
    TruthyItem(Token(st))
  }

  /** Authenticated iff either area holds a non-empty token. */
  lemma AuthenticatedIff(st: Stores)
    ensures IsAuthenticated(st) <==>
      (TokenKey in st.local && st.local[TokenKey] != "") || (TokenKey in st.session && st.session[TokenKey] != "")
  {
  }

  /** A remembered token is the one getToken reads back (an empty one is falsy and falls through). */
  lemma RememberedTokenIsRead(st: Stores, token: string)
    ensures token != "" ==> Token(SetTokenSpec(st, token, true)) == Some(token)
    ensures token == "" ==> Token(SetTokenSpec(st, token, true)) == Lookup(st.session, TokenKey)
  {
  }

  /**
   * A session token is read back unless a non-empty token is still in the
   * local store, which getToken prefers.
   */
  lemma SessionTokenIsRead(st: Stores, token: string)
    ensures TruthyItem(Lookup(st.local, TokenKey)) ==> Token(SetTokenSpec(st, token, false)) == Lookup(st.local, TokenKey)
    ensures !TruthyItem(Lookup(st.local, TokenKey)) ==> Token(SetTokenSpec(st, token, false)) == Some(token)
  {
  }

  // -------------------------------------------------------------- user

  /** getUser: the parsed record, `null` when absent or unparseable. */
  function User(st: Stores, parse: string -> Option<Json>): (u: Json)
    ensures !TruthyItem(LocalOrSession(st, UserKey)) ==> u == JNull
    ensures TruthyItem(LocalOrSession(st, UserKey)) && parse(LocalOrSession(st, UserKey).value).None? ==> u == JNull
    ensures TruthyItem(LocalOrSession(st, UserKey)) && parse(LocalOrSession(st, UserKey).value).Some? ==>
      u == parse(LocalOrSession(st, UserKey).value).value
  {
    var text := LocalOrSession(st, UserKey);
    if TruthyItem(text) then
      match parse(text.value)
      case Some(v) => v
      case None => JNull
    else JNull
  }

  /** The stores after setUser(user, remember), given `JSON.stringify(user)`. */
  function SetUserSpec(st: Stores, userData: string, remember: bool): (r: Stores)
    ensures remember || TruthyItem(Lookup(st.local, RememberMeKey)) ==>
      r == Stores(st.local[UserKey := userData], st.session)
    ensures !(remember || TruthyItem(Lookup(st.local, RememberMeKey))) ==>
      r == Stores(st.local, st.session[UserKey := userData])
  {
    if remember || TruthyItem(Lookup(st.local, RememberMeKey)) then Stores(st.local[UserKey := userData], st.session)
    else Stores(st.local, st.session[UserKey := userData])
  }

  /** The stores after removeUser. */
  function RemoveUserSpec(st: Stores): (r: Stores)
    ensures r.local == st.local - {UserKey} && r.session == st.session - {UserKey}
  {
    Stores(st.local - {UserKey}, st.session - {UserKey})
  }

  /** The stores after clearStorage. */
  function ClearStorageSpec(st: Stores): (r: Stores)
    ensures r.local == st.local - {TokenKey, UserKey, RememberMeKey}
    ensures r.session == st.session - {TokenKey, UserKey}
  {
    var s := RemoveUserSpec(RemoveTokenSpec(st));
    Stores(s.local - {RememberMeKey}, s.session)
  }

  /**
   * A user stored by setUser is the one getUser reads back, provided the
   * text parses back to it, except that a session write is shadowed by a
   * user record still present in the local store.
   */
  lemma {:induction false} StoredUserIsRead(st: Stores, user: Json, remember: bool,
                                            stringify: Json -> string, parse: string -> Option<Json>)
    requires stringify(user) != "" && parse(stringify(user)) == Some(user)
    ensures var after := SetUserSpec(st, stringify(user), remember);
      (remember || TruthyItem(Lookup(st.local, RememberMeKey)) || !TruthyItem(Lookup(st.local, UserKey))) ==>
        User(after, parse) == user
    ensures var after := SetUserSpec(st, stringify(user), remember);
      (!remember && !TruthyItem(Lookup(st.local, RememberMeKey)) && TruthyItem(Lookup(st.local, UserKey))) ==>
        User(after, parse) == User(st, parse)
  {
    var after := SetUserSpec(st, stringify(user), remember);
    if remember || TruthyItem(Lookup(st.local, RememberMeKey)) {
      assert Lookup(after.local, UserKey) == Some(stringify(user));
    } else if !TruthyItem(Lookup(st.local, UserKey)) {
      assert Lookup(after.local, UserKey) == Lookup(st.local, UserKey);
      assert Lookup(after.session, UserKey) == Some(stringify(user));
    } else {
      assert Lookup(after.local, UserKey) == Lookup(st.local, UserKey);
    }
  }

  /** After clearStorage nobody is signed in, there is no user, the token counts as expired and nobody is admin. */
  lemma ClearStorageLogsOut(st: Stores, parse: string -> Option<Json>, decode: string -> Option<Json>, now: int)
    ensures !IsAuthenticated(ClearStorageSpec(st))
    ensures User(ClearStorageSpec(st), parse) == JNull
    ensures IsTokenExpired(ClearStorageSpec(st), decode, now)
    ensures !IsAdmin(ClearStorageSpec(st), parse)
  {
    var c := ClearStorageSpec(st);
    assert Lookup(c.local, TokenKey) == None && Lookup(c.session, TokenKey) == None;
    assert Lookup(c.local, UserKey) == None && Lookup(c.session, UserKey) == None;
  }

  // ------------------------------------------------------ token expiry

  /**
   * `exp < Date.now() / 1000` for a claim read from the payload (RFC 7519
   * section 4.1.4: seconds since the epoch). `undefined` and non-numeric
   * claims compare as NaN, i.e. false; `null` and booleans convert to 0 and 1.
   */
  predicate ExpBefore(exp: Option<Json>, now: int)
  {
    match exp
    case Some(JNum(e)) => e * 1000 < now
    case Some(JNull) => 0 < now
    case Some(JBool(b)) => (if b then 1000 else 0) < now
    case _ => false
  }

  /**
   * isTokenExpired, given `decode` for `JSON.parse(atob(token.split('.')[1]))`
   * (None when any step throws): no token or an undecodable one counts as
   * expired; a `null` payload throws on `.exp` and counts as expired too.
   */
  predicate IsTokenExpired(st: Stores, decode: string -> Option<Json>, now: int)
  {
    var token := Token(st);
    if !TruthyItem(token) then true
    else
      match decode(token.value)
      case None => true
      case Some(payload) => payload == JNull || ExpBefore(Get(payload, "exp"), now)
  }

  /** The expiry rule for a decoded payload with a numeric `exp` claim, and the no-token and undecodable cases. */
  lemma TokenExpiryIff(st: Stores, decode: string -> Option<Json>, now: int)
    ensures !IsAuthenticated(st) ==> IsTokenExpired(st, decode, now)
    ensures IsAuthenticated(st) && decode(Token(st).value).None? ==> IsTokenExpired(st, decode, now)
    ensures forall e: int, fields: map<string, Json> ::
      IsAuthenticated(st) && decode(Token(st).value) == Some(JObj(fields)) && "exp" in fields && fields["exp"] == JNum(e) ==>
        (IsTokenExpired(st, decode, now) <==> e * 1000 < now)
    ensures forall fields: map<string, Json> ::
      IsAuthenticated(st) && decode(Token(st).value) == Some(JObj(fields)) && "exp" !in fields ==> !IsTokenExpired(st, decode, now)
  {
  }

  // ------------------------------------------------------------- admin

  /** `user?.role === 'admin' || user?.isAdmin`, as a truth value. */
  predicate IsAdminUser(user: Json)
  {
    Get(user, "role") == Some(JStr("admin")) || TruthyOpt(Get(user, "isAdmin"))
  }

  /** isAdmin on the stored user. */
  predicate IsAdmin(st: Stores, parse: string -> Option<Json>)
  {
    IsAdminUser(User(st, parse))
  }

  /** Only an object can be an admin, and the two ways of being one are both enough. */
  lemma AdminIff(user: Json)
    ensures IsAdminUser(user) ==> user.JObj?
    ensures user.JObj? ==> (IsAdminUser(user) <==>
      ("role" in user.fields && user.fields["role"] == JStr("admin")) ||
      ("isAdmin" in user.fields && Truthy(user.fields["isAdmin"])))
  {
  }

  // ------------------------------------------------------- validations

  /** What login, register and changePassword throw: a message, the server's error, or a TypeError. */
  datatype AuthError = Refused(message: string) | RequestFailed(reason: string) | NotAnObject

  /** The check login runs before calling the server: the first failing one's message. */
  function LoginCheck(email: Option<Json>, password: Option<Json>): (r: Option<string>)
    ensures r.None? <==> ValidateEmailValue(email) && ValidatePassword(password)
    ensures r == Some("Email inválido") <==> !ValidateEmailValue(email)
    ensures r == Some("Senha deve ter pelo menos 6 caracteres") <==> ValidateEmailValue(email) && !ValidatePassword(password)
  {
    if !ValidateEmailValue(email) then Some("Email inválido")
    else if !ValidatePassword(password) then Some("Senha deve ter pelo menos 6 caracteres")
    else None
  }

  /** The checks register runs on the form data: name, then email, then password. */
  function RegisterCheck(userData: map<string, Json>): (r: Option<string>)
    ensures r.None? <==>
      NotEmpty(Field(userData, "name")) && ValidateEmailValue(Field(userData, "email")) && ValidatePassword(Field(userData, "password"))
    ensures r == Some("Nome é obrigatório") <==> !NotEmpty(Field(userData, "name"))
    ensures NotEmpty(Field(userData, "name")) ==> r == LoginCheck(Field(userData, "email"), Field(userData, "password"))
  {
    if !NotEmpty(Field(userData, "name")) then Some("Nome é obrigatório")
    else LoginCheck(Field(userData, "email"), Field(userData, "password"))
  }

  function Field(m: map<string, Json>, key: string): Option<Json>
  {
    if key in m then Some(m[key]) else None
  }

  /** The checks changePassword runs before calling the server. */
  function ChangePasswordCheck(current: Option<Json>, next: Option<Json>): (r: Option<string>)
    ensures r.None? <==> NotEmpty(current) && ValidatePassword(next) && !StrictEquals(current, next)
    ensures r == Some("Senha atual é obrigatória") <==> !NotEmpty(current)
    ensures r == Some("Nova senha deve ter pelo menos 6 caracteres") <==> NotEmpty(current) && !ValidatePassword(next)
    ensures r == Some("A nova senha deve ser diferente da atual") <==>
      NotEmpty(current) && ValidatePassword(next) && StrictEquals(current, next)
  {
    if !NotEmpty(current) then Some("Senha atual é obrigatória")
    else if !ValidatePassword(next) then Some("Nova senha deve ter pelo menos 6 caracteres")
    else if StrictEquals(current, next) then Some("A nova senha deve ser diferente da atual")
    else None
  }

  /** Reusing the current password is refused for every string long enough to pass the length check. */
  lemma SamePasswordRefused(p: string)
    requires Length(p) >= 6
    ensures ChangePasswordCheck(Some(JStr(p)), Some(JStr(p))) == Some("A nova senha deve ser diferente da atual")
  {
  }

  /** What a successful login or registration resolves to. */
  datatype Session = Session(user: Json, token: Json, message: Json)

  /**
   * What login and register do with the server's answer: both `token` and
   * `user` must be truthy, a `null` answer throws on the property read, and
   * the message is the server's when it sent one, else the default.
   */
  function AcceptResponse(response: Json, defaultMessage: string): (r: Result<Session, AuthError>)
    ensures r.Success? <==> TruthyOpt(Get(response, "token")) && TruthyOpt(Get(response, "user"))
    ensures r.Success? ==> r.value.token == response.fields["token"] && r.value.user == response.fields["user"]
    ensures r.Success? ==> r.value.message == OrElse(Get(response, "message"), JStr(defaultMessage))
    ensures r.Success? && !TruthyOpt(Get(response, "message")) ==> r.value.message == JStr(defaultMessage)
    ensures response == JNull ==> r == Failure(NotAnObject)
  {
    if response == JNull then Failure(NotAnObject)
    else if TruthyOpt(Get(response, "token")) && TruthyOpt(Get(response, "user")) then
      Success(Session(response.fields["user"], response.fields["token"],
                      OrElse(Get(response, "message"), JStr(defaultMessage))))
    else Failure(Refused("Resposta inválida do servidor"))
  }

  /** The authentication service over the two storage areas. */
  class AuthStorage {
    const local: KeyValueStore
    const session: KeyValueStore

    constructor (local: KeyValueStore, session: KeyValueStore)
      requires local != session
      ensures this.local == local && this.session == session
    {
      this.local := local;
      this.session := session;
    }

    function Snapshot(): Stores
      reads local, session
    {
      Stores(local.items, session.items)
    }

    method SetToken(token: string, remember: bool)
      requires local != session
      modifies local, session
      ensures Snapshot() == SetTokenSpec(old(Snapshot()), token, remember)
    {
      if remember {
        local.SetItem(TokenKey, token);
        local.SetItem(RememberMeKey, "true");
      } else {
        session.SetItem(TokenKey, token);
        local.RemoveItem(RememberMeKey);
      }
    }

    method RemoveToken()
      requires local != session
      modifies local, session
      ensures Snapshot() == RemoveTokenSpec(old(Snapshot()))
    {
      local.RemoveItem(TokenKey);
      session.RemoveItem(TokenKey);
      local.RemoveItem(RememberMeKey);
    }

    method SetUser(user: Json, remember: bool, stringify: Json -> string)
      requires local != session
      modifies local, session
      ensures Snapshot() == SetUserSpec(old(Snapshot()), stringify(user), remember)
    {
      var userData := stringify(user);
      var flag := local.GetItem(RememberMeKey);
      if remember || TruthyItem(flag) {
        local.SetItem(UserKey, userData);
      } else {
        session.SetItem(UserKey, userData);
      }
    }

    method RemoveUser()
      requires local != session
      modifies local, session
      ensures Snapshot() == RemoveUserSpec(old(Snapshot()))
    {
      local.RemoveItem(UserKey);
      session.RemoveItem(UserKey);
    }

    method ClearStorage()
      requires local != session
      modifies local, session
      ensures Snapshot() == ClearStorageSpec(old(Snapshot()))
    {
      RemoveToken();
      RemoveUser();
      local.RemoveItem(RememberMeKey);
    }

    /**
     * login(email, password, rememberMe): the checks, then the server call
     * (`response`: its answer or the reason it failed), then the two writes.
     * Storage changes only on success.
     */
    method Login(email: Option<Json>, password: Option<Json>, remember: bool,
                 response: Result<Json, string>, stringify: Json -> string)
      returns (r: Result<Session, AuthError>)
      requires local != session
      modifies local, session
      ensures LoginCheck(email, password).Some? ==> r == Failure(Refused(LoginCheck(email, password).value))
      ensures LoginCheck(email, password).None? && response.Failure? ==> r == Failure(RequestFailed(response.error))
      ensures LoginCheck(email, password).None? && response.Success? ==>
        r == AcceptResponse(response.value, "Login realizado com sucesso")
      ensures r.Failure? ==> Snapshot() == old(Snapshot())
      ensures r.Success? ==> (Snapshot() ==
        SetUserSpec(SetTokenSpec(old(Snapshot()), JsToString(r.value.token), remember), stringify(r.value.user), remember))
    {
      var check := LoginCheck(email, password);
      if check.Some? {
        return Failure(Refused(check.value));
      }
      if response.Failure? {
        return Failure(RequestFailed(response.error));
      }
      r := AcceptResponse(response.value, "Login realizado com sucesso");
      if r.Success? {
        SetToken(JsToString(r.value.token), remember);
        SetUser(r.value.user, remember, stringify);
      }
    }

    /** register(userData): the checks, the server call, then both writes without "remember me". */
    method Register(userData: map<string, Json>, response: Result<Json, string>, stringify: Json -> string)
      returns (r: Result<Session, AuthError>)
      requires local != session
      modifies local, session
      ensures RegisterCheck(userData).Some? ==> r == Failure(Refused(RegisterCheck(userData).value))
      ensures RegisterCheck(userData).None? && response.Failure? ==> r == Failure(RequestFailed(response.error))
      ensures RegisterCheck(userData).None? && response.Success? ==>
        r == AcceptResponse(response.value, "Conta criada com sucesso")
      ensures r.Failure? ==> Snapshot() == old(Snapshot())
      ensures r.Success? ==> (Snapshot() ==
        SetUserSpec(SetTokenSpec(old(Snapshot()), JsToString(r.value.token), false), stringify(r.value.user), false))
    {
      var check := RegisterCheck(userData);
      if check.Some? {
        return Failure(Refused(check.value));
      }
      if response.Failure? {
        return Failure(RequestFailed(response.error));
      }
      r := AcceptResponse(response.value, "Conta criada com sucesso");
      if r.Success? {
        SetToken(JsToString(r.value.token), false);
        SetUser(r.value.user, false, stringify);
      }
    }
  }

  /** A successful login with a string token leaves the client signed in, whichever store it went to. */
  lemma {:induction false} LoginAuthenticates(st: Stores, token: string, userData: string, remember: bool)
    requires token != ""
    ensures IsAuthenticated(SetUserSpec(SetTokenSpec(st, token, remember), userData, remember))
  {
    var a := SetTokenSpec(st, token, remember);
    var b := SetUserSpec(a, userData, remember);
    assert b.local - {UserKey} == a.local - {UserKey} && b.session - {UserKey} == a.session - {UserKey};
    assert Lookup(b.local, TokenKey) == Lookup(a.local, TokenKey);
    assert Lookup(b.session, TokenKey) == Lookup(a.session, TokenKey);
    if remember {
      assert Lookup(a.local, TokenKey) == Some(token);
    } else {
      assert Lookup(a.session, TokenKey) == Some(token);
    }
  }
}

=== FILE: corrections_page.dfy ===
/**
 * The corrections page: how a grade is classified and shown, the status
 * labels, the counters, the "correct this exam" guard and the manual
 * correction form's answer sheet.
 */
module CorrectionsPage {
  import opened Outcomes
  import opened JsValue
  import opened JsString
  import opened Listing
  import Modal

  // --------------------------------------------------------------- grades

  /**
   * A grade as the comparisons `value >= 70` see it: a number, or None for
   * a value that compares false with every threshold (undefined, or a
   * non-numeric string). `null` compares as 0.
   */
  type Grade = Option<real>

  /** The score colour: good from 70, average from 50, poor below. */
  function ScoreClass(grade: Grade): (c: string)
    ensures c == "score-good" <==> grade.Some? && grade.value >= 70.0
    ensures c == "score-average" <==> grade.Some? && 50.0 <= grade.value < 70.0
    ensures c == "score-poor" <==> grade.None? || grade.value < 50.0
  {
    if grade.Some? && grade.value >= 70.0 then "score-good"
    else if grade.Some? && grade.value >= 50.0 then "score-average"
    else "score-poor"
  }

  /** Passing from 60. */
  predicate Approved(grade: Grade)
  {
    grade.Some? && grade.value >= 60.0
  }

  /** The approval badge in the table (lower case) and in the detail view (capitalised). */
  function ApprovalBadge(grade: Grade): (r: string)
    ensures r == "aprovado" <==> Approved(grade)
    ensures r == "reprovado" <==> !Approved(grade)
  {
    if Approved(grade) then "aprovado" else "reprovado"
  }

  function ApprovalTitle(grade: Grade): (r: string)
    ensures r == "Aprovado" <==> Approved(grade)
    ensures r == "Reprovado" <==> !Approved(grade)
  {
    if Approved(grade) then "Aprovado" else "Reprovado"
  }

  /**
   * The two classifications agree: an approved grade is never shown as
   * poor, and a good grade is always approved; between 50 and 60 a grade
   * is average yet failed.
   */
  lemma {:induction false} GradeBandsAgree(grade: Grade)
    ensures Approved(grade) ==> ScoreClass(grade) != "score-poor"
    ensures ScoreClass(grade) == "score-good" ==> Approved(grade)
    ensures grade.Some? && 50.0 <= grade.value < 60.0 ==> ScoreClass(grade) == "score-average" && !Approved(grade)
  {
  }

  // ---------------------------------------------------------- table cells

  /**
   * The grade column: '-' unless corrected, else the colour, the badge and
   * the grade as shown; `Throws` when the grade is truthy but not a number,
   * which has no `toFixed`.
   */
  datatype GradeCell = Dash | Score(scoreClass: string, badge: string, shown: string) | Throws

  predicate Corrected(item: Json)
  {
    HasField(item, "status", "corrigida")
  }

  /**
   * The item's `nota` as the comparisons `value >= 70` and so on see it:
   * undefined is NaN (None), any other value the number the comparison reads
   * from it, so an empty array is 0 and a one-number array its number.
   */
  function NotaGrade(nota: Option<Json>): (g: Grade)
    ensures nota.None? ==> g.None?
    ensures nota.Some? && nota.value.JNum? ==> g == Some(nota.value.n as real)
    ensures nota == Some(JNull) ==> g == Some(0.0)
    ensures nota.Some? ==> (g.Some? <==> ComparedNumber(nota.value).Some?)
    ensures nota.Some? && g.Some? ==> g.value == ComparedNumber(nota.value).value as real
  {
    if nota.Some? && ComparedNumber(nota.value).Some? then Some(ComparedNumber(nota.value).value as real) else None
  }

  /** `value ? value.toFixed(1) : '0.0'` for a number: one decimal place, which is 0 for an integer. */
  function Fixed1(n: int): (r: string)
    ensures |r| >= 3 && r[|r| - 2..] == ".0"
  {
    IntToString(n) + ".0"
  }

  /**
   * The grade column: '-' unless the item is corrected, else the class and
   * badge of its `nota` and the grade to one decimal, '0.0' when it is falsy.
   */
  function GradeColumn(item: Json): (c: GradeCell)
    ensures c == Dash <==> !Corrected(item)
    ensures c == Throws <==> Corrected(item) && TruthyOpt(Get(item, "nota")) && !Get(item, "nota").value.JNum?
    ensures c.Score? ==> c.scoreClass == ScoreClass(NotaGrade(Get(item, "nota"))) &&
                         c.badge == ApprovalBadge(NotaGrade(Get(item, "nota")))
    ensures c.Score? && !TruthyOpt(Get(item, "nota")) ==> c.shown == "0.0"
    ensures c.Score? && TruthyOpt(Get(item, "nota")) ==> c.shown == Fixed1(Get(item, "nota").value.n)
    ensures Corrected(item) && Get(item, "nota").None? ==> c == Score("score-poor", "reprovado", "0.0")
    ensures Corrected(item) && Get(item, "nota") == Some(JNull) ==> c == Score("score-poor", "reprovado", "0.0")
  {
    var nota := Get(item, "nota");
    var grade := NotaGrade(nota);
    if !Corrected(item) then Dash
    else if !TruthyOpt(nota) then Score(ScoreClass(grade), ApprovalBadge(grade), "0.0")
    else if nota.value.JNum? then Score(ScoreClass(grade), ApprovalBadge(grade), Fixed1(nota.value.n))
    else Throws
  }

  /** A corrected 75 shows "75.0", approved; a corrected text grade breaks the cell. */
  lemma GradeColumnSamples()
    ensures GradeColumn(JObj(map["status" := JStr("corrigida"), "nota" := JNum(75)])) == Score("score-good", "aprovado", "75.0")
    ensures GradeColumn(JObj(map["status" := JStr("corrigida"), "nota" := JStr("75")])) == Throws
  {
    var passed := JObj(map["status" := JStr("corrigida"), "nota" := JNum(75)]);
    assert Corrected(passed) && Get(passed, "nota") == Some(JNum(75));
    assert NotaGrade(Get(passed, "nota")) == Some(75.0);
    assert Fixed1(75) == "75.0" by {
      assert NatToString(7) == [DigitChar(7)];
      assert DigitChar(7) == '7';
      assert NatToString(75) == NatToString(7) + [DigitChar(5)];
    }
    var text := JObj(map["status" := JStr("corrigida"), "nota" := JStr("75")]);
    assert Corrected(text) && Get(text, "nota") == Some(JStr("75"));
  }

  /** The hits column: `acertos/total_questoes` with 0 for falsy values, only once corrected. */
  function HitsColumn(item: Json): (r: string)
    ensures !Corrected(item) ==> r == "-"
    ensures Corrected(item) ==> r == JsToString(OrElse(Get(item, "acertos"), JNum(0))) + "/" +
                                     JsToString(OrElse(Get(item, "total_questoes"), JNum(0)))
  {
    if !Corrected(item) then "-"
    else JsToString(OrElse(Get(item, "acertos"), JNum(0))) + "/" + JsToString(OrElse(Get(item, "total_questoes"), JNum(0)))
  }

  /** A corrected item without counts shows "0/0"; one with counts shows them. */
  lemma {:induction false} HitsColumnSamples(hits: nat, total: nat)
    ensures HitsColumn(JObj(map["status" := JStr("corrigida")])) == "0/0"
    ensures hits > 0 && total > 0 ==>
      HitsColumn(JObj(map["status" := JStr("corrigida"), "acertos" := JNum(hits), "total_questoes" := JNum(total)])) ==
      NatToString(hits) + "/" + NatToString(total)
  {
    assert Get(JObj(map["status" := JStr("corrigida")]), "acertos") == None;
  }

  /** The table's status label, once the cell renders (see TableStatusCell): 'Pendente' only for 'pendente'. */
  function TableStatusLabel(status: Option<Json>): (r: string)
    ensures r == "Pendente" <==> status == Some(JStr("pendente"))
    ensures r != "Pendente" ==> r == "Corrigida"
  {
    if status == Some(JStr("pendente")) then "Pendente" else "Corrigida"
  }

  /** The table's status cell: a badge of class `value?.toLowerCase() || 'pendente'` with its label. */
  datatype StatusCell = StatusCell(className: string, caption: string)

  /**
   * The status column's render. A present status that is neither text nor
   * null has no `toLowerCase`, so the cell throws before any label is shown:
   * None.
   */
  function TableStatusCell(status: Option<Json>): (r: Option<StatusCell>)
    ensures r.None? <==> status.Some? && !status.value.JStr? && !status.value.JNull?
    ensures r.Some? ==> r.value.caption == TableStatusLabel(status)
    ensures r.Some? ==> Some(r.value.className) == BadgeClass(status, "pendente")
    ensures status == Some(JStr("pendente")) ==> r == Some(StatusCell("pendente", "Pendente"))
    ensures status.None? ==> r == Some(StatusCell("pendente", "Corrigida"))
  {
    var cls := BadgeClass(status, "pendente");
    ToLowerWithoutCapitals("pendente");
    if cls.None? then None else Some(StatusCell(cls.value, TableStatusLabel(status)))
  }

  /** The detail view's status label: 'Corrigida' only for 'corrigida'. */
  function DetailStatusLabel(status: Option<Json>): (r: string)
    ensures r == "Corrigida" <==> status == Some(JStr("corrigida"))
    ensures r != "Corrigida" ==> r == "Pendente"
  {
    if status == Some(JStr("corrigida")) then "Corrigida" else "Pendente"
  }

  /**
   * The table and the detail view label the two known statuses the same
   * way, and differ on every other status (or a missing one).
   */
  lemma {:induction false} StatusLabelsAgreeOnKnownStatuses(status: Option<Json>)
    ensures status == Some(JStr("pendente")) || status == Some(JStr("corrigida")) ==>
      TableStatusLabel(status) == DetailStatusLabel(status)
    ensures status != Some(JStr("pendente")) && status != Some(JStr("corrigida")) ==>
      TableStatusLabel(status) == "Corrigida" && DetailStatusLabel(status) == "Pendente"
  {
  }

  // ------------------------------------------------------------- counters

  datatype CorrectionStats = CorrectionStats(total: Json, pendente: nat, corrigida: nat)

  /** The header counters (the average is left out). */
  function Stats(corrections: seq<Json>, pagination: Json): (s: CorrectionStats)
    ensures s.total == OrElse(Get(pagination, "total_items"), JNum(0))
    ensures s.pendente == CountWhere(corrections, "status", "pendente")
    ensures s.corrigida == CountWhere(corrections, "status", "corrigida")
    ensures s.pendente + s.corrigida <= |corrections|
    ensures (forall i :: 0 <= i < |corrections| ==>
              HasField(corrections[i], "status", "pendente") || HasField(corrections[i], "status", "corrigida")) ==>
      s.pendente + s.corrigida == |corrections|
  {
    CountsPartition(corrections, "status", "pendente", "corrigida", "");
    CorrectionStats(OrElse(Get(pagination, "total_items"), JNum(0)),
                    CountWhere(corrections, "status", "pendente"), CountWhere(corrections, "status", "corrigida"))
  }

  // ----------------------------------------------------------- correct it

  /**
   * What handleCorrectExam does: for a corrected item it calls `toast.info`,
   * which react-hot-toast does not provide, so the handler throws and nothing
   * is shown; any other item asks for confirmation.
   */
  datatype CorrectRequest = AlreadyCorrected | AskToCorrect(options: map<string, Json>, correctionId: Option<Json>)

  /** handleCorrectExam's confirmation options; confirming corrects the item with the request's id. */
  function CorrectOptions(): (o: map<string, Json>)
    ensures "title" in o && o["title"] == JStr("Corrigir Prova")
    ensures "confirmText" in o && o["confirmText"] == JStr("Corrigir")
    ensures "confirmVariant" in o && o["confirmVariant"] == JStr("success")
    ensures "cancelText" !in o
  {
    map["title" := JStr("Corrigir Prova"),
        "message" := JStr("Deseja corrigir automaticamente esta prova?"),
        "description" := JStr("A correção será feita baseada no gabarito oficial."),
        "confirmText" := JStr("Corrigir"),
        "confirmVariant" := JStr("success"),
        "icon" := JStr("✅"),
        "iconVariant" := JStr("success")]
  }

  function HandleCorrectExam(correction: Json): (r: CorrectRequest)
    ensures r.AlreadyCorrected? <==> Corrected(correction)
    ensures r.AskToCorrect? ==> r.options == CorrectOptions() && r.correctionId == Get(correction, "id")
  {
    if Corrected(correction) then AlreadyCorrected
    else AskToCorrect(CorrectOptions(), Get(correction, "id"))
  }

  /**
   * A pending correction opens the confirmation dialog with its own title
   * and button; a corrected one never opens it. The dialog keeps the
   * default cancel text.
   */
  lemma {:induction false} CorrectExamDialog(correction: Json)
    ensures Corrected(correction) ==> HandleCorrectExam(correction) == AlreadyCorrected
    ensures !Corrected(correction) ==>
      var s := Modal.Shown(HandleCorrectExam(correction).options);
      s.isOpen && s.title == JStr("Corrigir Prova") && s.confirmText == Some(JStr("Corrigir")) &&
      s.cancelText == Some(JStr("Cancelar")) && s.confirmVariant == Some(JStr("success"))
  {
    var o := CorrectOptions();
    assert Truthy(o["title"]) && Truthy(o["confirmText"]) && Truthy(o["confirmVariant"]);
  }

  /** The detail view offers automatic correction only for 'pendente', the table disables it only for 'corrigida'. */
  lemma {:induction false} CorrectActionsOnKnownStatuses(correction: Json)
    ensures HasField(correction, "status", "pendente") ==> !Corrected(correction)
    ensures !HasField(correction, "status", "pendente") && !Corrected(correction) ==>
      HandleCorrectExam(correction).AskToCorrect?
  {
  }

  // ---------------------------------------------------------- answer sheet

  /** The answer options offered for each question. */
  const Options: seq<string> := ["A", "B", "C", "D", "E"]

  /** handleAnswerChange's update: question `q` now has `answer`, every other answer stays. */
  function WithAnswer(answers: map<int, string>, q: int, answer: string): (r: map<int, string>)
    ensures q in r && r[q] == answer
    ensures forall k :: k != q ==> (k in r <==> k in answers) && (k in answers ==> r[k] == answers[k])
  {
    answers[q := answer]
  }

  /** Option `option` is highlighted for question `q`. */
  predicate Selected(answers: map<int, string>, q: int, option: string)
  {
    q in answers && answers[q] == option
  }

  /** After choosing, exactly the chosen option is highlighted for that question, and nothing changes for the others. */
  lemma {:induction false} ChoosingHighlightsOne(answers: map<int, string>, q: int, answer: string)
    ensures forall option :: Selected(WithAnswer(answers, q, answer), q, option) <==> option == answer
    ensures forall k, option :: k != q ==> (Selected(WithAnswer(answers, q, answer), k, option) <==> Selected(answers, k, option))
  {
  }

  /** The exam the form pretends to load for a chosen id. */
  datatype ExamSummary = ExamSummary(id: Json, titulo: string, totalQuestoes: nat)

  /** `{ ...data, respostas: answers }`: the form's fields, with `respostas` replaced by the answer sheet. */
  datatype CorrectionPayload = CorrectionPayload(fields: map<string, Json>, respostas: map<int, string>)

  /** The manual correction form: the selected exam and the answers typed so far. */
  class AnswerSheet {
    var selectedExam: Option<ExamSummary>
    var answers: map<int, string>

    constructor ()
      ensures selectedExam.None? && answers == map[]
    {
      selectedExam := None;
      answers := map[];
    }

    /** handleAnswerChange(q, a) */
    method HandleAnswerChange(q: int, answer: string)
      modifies this
      ensures answers == WithAnswer(old(answers), q, answer) && selectedExam == old(selectedExam)
    {
      answers := answers[q := answer];
    }

    /** The effect of a new exam id: a placeholder exam of ten questions (none for an empty id) and no answers. */
    method ExamIdChanged(examId: Json)
      modifies this
      ensures answers == map[]
      ensures Truthy(examId) ==> selectedExam == Some(ExamSummary(examId, "Prova Exemplo", 10))
      ensures !Truthy(examId) ==> selectedExam.None?
    {
      if Truthy(examId) {
        selectedExam := Some(ExamSummary(examId, "Prova Exemplo", 10));
      } else {
        selectedExam := None;
      }
      answers := map[];
    }

    /**
     * onSubmit: sends the form data with the answers under `respostas`.
     * After a successful save the form is reset, which puts `exam_id` back
     * to '' and so, through the exam effect, clears the selected exam, and
     * the answers are cleared; after a failure everything stays. `saved` is
     * what the save request does.
     */
    method Submit(data: map<string, Json>, saved: Result<(), string>) returns (payload: CorrectionPayload)
      modifies this
      ensures payload == CorrectionPayload(data - {"respostas"}, old(answers))
      ensures saved.Success? ==> answers == map[] && selectedExam.None?
      ensures saved.Failure? ==> answers == old(answers) && selectedExam == old(selectedExam)
    {
      payload := CorrectionPayload(data - {"respostas"}, answers);
      if saved.Success? {
        ExamIdChanged(JStr(""));
        answers := map[];
      }
    }
  }
}

=== FILE: exams_page.dfy ===
/**
 * The exams page: the status counters, which row actions are enabled, the
 * exam form's question total and the payload it submits, the values the
 * form is reset to when editing, and the question generator's two steps.
 *
 * The form's number inputs are registered without `valueAsNumber`, so once
 * typed in they hold strings, and the total `facil + medio + dificil`
 * concatenates them. `TotalAsWritten` models the expression as written (it
 * is right for the numbers the server sends, which the generator uses);
 * `Total` reads the inputs as numbers, which the form evidently intends.
 */
module ExamsPage {
  import opened Outcomes
  import opened JsValue
  import opened JsString
  import opened Listing
  import Modal

  // ------------------------------------------------------------- counters

  datatype ExamStats = ExamStats(total: Json, rascunho: nat, ativa: nat, finalizada: nat)

  function Stats(exams: seq<Json>, pagination: Json): (s: ExamStats)
    ensures s.total == OrElse(Get(pagination, "total_items"), JNum(0))
    ensures s.rascunho == CountWhere(exams, "status", "rascunho")
    ensures s.ativa == CountWhere(exams, "status", "ativa")
    ensures s.finalizada == CountWhere(exams, "status", "finalizada")
    ensures s.rascunho + s.ativa + s.finalizada <= |exams|
    ensures (forall i :: 0 <= i < |exams| ==>
               HasField(exams[i], "status", "rascunho") || HasField(exams[i], "status", "ativa") ||
               HasField(exams[i], "status", "finalizada")) ==>
      s.rascunho + s.ativa + s.finalizada == |exams|
  {
    CountsPartition(exams, "status", "rascunho", "ativa", "finalizada");
    ExamStats(OrElse(Get(pagination, "total_items"), JNum(0)),
              CountWhere(exams, "status", "rascunho"), CountWhere(exams, "status", "ativa"),
              CountWhere(exams, "status", "finalizada"))
  }

  // -------------------------------------------------------------- actions

  /** `item.selected_questions?.length`: arrays and strings have one, and so does an object with a `length` property. */
  function SelectedLength(exam: Json): (r: Option<Json>)
    ensures r.Some? <==> Get(exam, "selected_questions").Some? &&
                         (Get(exam, "selected_questions").value.JArr? || Get(exam, "selected_questions").value.JStr? ||
                          (Get(exam, "selected_questions").value.JObj? && "length" in Get(exam, "selected_questions").value.fields))
    ensures Get(exam, "selected_questions").Some? && Get(exam, "selected_questions").value.JArr? ==>
      r == Some(JNum(|Get(exam, "selected_questions").value.items|))
    ensures Get(exam, "selected_questions").Some? && Get(exam, "selected_questions").value.JObj? ==>
      r == Get(Get(exam, "selected_questions").value, "length")
  {
    var selected := Get(exam, "selected_questions");
    if selected.Some? then LengthProperty(selected.value) else None
  }

  /** An exam whose selected questions are `{length: 2}` shows 2 and can print; one with none shows 0 and cannot. */
  lemma SelectedLengthSamples()
    ensures var exam := JObj(map["selected_questions" := JObj(map["length" := JNum(2)])]);
      QuestionsColumn(exam) == JNum(2) && !Actions(exam).pdfDisabled
    ensures var exam := JObj(map["selected_questions" := JArr([])]);
      QuestionsColumn(exam) == JNum(0) && Actions(exam).pdfDisabled
  {
  }

  /** The row's enabled actions. */
  datatype RowActions = RowActions(generateDisabled: bool, pdfDisabled: bool, editDisabled: bool, deleteDisabled: bool)

  function Actions(exam: Json): (a: RowActions)
    ensures a.generateDisabled <==> HasField(exam, "status", "finalizada")
    ensures a.editDisabled <==> HasField(exam, "status", "finalizada")
    ensures a.pdfDisabled <==> !TruthyOpt(SelectedLength(exam))
    ensures !a.deleteDisabled
  {
    RowActions(HasField(exam, "status", "finalizada"), !TruthyOpt(SelectedLength(exam)), HasField(exam, "status", "finalizada"), false)
  }

  /**
   * A PDF can be made exactly when some question is selected; a finished
   * exam can no longer be edited or regenerated but can still be printed
   * and deleted.
   */
  lemma {:induction false} ActionRules(exam: Json, questions: seq<Json>, status: string)
    ensures var e := JObj(map["status" := JStr(status), "selected_questions" := JArr(questions)]);
      (Actions(e).pdfDisabled <==> questions == []) &&
      (status == "finalizada" ==> Actions(e).generateDisabled && Actions(e).editDisabled && !Actions(e).deleteDisabled) &&
      (status != "finalizada" ==> !Actions(e).generateDisabled && !Actions(e).editDisabled)
    ensures Get(exam, "selected_questions").None? ==> Actions(exam).pdfDisabled
  {
    var e := JObj(map["status" := JStr(status), "selected_questions" := JArr(questions)]);
    assert Get(e, "selected_questions") == Some(JArr(questions));
    assert Get(e, "status") == Some(JStr(status));
  }

  /** The questions column: `value?.length || 0`. */
  function QuestionsColumn(exam: Json): (r: Json)
    ensures TruthyOpt(SelectedLength(exam)) ==> r == SelectedLength(exam).value
    ensures !TruthyOpt(SelectedLength(exam)) ==> r == JNum(0)
  {
    OrElse(SelectedLength(exam), JNum(0))
  }

  /** The status badge's class suffix: `value?.toLowerCase() || 'rascunho'`; None where the render throws. */
  function StatusBadgeClass(status: Option<Json>): (r: Option<string>)
    ensures r.None? <==> status.Some? && !status.value.JStr? && !status.value.JNull?
    ensures status.Some? && status.value.JStr? && status.value.s != "" ==> r == Some(ToLower(status.value.s))
    ensures status.None? || status == Some(JNull) || status == Some(JStr("")) ==> r == Some("rascunho")
  {
    BadgeClass(status, "rascunho")
  }

  /** handleDeleteExam's confirmation options; confirming deletes the exam with this id. */
  function DeleteOptions(): (o: map<string, Json>)
    ensures "title" in o && o["title"] == JStr("Excluir Prova")
    ensures "confirmText" in o && o["confirmText"] == JStr("Excluir")
    ensures "confirmVariant" in o && o["confirmVariant"] == JStr("danger")
    ensures "cancelText" !in o
  {
    map["title" := JStr("Excluir Prova"),
        "message" := JStr("Tem certeza que deseja excluir esta prova?"),
        "description" := JStr("Esta ação não pode ser desfeita."),
        "confirmText" := JStr("Excluir"),
        "confirmVariant" := JStr("danger"),
        "icon" := JStr("🗑️"),
        "iconVariant" := JStr("danger")]
  }

  /** Deleting asks first, in a danger-styled dialog with the default cancel button; nothing is deleted until confirmed. */
  lemma {:induction false} DeleteAsksFirst()
    ensures var s := Modal.Shown(DeleteOptions());
      s.isOpen && !s.loading && s.title == JStr("Excluir Prova") && s.confirmText == Some(JStr("Excluir")) &&
      s.confirmVariant == Some(JStr("danger")) && s.cancelText == Some(JStr("Cancelar"))
  {
    var o := DeleteOptions();
    assert Truthy(o["title"]) && Truthy(o["confirmText"]) && Truthy(o["confirmVariant"]);
  }

  // ---------------------------------------------------------------- total

  /** `config?.<key> || 0` */
  function CountOr0(config: Option<Json>, key: string): (r: Json)
    ensures TruthyOpt(GetOpt(config, key)) ==> r == GetOpt(config, key).value
    ensures !TruthyOpt(GetOpt(config, key)) ==> r == JNum(0)
  {
    OrElse(GetOpt(config, key), JNum(0))
  }

  /** `(c?.facil || 0) + (c?.medio || 0) + (c?.dificil || 0)` with JavaScript's `+`. */
  function TotalAsWritten(config: Option<Json>): Json
  {
    Plus(Plus(CountOr0(config, "facil"), CountOr0(config, "medio")), CountOr0(config, "dificil"))
  }

  predicate AllDigits(s: string)
  {
    forall k :: 0 <= k < |s| ==> '0' <= s[k] <= '9'
  }

  /** A count field read as a number input's value: typed digits are the number they spell; anything else counts 0. */
  function FieldCount(v: Option<Json>): (n: int)
    ensures v.Some? && v.value.JNum? ==> n == v.value.n
    ensures v.Some? && v.value.JStr? && AllDigits(v.value.s) ==> n == DigitsValue(v.value.s)
  {
    match v
    case Some(JNum(k)) => k
    case Some(JStr(s)) => if AllDigits(s) then DigitsValue(s) else 0
    case _ => 0
  }

  /** The question total as the form evidently intends: the three counts added as numbers. */
  function Total(config: Option<Json>): int
  {
    FieldCount(GetOpt(config, "facil")) + FieldCount(GetOpt(config, "medio")) + FieldCount(GetOpt(config, "dificil"))
  }

  /** A count that is a number or absent. */
  predicate NumericOrAbsent(config: Option<Json>, key: string)
  {
    GetOpt(config, key).None? || GetOpt(config, key).value.JNum?
  }

  /** A numeric or missing count reads as a number either way. */
  lemma {:induction false} NumericCount(config: Option<Json>, key: string)
    requires NumericOrAbsent(config, key)
    ensures CountOr0(config, key) == JNum(FieldCount(GetOpt(config, key)))
  {
  }

  /** With numeric or missing counts, as the server stores them, the expression as written is the numeric total. */
  lemma {:induction false} NumericTotalsAgree(config: Option<Json>)
    requires NumericOrAbsent(config, "facil") && NumericOrAbsent(config, "medio") && NumericOrAbsent(config, "dificil")
    ensures TotalAsWritten(config) == JNum(Total(config))
  {
    NumericCount(config, "facil");
    NumericCount(config, "medio");
    NumericCount(config, "dificil");
    var x, y, z := CountOr0(config, "facil"), CountOr0(config, "medio"), CountOr0(config, "dificil");
    SumOfThreeNumbers(x, y, z);
    assert TotalAsWritten(config) == Plus(Plus(x, y), z);
    assert x.n + y.n + z.n == Total(config);
  }

  lemma SumOfThreeNumbers(x: Json, y: Json, z: Json)
    requires x.JNum? && y.JNum? && z.JNum?
    ensures Plus(Plus(x, y), z) == JNum(x.n + y.n + z.n)
  {
  }

  /** The counts that a typed string `s` followed by two zeros gives. */
  lemma {:induction false} StringThenZeros(s: string)
    requires s != "" && AllDigits(s)
    ensures var config := Some(JObj(map["facil" := JStr(s), "medio" := JNum(0), "dificil" := JNum(0)]));
      TotalAsWritten(config) == JStr(s + "00") && Total(config) == DigitsValue(s)
  {
    var config := Some(JObj(map["facil" := JStr(s), "medio" := JNum(0), "dificil" := JNum(0)]));
    assert GetOpt(config, "facil") == Some(JStr(s));
    assert GetOpt(config, "medio") == Some(JNum(0));
    assert GetOpt(config, "dificil") == Some(JNum(0));
    assert CountOr0(config, "facil") == JStr(s);
    assert CountOr0(config, "medio") == JNum(0);
    assert CountOr0(config, "dificil") == JNum(0);
    assert JsToString(JNum(0)) == "0" by {
      assert IntToString(0) == NatToString(0) == [DigitChar(0)];
    }
    assert Plus(JStr(s), JNum(0)) == JStr(s + "0");
    assert Plus(JStr(s + "0"), JNum(0)) == JStr(s + "0" + "0");
    assert s + "0" + "0" == s + "00";
  }

  /**
   * Typing 3 into "easy" and leaving the other two at their default 0
   * shows and submits the total "300" as written; read as numbers it is 3.
   * In general a typed count `a` is followed by the two zeros as text.
   */
  lemma {:induction false} TypedCountConcatenates(a: nat)
    requires a > 0
    ensures var config := Some(JObj(map["facil" := JStr(NatToString(a)), "medio" := JNum(0), "dificil" := JNum(0)]));
      TotalAsWritten(config) == JStr(NatToString(a) + "00") && Total(config) == a
    ensures TotalAsWritten(Some(JObj(map["facil" := JStr("3"), "medio" := JNum(0), "dificil" := JNum(0)]))) == JStr("300")
  {
    StringThenZeros(NatToString(a));
    DigitsValueOfNatToString(a);
    StringThenZeros("3");
    assert "3" + "00" == "300";
  }

  // --------------------------------------------------------------- payload

  /** onSubmit's payload: the form data with `questions_config` extended by `total`. */
  function ExamPayload(data: map<string, Json>, total: Json): (p: map<string, Json>)
    ensures "questions_config" in p && p["questions_config"].JObj? && "total" in p["questions_config"].fields
    ensures p["questions_config"].fields["total"] == total
    ensures forall k :: k in p["questions_config"].fields && k != "total" ==>
      "questions_config" in data && data["questions_config"].JObj? && k in data["questions_config"].fields &&
      p["questions_config"].fields[k] == data["questions_config"].fields[k]
    ensures "questions_config" in data && data["questions_config"].JObj? ==>
      forall k :: k in data["questions_config"].fields && k != "total" ==> k in p["questions_config"].fields
    ensures forall k :: k in data && k != "questions_config" ==> k in p && p[k] == data[k]
    ensures forall k :: k in p ==> k in data || k == "questions_config"
  {
    var config := if "questions_config" in data then Spread(data["questions_config"]) else map[];
    data["questions_config" := JObj(config["total" := total])]
  }

  /** `data.<key>` */
  function FormField(data: map<string, Json>, key: string): Option<Json>
  {
    if key in data then Some(data[key]) else None
  }

  /** The payload as written: its total is the concatenating expression. */
  function SubmittedAsWritten(data: map<string, Json>): map<string, Json>
  {
    ExamPayload(data, TotalAsWritten(FormField(data, "questions_config")))
  }

  /** The payload with the total read as numbers. */
  function Submitted(data: map<string, Json>): (p: map<string, Json>)
    ensures "questions_config" in p && p["questions_config"].JObj? && "total" in p["questions_config"].fields
    ensures p["questions_config"].fields["total"] == JNum(Total(FormField(data, "questions_config")))
  {
    ExamPayload(data, JNum(Total(FormField(data, "questions_config"))))
  }

  /**
   * The submitted counts are the ones entered; the total is their sum.
   * As written, a typed count makes the stored total a string.
   */
  lemma {:induction false} SubmittedTotal(data: map<string, Json>, a: nat)
    requires a > 0
    requires data == map["questions_config" := JObj(map["facil" := JStr(NatToString(a)), "medio" := JNum(0), "dificil" := JNum(0)])]
    ensures Submitted(data)["questions_config"].fields["total"] == JNum(a)
    ensures SubmittedAsWritten(data)["questions_config"].fields["total"] == JStr(NatToString(a) + "00")
    ensures Submitted(data)["questions_config"].fields["facil"] == JStr(NatToString(a))
  {
    TypedCountConcatenates(a);
    assert FormField(data, "questions_config") == Some(data["questions_config"]);
  }

  /** What onSubmit asks the server to do: update the exam being edited, or create a new one. */
  datatype SaveRequest = Update(id: Option<Json>, data: map<string, Json>) | Create(data: map<string, Json>)

  /** The save request for the form data, `editing` being the exam being edited (None when creating). */
  function SaveCall(editing: Option<Json>, data: map<string, Json>): (r: SaveRequest)
    ensures r.Update? <==> TruthyOpt(editing)
    ensures r.Update? ==> r.id == Get(editing.value, "id") && r.data == Submitted(data)
    ensures r.Create? ==> r.data == Submitted(data)
  {
    if TruthyOpt(editing) then Update(Get(editing.value, "id"), Submitted(data)) else Create(Submitted(data))
  }

  // ------------------------------------------------------------ edit reset

  /** The date part of an ISO timestamp: `s.split('T')[0]`. */
  function DatePart(s: string): (d: string)
    ensures 'T' !in d
    ensures 'T' !in s ==> d == s
  {
    Split(s, 'T')[0]
  }

  lemma {:induction false} DatePartOfTimestamp(date: string, time: string)
    requires 'T' !in date
    ensures DatePart(date + "T" + time) == date
  {
    var s := date + "T" + time;
    assert s[|date|] == 'T';
    assert s[..|date|] == date;
    var i := FirstIndex(s, 'T');
    assert i == |date|;
  }

  /**
   * The form values for editing `exam`: its title as is; '' for a missing
   * description or subject; the date part of the application date; 60
   * minutes for a missing duration; zero counts for a missing config. A
   * truthy date that is not a string has no `split`, so the reset throws.
   */
  function EditValues(exam: map<string, Json>): (r: Result<map<string, Json>, string>)
    ensures r.Failure? <==> TruthyOpt(FormField(exam, "data_aplicacao")) && !exam["data_aplicacao"].JStr?
    ensures r.Success? ==>
      FormField(r.value, "titulo") == FormField(exam, "titulo") &&
      FormField(r.value, "descricao") == Some(OrElse(FormField(exam, "descricao"), JStr(""))) &&
      FormField(r.value, "disciplina") == Some(OrElse(FormField(exam, "disciplina"), JStr(""))) &&
      FormField(r.value, "duracao_minutos") == Some(OrElse(FormField(exam, "duracao_minutos"), JNum(60))) &&
      FormField(r.value, "questions_config") ==
        Some(OrElse(FormField(exam, "questions_config"), JObj(map["facil" := JNum(0), "medio" := JNum(0), "dificil" := JNum(0)])))
    ensures r.Success? && TruthyOpt(FormField(exam, "data_aplicacao")) ==>
      FormField(r.value, "data_aplicacao") == Some(JStr(DatePart(exam["data_aplicacao"].s)))
    ensures r.Success? && !TruthyOpt(FormField(exam, "data_aplicacao")) ==>
      FormField(r.value, "data_aplicacao") == Some(JStr(""))
  {
    var date := FormField(exam, "data_aplicacao");
    if TruthyOpt(date) && !date.value.JStr? then Failure("TypeError")
    else
      var rest := map["descricao" := OrElse(FormField(exam, "descricao"), JStr("")),
                      "disciplina" := OrElse(FormField(exam, "disciplina"), JStr("")),
                      "data_aplicacao" := (if TruthyOpt(date) then JStr(DatePart(date.value.s)) else JStr("")),
                      "duracao_minutos" := OrElse(FormField(exam, "duracao_minutos"), JNum(60)),
                      "questions_config" := OrElse(FormField(exam, "questions_config"),
                                                   JObj(map["facil" := JNum(0), "medio" := JNum(0), "dificil" := JNum(0)]))];
      Success(if "titulo" in exam then rest["titulo" := exam["titulo"]] else rest)
  }

  /** The values of a blank form. */
  function BlankForm(): (m: map<string, Json>)
    ensures FormField(m, "titulo") == Some(JStr("")) && FormField(m, "data_aplicacao") == Some(JStr(""))
    ensures FormField(m, "duracao_minutos") == Some(JNum(60))
    ensures Total(FormField(m, "questions_config")) == 0
  {
    var zero := JObj(map["facil" := JNum(0), "medio" := JNum(0), "dificil" := JNum(0)]);
    assert Get(zero, "facil") == Some(JNum(0)) && Get(zero, "medio") == Some(JNum(0)) && Get(zero, "dificil") == Some(JNum(0));
    map["titulo" := JStr(""), "descricao" := JStr(""), "disciplina" := JStr(""), "data_aplicacao" := JStr(""),
        "duracao_minutos" := JNum(60), "questions_config" := zero]
  }

  /** The reset when the form opens: the exam's values when editing, a blank form when creating. */
  function OpenedForm(exam: Option<Json>): (r: Result<map<string, Json>, string>)
    ensures !TruthyOpt(exam) ==> r == Success(BlankForm())
    ensures TruthyOpt(exam) ==> r == EditValues(Spread(exam.value))
  {
    if TruthyOpt(exam) then EditValues(Spread(exam.value)) else Success(BlankForm())
  }

  /** A stored timestamp comes back as its date; an exam without a config is edited with zero counts, totalling 0. */
  lemma {:induction false} EditValuesSamples(date: string, time: string)
    requires 'T' !in date && date != ""
    ensures var r := EditValues(map["data_aplicacao" := JStr(date + "T" + time)]);
      r.Success? && r.value["data_aplicacao"] == JStr(date) &&
      Total(FormField(r.value, "questions_config")) == 0 && TotalAsWritten(FormField(r.value, "questions_config")) == JNum(0)
  {
    DatePartOfTimestamp(date, time);
    var exam := map["data_aplicacao" := JStr(date + "T" + time)];
    assert FormField(exam, "data_aplicacao") == Some(JStr(date + "T" + time));
    assert FormField(exam, "questions_config") == None;
    var r := EditValues(exam);
    var zero := Some(JObj(map["facil" := JNum(0), "medio" := JNum(0), "dificil" := JNum(0)]));
    assert FormField(r.value, "questions_config") == zero;
    assert GetOpt(zero, "facil") == Some(JNum(0)) && GetOpt(zero, "medio") == Some(JNum(0)) && GetOpt(zero, "dificil") == Some(JNum(0));
  }

  // ------------------------------------------------------------- generator

  /** `exam.questions_config || {}` */
  function GeneratorConfig(exam: Json): (c: Json)
    ensures TruthyOpt(Get(exam, "questions_config")) ==> c == Get(exam, "questions_config").value
    ensures !TruthyOpt(Get(exam, "questions_config")) ==> c == JObj(map[])
  {
    OrElse(Get(exam, "questions_config"), JObj(map[]))
  }

  /** "Generate" is disabled when the total is exactly the number 0. */
  predicate GenerateButtonDisabled(exam: Json)
  {
    TotalAsWritten(Some(GeneratorConfig(exam))) == JNum(0)
  }

  /** With numeric counts, "Generate" is disabled exactly when they add up to 0; an exam without a config can never generate. */
  lemma {:induction false} GenerateNeedsQuestions(exam: Json)
    requires NumericOrAbsent(Some(GeneratorConfig(exam)), "facil") && NumericOrAbsent(Some(GeneratorConfig(exam)), "medio")
    requires NumericOrAbsent(Some(GeneratorConfig(exam)), "dificil")
    ensures GenerateButtonDisabled(exam) <==> Total(Some(GeneratorConfig(exam))) == 0
    ensures !TruthyOpt(Get(exam, "questions_config")) ==> GenerateButtonDisabled(exam)
  {
    NumericTotalsAgree(Some(GeneratorConfig(exam)));
  }

  /** The generator dialog: its step, the questions it produced and whether a request is running. */
  class QuestionGenerator {
    var step: int
    var generatedQuestions: Json
    var isGenerating: bool

    constructor ()
      ensures step == 1 && generatedQuestions == JArr([]) && !isGenerating
      ensures Valid()
    {
      step := 1;
      generatedQuestions := JArr([]);
      isGenerating := false;
    }

    /** Step 1 shows nothing generated; step 2 shows a result. */
    predicate Valid()
      reads this
    {
      (step == 1 || step == 2) && (step == 1 ==> generatedQuestions == JArr([]))
    }

    /**
     * handleGenerate: busy while the request runs; on an answer, the
     * answer's questions (or none) and step 2; on an error, or a `null`
     * answer whose `.questions` throws, nothing changes. Busy ends either way.
     */
    method HandleGenerate(outcome: Result<Json, string>) returns (busyWhileRunning: bool)
      modifies this
      ensures busyWhileRunning && !isGenerating
      ensures outcome.Success? && outcome.value != JNull ==>
        step == 2 && generatedQuestions == OrElse(Get(outcome.value, "questions"), JArr([]))
      ensures !(outcome.Success? && outcome.value != JNull) ==>
        step == old(step) && generatedQuestions == old(generatedQuestions)
      ensures old(Valid()) ==> Valid()
    {
      isGenerating := true;
      busyWhileRunning := isGenerating;
      if outcome.Success? && outcome.value != JNull {
        generatedQuestions := OrElse(Get(outcome.value, "questions"), JArr([]));
        step := 2;
      }
      isGenerating := false;
    }

    /** handleConfirm: back to step 1 with nothing generated (the dialog is closed by the page). */
    method HandleConfirm()
      modifies this
      ensures step == 1 && generatedQuestions == JArr([]) && isGenerating == old(isGenerating)
      ensures Valid()
    {
      step := 1;
      generatedQuestions := JArr([]);
    }
  }
}

=== FILE: js_string.dfy ===
/**
 * The string built-ins the front end relies on, restricted to what the model
 * needs: whitespace as `\s` and `trim` understand it, case mapping of Basic
 * Latin and Latin-1 letters,
 * `includes`, `startsWith`, `split` on one character and number formatting.
 */
module JsString {

  /** The WhiteSpace and LineTerminator code points of section 12.2 and 12.3 of ECMA-262. */
  predicate IsJsWhitespace(c: char)
  {
    var u := c as int;
    (0x09 <= u <= 0x0D) || u == 0x20 || u == 0xA0 || u == 0x1680 || (0x2000 <= u <= 0x200A)
    || u == 0x2028 || u == 0x2029 || u == 0x202F || u == 0x205F || u == 0x3000 || u == 0xFEFF
  }

  /** The UTF-16 code units `charCodeAt` reads for one code point (section 6.1.4 of ECMA-262). */
  function CodeUnits(c: char): (u: seq<int>)
    ensures 1 <= |u| <= 2
  {
    var n := c as int;
    if n < 0x10000 then [n] else [0xD800 + (n - 0x10000) / 0x400, 0xDC00 + (n - 0x10000) % 0x400]
  }

  /** The string as a JavaScript engine stores it: a sequence of UTF-16 code units. */
  function Utf16Units(s: string): (u: seq<int>)
    ensures |u| >= |s|
  {
    if s == [] then [] else Utf16Units(s[..|s| - 1]) + CodeUnits(s[|s| - 1])
  }

  /** `s.length`: the number of UTF-16 code units. */
  function Length(s: string): (n: nat)
    ensures n >= |s|
  {
    |Utf16Units(s)|
  }

  /** Concatenation adds lengths: `(s + t).length == s.length + t.length`. */
  lemma {:induction false} LengthConcat(s: string, t: string)
    ensures Length(s + t) == Length(s) + Length(t)
    decreases |t|
  {
    if t == [] {
      assert s + t == s;
    } else {
      var t' := t[..|t| - 1];
      assert (s + t)[..|s + t| - 1] == s + t';
      assert (s + t)[|s + t| - 1] == t[|t| - 1];
      LengthConcat(s, t');
    }
  }

  /** `s.trimStart()` */
  function TrimStart(s: string): (r: string)
    ensures |r| <= |s| && r == s[|s| - |r|..]
    ensures r == [] || !IsJsWhitespace(r[0])
    ensures forall k :: 0 <= k < |s| - |r| ==> IsJsWhitespace(s[k])
  {
    if s == [] then s
    else if IsJsWhitespace(s[0]) then TrimStart(s[1..])
    else s
  }

  /** `s.trimEnd()` */
  function TrimEnd(s: string): (r: string)
    ensures |r| <= |s| && r == s[..|r|]
    ensures r == [] || !IsJsWhitespace(r[|r| - 1])
    ensures forall k :: |r| <= k < |s| ==> IsJsWhitespace(s[k])
  {
    if s == [] then s
    else if IsJsWhitespace(s[|s| - 1]) then TrimEnd(s[..|s| - 1])
    else s
  }

  /** `s.trim()` */
  function Trim(s: string): (r: string)
    ensures |r| <= |s|
    ensures r == [] || (!IsJsWhitespace(r[0]) && !IsJsWhitespace(r[|r| - 1]))
  {
    TrimEnd(TrimStart(s))
  }

  /**
   * The simple case mappings of the Unicode data that `toLowerCase` and
   * `toUpperCase` apply, for the Basic Latin and Latin-1 letters: A-Z and
   * À-Þ (but not ×) are the capitals of a-z and à-þ (but not ÷).
   */
  predicate IsUpperLetter(c: char)
  {
    'A' <= c <= 'Z' || ('\U{C0}' <= c <= '\U{DE}' && c != '\U{D7}')
  }

  predicate IsLowerLetter(c: char)
  {
    'a' <= c <= 'z' || ('\U{E0}' <= c <= '\U{FE}' && c != '\U{F7}')
  }

  function LowerChar(c: char): (r: char)
    ensures IsUpperLetter(c) ==> IsLowerLetter(r) && UpperChar(r) == c
    ensures !IsUpperLetter(c) ==> r == c
  {
    if IsUpperLetter(c) then (c as int + 32) as char else c
  }

  function UpperChar(c: char): (r: char)
    ensures IsLowerLetter(c) ==> IsUpperLetter(r)
    ensures !IsLowerLetter(c) ==> r == c
  {
    if IsLowerLetter(c) then (c as int - 32) as char else c
  }

  /** `s.toLowerCase()` on the Basic Latin and Latin-1 letters. */
  function ToLower(s: string): (r: string)
    ensures |r| == |s|
    ensures forall k :: 0 <= k < |s| ==> r[k] == LowerChar(s[k])
  {
    seq(|s|, k requires 0 <= k < |s| => LowerChar(s[k]))
  }

  /** Text without capitals is its own lower-case form. */
  lemma ToLowerWithoutCapitals(s: string)
    requires forall k :: 0 <= k < |s| ==> !IsUpperLetter(s[k])
    ensures ToLower(s) == s
  {
  }

  /** `s.toUpperCase()` on the Basic Latin and Latin-1 letters. */
  function ToUpper(s: string): (r: string)
    ensures |r| == |s|
    ensures forall k :: 0 <= k < |s| ==> r[k] == UpperChar(s[k])
  {
    seq(|s|, k requires 0 <= k < |s| => UpperChar(s[k]))
  }

  /** "HISTÓRIA" and "História" agree once lower-cased, as they do in a browser. */
  lemma LowerCaseFoldsAccents()
    ensures ToLower("HIST\U{D3}RIA") == ToLower("Hist\U{F3}ria") == "hist\U{F3}ria"
  {
  }

  /** `s.startsWith(p)` */
  predicate StartsWith(s: string, p: string)
  {
    |p| <= |s| && s[..|p|] == p
  }

  /** `s.includes(sub)` */
  predicate Contains(s: string, sub: string)
  {
    StartsWith(s, sub) || (s != [] && Contains(s[1..], sub))
  }

  /** `s.split(sep)` for a one-character separator: the pieces between separators, empty ones included. */
  function Split(s: string, sep: char): (parts: seq<string>)
    ensures |parts| >= 1
    ensures forall k :: 0 <= k < |parts| ==> sep !in parts[k]
  {
    if sep !in s then [s]
    else
      var i := FirstIndex(s, sep);
      [s[..i]] + Split(s[i + 1..], sep)
  }

  function FirstIndex(s: string, c: char): (i: nat)
    requires c in s
    ensures i < |s| && s[i] == c && c !in s[..i]
  {
    if s[0] == c then 0 else 1 + FirstIndex(s[1..], c)
  }

  function DigitChar(d: nat): (c: char)
    requires d < 10
    ensures '0' <= c <= '9' && c as int - '0' as int == d
  {
    ('0' as int + d) as char
  }

  /** `String(n)` for a non-negative integer: decimal digits without leading zeros. */
  function NatToString(n: nat): (r: string)
    ensures |r| >= 1
    ensures forall k :: 0 <= k < |r| ==> '0' <= r[k] <= '9'
  {
    if n < 10 then [DigitChar(n)] else NatToString(n / 10) + [DigitChar(n % 10)]
  }

  /** `Number(s)` for a string of decimal digits (0 for the empty string). */
  function DigitsValue(s: string): (n: nat)
    requires forall k :: 0 <= k < |s| ==> '0' <= s[k] <= '9'
  {
    if s == [] then 0 else DigitsValue(s[..|s| - 1]) * 10 + (s[|s| - 1] as int - '0' as int)
  }

  /** Reading back the digits `String(n)` writes gives `n`. */
  lemma {:induction false} DigitsValueOfNatToString(n: nat)
    ensures DigitsValue(NatToString(n)) == n
  {
    var s := NatToString(n);
    if n >= 10 {
      assert s[..|s| - 1] == NatToString(n / 10);
      DigitsValueOfNatToString(n / 10);
    }
  }

  /** `String(n)` for an integer. */
  function IntToString(n: int): (r: string)
    ensures |r| >= 1
  {
    if n < 0 then "-" + NatToString(-n) else NatToString(n)
  }
}

=== FILE: js_value.dfy ===
/**
 * The JavaScript values the front end moves around: request and response
 * bodies, decoded QR payloads and stored user records. Numbers are modelled
 * as integers; a property that is absent (`undefined`) is `None`.
 */
module JsValue {
  import opened Outcomes
  import opened JsString

  datatype Json =
    | JNull
    | JBool(b: bool)
    | JNum(n: int)
    | JStr(s: string)
    | JArr(items: seq<Json>)
    | JObj(fields: map<string, Json>)

  /** `!!v`: JavaScript truthiness (null, false, 0 and "" are falsy; every array and object is truthy). */
  predicate Truthy(v: Json)
  {
    match v
    case JNull => false
    case JBool(b) => b
    case JNum(n) => n != 0
    case JStr(s) => s != ""
    case JArr(_) => true
    case JObj(_) => true
  }

  /** Truthiness of a property read that may be `undefined`. */
  predicate TruthyOpt(v: Option<Json>)
  {
    v.Some? && Truthy(v.value)
  }

  /** `v?.key` on a plain value: only objects have named properties. */
  function Get(v: Json, key: string): (r: Option<Json>)
    ensures r.Some? <==> v.JObj? && key in v.fields
  {
    if v.JObj? && key in v.fields then Some(v.fields[key]) else None
  }

  /** `v?.key` where `v` itself may be `undefined`. */
  function GetOpt(v: Option<Json>, key: string): (r: Option<Json>)
    ensures r.Some? ==> v.Some?
  {
    if v.Some? then Get(v.value, key) else None
  }

  /** `a || b` where `a` may be `undefined`: the first operand when truthy, else the second. */
  function OrElse(a: Option<Json>, b: Json): (r: Json)
    ensures TruthyOpt(a) ==> r == a.value
    ensures !TruthyOpt(a) ==> r == b
  {
    if TruthyOpt(a) then a.value else b
  }

  /** The own enumerable properties that `{ ...v }` copies from an object (strings excepted, see README). */
  function Spread(v: Json): (m: map<string, Json>)
    ensures v.JObj? ==> m == v.fields
    ensures !v.JObj? ==> m == map[]
  {
    if v.JObj? then v.fields else map[]
  }

  /**
   * `String(v)`: the text a value becomes when it is stored with `setItem` or
   * tested against a regular expression. An array joins its elements with
   * ',' (a `null` element becomes ""), any other object is "[object Object]".
   */
  function JsToString(v: Json): (r: string)
    ensures v.JStr? ==> r == v.s
    ensures Truthy(v) && !v.JArr? ==> r != ""
  {
    match v
    case JNull => "null"
    case JBool(b) => if b then "true" else "false"
    case JNum(n) => IntToString(n)
    case JStr(s) => s
    case JArr(xs) => JoinWithCommas(seq(|xs|, k requires 0 <= k < |xs| => if xs[k].JNull? then "" else JsToString(xs[k])))
    case JObj(_) => "[object Object]"
  }

  function JoinWithCommas(parts: seq<string>): (r: string)
    ensures parts == [] ==> r == ""
    ensures |parts| == 1 ==> r == parts[0]
  {
    if parts == [] then "" else if |parts| == 1 then parts[0] else parts[0] + "," + JoinWithCommas(parts[1..])
  }

  /** `Number(t)` for text: text of decimal digits is its number (the empty text 0), other text NaN (None). */
  function TextNumber(t: string): (r: Option<int>)
    ensures (forall k :: 0 <= k < |t| ==> '0' <= t[k] <= '9') <==> r.Some?
    ensures r.Some? ==> r.value >= 0
    ensures t == "" ==> r == Some(0)
  {
    if forall k :: 0 <= k < |t| ==> '0' <= t[k] <= '9' then Some(DigitsValue(t)) else None
  }

  /**
   * The number a relational comparison such as `now > v` sees, after
   * ToPrimitive and ToNumber: null is 0, booleans 1 and 0, text goes through
   * `Number`, an array through the text its elements join to, and a plain
   * object ("[object Object]") is NaN (None).
   */
  function ComparedNumber(v: Json): (r: Option<int>)
    ensures v.JNum? ==> r == Some(v.n)
    ensures v.JNull? ==> r == Some(0)
    ensures v.JBool? ==> r == Some(if v.b then 1 else 0)
    ensures v.JStr? || v.JArr? ==> r == TextNumber(JsToString(v))
    ensures v.JObj? ==> r.None?
  {
    match v
    case JNull => Some(0)
    case JBool(b) => Some(if b then 1 else 0)
    case JNum(n) => Some(n)
    case JObj(_) => None
    case _ => TextNumber(JsToString(v))
  }

  /** An empty array compares as 0, a one-number array as its number, a longer one as NaN. */
  lemma {:induction false} ArraysCompareAsTheirText(n: nat)
    ensures ComparedNumber(JArr([])) == Some(0)
    ensures ComparedNumber(JArr([JNum(n)])) == Some(n)
    ensures ComparedNumber(JArr([JNum(n), JNum(n)])).None?
  {
    assert JsToString(JArr([])) == "";
    assert JsToString(JArr([JNum(n)])) == NatToString(n);
    DigitsValueOfNatToString(n);
    var t := JsToString(JArr([JNum(n), JNum(n)]));
    assert t == NatToString(n) + "," + NatToString(n);
    assert t[|NatToString(n)|] == ',';
  }

  /**
   * `v?.length` as an ordinary property read: a string has its number of
   * UTF-16 code units, an array its number of elements, an object whatever
   * its own `length` property holds; null, booleans and numbers have none
   * (undefined).
   */
  function LengthProperty(v: Json): (r: Option<Json>)
    ensures v.JStr? ==> r == Some(JNum(Length(v.s)))
    ensures v.JArr? ==> r == Some(JNum(|v.items|))
    ensures v.JObj? ==> r == Get(v, "length")
    ensures v.JNull? || v.JBool? || v.JNum? ==> r.None?
  {
    match v
    case JStr(s) => Some(JNum(Length(s)))
    case JArr(xs) => Some(JNum(|xs|))
    case JObj(_) => Get(v, "length")
    case _ => None
  }

  /**
   * The number a comparison such as `value.length >= min` reads from the
   * `length` property; None when it is undefined or NaN, which compares false.
   */
  function ComparedLength(v: Json): (r: Option<int>)
    ensures v.JStr? ==> r == Some(Length(v.s))
    ensures v.JArr? ==> r == Some(|v.items|)
    ensures v.JObj? ==> r == if "length" in v.fields then ComparedNumber(v.fields["length"]) else None
    ensures v.JNull? || v.JBool? || v.JNum? ==> r.None?
  {
    if LengthProperty(v).Some? then ComparedNumber(LengthProperty(v).value) else None
  }

  /** `Number(v)` for a value that is neither a string nor an object: null is 0, booleans 1 and 0. */
  function PrimitiveNumber(v: Json): int
    requires !(v.JStr? || v.JArr? || v.JObj?)
  {
    match v
    case JNull => 0
    case JBool(b) => if b then 1 else 0
    case JNum(n) => n
  }

  /**
   * `a + b` (the addition operator of ECMA-262, section 13.15.3): when
   * either side is a string, or an array or object (which become strings),
   * the two are concatenated as text; otherwise they are added as numbers.
   */
  function Plus(a: Json, b: Json): (r: Json)
    ensures a.JNum? && b.JNum? ==> r == JNum(a.n + b.n)
    ensures a.JStr? || b.JStr? ==> r == JStr(JsToString(a) + JsToString(b))
  {
    if a.JStr? || a.JArr? || a.JObj? || b.JStr? || b.JArr? || b.JObj? then JStr(JsToString(a) + JsToString(b))
    else JNum(PrimitiveNumber(a) + PrimitiveNumber(b))
  }

  /**
   * `a === b` for values that come from separate places (form fields, stored
   * records): `undefined`, `null`, booleans, numbers and strings compare by
   * value; two arrays or objects are distinct references.
   */
  predicate StrictEquals(a: Option<Json>, b: Option<Json>)
  {
    a == b && (a.None? || !(a.value.JArr? || a.value.JObj?))
  }
}

=== FILE: listing.dfy ===
/**
 * What the list pages compute from the rows they have loaded:
 * `items.filter(x => x.<key> === value).length`, and the class of a row's
 * status badge.
 */
module Listing {
  import opened Outcomes
  import opened JsValue
  import opened JsString

  /** Whether the row's `key` property is exactly the string `value`. */
  predicate HasField(item: Json, key: string, value: string)
  {
    Get(item, key) == Some(JStr(value))
  }

  /** The number of loaded rows whose `key` is `value`. */
  function CountWhere(items: seq<Json>, key: string, value: string): (n: nat)
    ensures n <= |items|
    ensures n == 0 <==> forall i :: 0 <= i < |items| ==> !HasField(items[i], key, value)
    ensures n == |items| <==> forall i :: 0 <= i < |items| ==> HasField(items[i], key, value)
    ensures |items| == 1 ==> n == if HasField(items[0], key, value) then 1 else 0
  {
    if items == [] then 0
    else
      var rest := CountWhere(items[1..], key, value);
      assert forall i :: 1 <= i < |items| ==> items[i] == items[1..][i - 1];
      (if HasField(items[0], key, value) then 1 else 0) + rest
  }

  /** Counting a concatenation is adding the counts of its parts, so every matching row counts once. */
  lemma {:induction false} CountWhereAppend(a: seq<Json>, b: seq<Json>, key: string, value: string)
    ensures CountWhere(a + b, key, value) == CountWhere(a, key, value) + CountWhere(b, key, value)
  {
    if a == [] {
      assert a + b == b;
    } else {
      assert (a + b)[0] == a[0];
      assert (a + b)[1..] == a[1..] + b;
      CountWhereAppend(a[1..], b, key, value);
    }
  }

  /**
   * A row has one value per key, so the counts for three different values
   * never add up to more than the rows; when every row has one of them,
   * they add up to exactly the rows.
   */
  lemma {:induction false} CountsPartition(items: seq<Json>, key: string, a: string, b: string, c: string)
    requires a != b && b != c && a != c
    ensures CountWhere(items, key, a) + CountWhere(items, key, b) + CountWhere(items, key, c) <= |items|
    ensures (forall i :: 0 <= i < |items| ==> HasField(items[i], key, a) || HasField(items[i], key, b) || HasField(items[i], key, c)) ==>
      CountWhere(items, key, a) + CountWhere(items, key, b) + CountWhere(items, key, c) == |items|
  {
    if items != [] {
      CountsPartition(items[1..], key, a, b, c);
      assert forall i :: 1 <= i < |items| ==> items[i] == items[1..][i - 1];
    }
  }

  /**
   * A status badge's class suffix, `value?.toLowerCase() || fallback`. A
   * present value that is neither text nor null (a number, a boolean, an
   * array, an object) has no `toLowerCase`, so the render throws: None.
   */
  function BadgeClass(status: Option<Json>, fallback: string): (r: Option<string>)
    ensures r.None? <==> status.Some? && !status.value.JStr? && !status.value.JNull?
    ensures status.Some? && status.value.JStr? && status.value.s != "" ==> r == Some(ToLower(status.value.s))
    ensures status.None? || status == Some(JNull) || status == Some(JStr("")) ==> r == Some(fallback)
  {
    match status
    case None => Some(fallback)
    case Some(JNull) => Some(fallback)
    case Some(JStr(s)) => if s == "" then Some(fallback) else Some(ToLower(s))
    case Some(_) => None
  }
}

=== FILE: login_page.dfy ===
/**
 * The sign-in and sign-up page: the password-strength meter, the password
 * confirmation rule, the sign-up payload, the loading gate and what a
 * sign-in submission asks the authentication service to do.
 */
module LoginPage {
  import opened Outcomes
  import opened JsValue
  import opened JsString
  import opened AuthContext
  import AuthHooks
  import AuthService

  // ----------------------------------------------------- password strength

  /** `/[a-z]/.test(s)` */
  predicate HasLower(s: string)
  {
    exists i :: 0 <= i < |s| && 'a' <= s[i] <= 'z'
  }

  /** `/[A-Z]/.test(s)` */
  predicate HasUpper(s: string)
  {
    exists i :: 0 <= i < |s| && 'A' <= s[i] <= 'Z'
  }

  /** `/\d/.test(s)` */
  predicate HasDigit(s: string)
  {
    exists i :: 0 <= i < |s| && '0' <= s[i] <= '9'
  }

  /** The characters of the meter's special-character class. */
  const Specials: set<char> := {'!', '@', '#', '$', '%', '^', '&', '*', '(', ')', ',', '.', '?', '"', ':', '{', '}', '|', '<', '>'}

  predicate HasSpecial(s: string)
  {
    exists i :: 0 <= i < |s| && s[i] in Specials
  }

  function Point(b: bool): nat
  {
    if b then 1 else 0
  }

  /** The number of the five criteria the password meets. */
  function Score(s: string): (n: nat)
    ensures n <= 5
    ensures n == 5 <==> Length(s) >= 6 && HasLower(s) && HasUpper(s) && HasDigit(s) && HasSpecial(s)
    ensures n == 0 <==> Length(s) < 6 && !HasLower(s) && !HasUpper(s) && !HasDigit(s) && !HasSpecial(s)
  {
    Point(Length(s) >= 6) + Point(HasLower(s)) + Point(HasUpper(s)) + Point(HasDigit(s)) + Point(HasSpecial(s))
  }

  /** getPasswordStrength's result. */
  datatype Strength = Strength(strength: nat, caption: string, color: string)

  /** strengthMap: a caption and a colour per score, none for 0. */
  function Label(n: nat): (r: (string, string))
    requires n <= 5
    ensures r.0 == "" <==> n == 0
    ensures r.1 == "" <==> n == 0
    ensures n == 1 <==> r == ("Muito fraca", "#dc3545")
    ensures n == 2 <==> r == ("Fraca", "#fd7e14")
    ensures n == 3 <==> r == ("Média", "#ffc107")
    ensures n == 4 <==> r == ("Forte", "#20c997")
    ensures n == 5 <==> r == ("Muito forte", "#28a745")
  {
    if n == 1 then ("Muito fraca", "#dc3545")
    else if n == 2 then ("Fraca", "#fd7e14")
    else if n == 3 then ("Média", "#ffc107")
    else if n == 4 then ("Forte", "#20c997")
    else if n == 5 then ("Muito forte", "#28a745")
    else ("", "")
  }

  /** getPasswordStrength(password): no password scores 0 with no label. */
  function PasswordStrength(password: Option<string>): (r: Strength)
    ensures r.strength <= 5
    ensures password.None? || password.value == "" ==> r == Strength(0, "", "")
    ensures password.Some? ==> r.strength == Score(password.value)
    ensures r.caption == "" <==> r.strength == 0
    ensures (r.caption, r.color) == Label(r.strength)
  {
    if password.None? || password.value == "" then Strength(0, "", "")
    else
      var n := Score(password.value);
      Strength(n, Label(n).0, Label(n).1)
  }

  /** Every criterion survives appending characters, so typing more never weakens the password. */
  lemma {:induction false} StrengthMonotone(s: string, t: string)
    ensures Score(s) <= Score(s + t)
    ensures PasswordStrength(Some(s)).strength <= PasswordStrength(Some(s + t)).strength
  {
    LengthConcat(s, t);
    var st := s + t;
    assert forall i :: 0 <= i < |s| ==> st[i] == s[i];
    if HasLower(s) {
      var i :| 0 <= i < |s| && 'a' <= s[i] <= 'z';
      assert 'a' <= st[i] <= 'z';
    }
    if HasUpper(s) {
      var i :| 0 <= i < |s| && 'A' <= s[i] <= 'Z';
      assert 'A' <= st[i] <= 'Z';
    }
    if HasDigit(s) {
      var i :| 0 <= i < |s| && '0' <= s[i] <= '9';
      assert '0' <= st[i] <= '9';
    }
    if HasSpecial(s) {
      var i :| 0 <= i < |s| && s[i] in Specials;
      assert st[i] in Specials;
    }
  }

  /** Some passwords: a blank one is non-empty yet scores 0; a mixed one scores 5. */
  lemma StrengthSamples()
    ensures PasswordStrength(Some(" ")) == Strength(0, "", "")
    ensures PasswordStrength(Some("Ab1!xy")) == Strength(5, "Muito forte", "#28a745")
  {
    assert Utf16Units(" ") == Utf16Units("") + CodeUnits(' ');
    assert !HasLower(" ") && !HasUpper(" ") && !HasDigit(" ") && !HasSpecial(" ");
    var p := "Ab1!xy";
    LengthConcat("Ab1", "!xy");
    LengthConcat("Ab", "1");
    LengthConcat("A", "b");
    LengthConcat("!x", "y");
    LengthConcat("!", "x");
    assert Utf16Units("A") == Utf16Units("") + CodeUnits('A');
    assert Utf16Units("b") == Utf16Units("") + CodeUnits('b');
    assert Utf16Units("1") == Utf16Units("") + CodeUnits('1');
    assert Utf16Units("!") == Utf16Units("") + CodeUnits('!');
    assert Utf16Units("x") == Utf16Units("") + CodeUnits('x');
    assert Utf16Units("y") == Utf16Units("") + CodeUnits('y');
    assert "Ab" == "A" + "b" && "Ab1" == "Ab" + "1" && "!x" == "!" + "x" && "!xy" == "!x" + "y" && p == "Ab1" + "!xy";
    assert 'b' == p[1] && 'A' == p[0] && '1' == p[2] && p[3] in Specials;
  }

  // ----------------------------------------------------------- sign-up form

  /** The confirmation field's `validate`: accepted iff strictly equal to the password field. */
  function ConfirmPasswordCheck(value: Option<string>, password: Option<string>): (r: Option<string>)
    ensures r.None? <==> value == password
    ensures r.Some? ==> r.value == "Senhas não conferem"
  {
    if value == password then None else Some("Senhas não conferem")
  }

  /** `data.<key>`, undefined when the form has no such field. */
  function FormField(data: map<string, Json>, key: string): Option<Json>
  {
    if key in data then Some(data[key]) else None
  }

  /**
   * The object handed to `register`: name, email and password as typed
   * (left out when undefined), institution and subject '' when falsy.
   */
  function RegisterPayload(data: map<string, Json>): (p: map<string, Json>)
    ensures forall k :: k in {"name", "email", "password"} ==> FormField(p, k) == FormField(data, k)
    ensures "institution" in p && p["institution"] == OrElse(FormField(data, "institution"), JStr(""))
    ensures "subject" in p && p["subject"] == OrElse(FormField(data, "subject"), JStr(""))
    ensures p.Keys <= {"name", "email", "password", "institution", "subject"}
  {
    var given := map k | k in data.Keys * {"name", "email", "password"} :: data[k];
    given["institution" := OrElse(FormField(data, "institution"), JStr(""))]["subject" := OrElse(FormField(data, "subject"), JStr(""))]
  }

  /**
   * Shaping the payload never changes what the service's own sign-up
   * checks decide: they read only name, email and password.
   */
  lemma {:induction false} RegisterPayloadKeepsChecks(data: map<string, Json>)
    ensures AuthService.RegisterCheck(RegisterPayload(data)) == AuthService.RegisterCheck(data)
  {
    var p := RegisterPayload(data);
    assert FormField(p, "name") == FormField(data, "name");
    assert FormField(p, "email") == FormField(data, "email");
    assert FormField(p, "password") == FormField(data, "password");
    assert AuthService.Field(p, "name") == FormField(p, "name") && AuthService.Field(data, "name") == FormField(data, "name");
    assert AuthService.Field(p, "email") == FormField(p, "email") && AuthService.Field(data, "email") == FormField(data, "email");
    assert AuthService.Field(p, "password") == FormField(p, "password") && AuthService.Field(data, "password") == FormField(data, "password");
  }

  // ---------------------------------------------------------- loading gate

  /** The page shows only the loading screen while `isLoading`, read from the context value (a function). */
  predicate ShowsLoadingAsWritten(s: AuthState)
  {
    AuthHooks.MemberTruthy(AuthHooks.ContextValue(s)["isLoading"])
  }

  /** The gate read from the reducer state's flag. */
  predicate ShowsLoading(s: AuthState)
  {
    Truthy(s.isLoading)
  }

  /**
   * As written the form never appears: every state shows the loading
   * screen. Read from the state, the form appears once initialisation
   * finds nobody signed in, and after a failed sign-in.
   */
  lemma {:induction false} LoadingGateHidesForm(s: AuthState, failure: Json)
    ensures ShowsLoadingAsWritten(s)
    ensures !ShowsLoading(Reduce(s, SetUser(map["user" := JNull, "token" := JNull])))
    ensures !ShowsLoading(Reduce(s, LoginFailure(failure)))
    ensures ShowsLoading(InitialState())
  {
    assert AuthHooks.ContextValue(s)["isLoading"] == AuthHooks.Callable;
  }

  // ----------------------------------------------------------- sign-in

  /** Where the sign-in leaves the two stores as written: the context drops `rememberMe`, so the service uses its default. */
  function SignInStoresAsWritten(st: AuthService.Stores, token: string, userData: string, rememberMe: bool): AuthService.Stores
  {
    AuthService.SetUserSpec(AuthService.SetTokenSpec(st, token, false), userData, false)
  }

  /** Where the sign-in leaves the stores when the checkbox reaches the service. */
  function SignInStores(st: AuthService.Stores, token: string, userData: string, rememberMe: bool): AuthService.Stores
  {
    AuthService.SetUserSpec(AuthService.SetTokenSpec(st, token, rememberMe), userData, rememberMe)
  }

  /**
   * Ticking "remember me" changes nothing as written: the token goes to
   * the session store, which the browser forgets. Passed through, the
   * token lands in the local store with the flag set; both leave the
   * client signed in.
   */
  lemma {:induction false} RememberMeIsDropped(st: AuthService.Stores, token: string, userData: string)
    requires token != ""
    ensures var w := SignInStoresAsWritten(st, token, userData, true);
      AuthService.Lookup(w.session, AuthService.TokenKey) == Some(token) &&
      AuthService.Lookup(w.local, AuthService.TokenKey) == AuthService.Lookup(st.local, AuthService.TokenKey) &&
      AuthService.RememberMeKey !in w.local
    ensures var c := SignInStores(st, token, userData, true);
      AuthService.Lookup(c.local, AuthService.TokenKey) == Some(token) &&
      AuthService.Lookup(c.local, AuthService.RememberMeKey) == Some("true")
    ensures SignInStoresAsWritten(st, token, userData, false) == SignInStores(st, token, userData, false)
    ensures AuthService.IsAuthenticated(SignInStores(st, token, userData, true))
  {
    var a := AuthService.SetTokenSpec(st, token, false);
    assert a.session[AuthService.TokenKey] == token;
    assert a.local == st.local - {AuthService.RememberMeKey};
    var c := AuthService.SetTokenSpec(st, token, true);
    assert c.local[AuthService.TokenKey] == token && c.local[AuthService.RememberMeKey] == "true";
    AuthService.LoginAuthenticates(st, token, userData, true);
  }

  /**
   * onSubmit in sign-in mode as written: the service is called without the
   * checkbox; on success the page moves to the dashboard.
   */
  method SubmitSignInAsWritten(storage: AuthService.AuthStorage, email: Option<Json>, password: Option<Json>, rememberMe: bool,
                               response: Result<Json, string>, stringify: Json -> string)
    returns (navigateTo: Option<string>)
    requires storage.local != storage.session
    modifies storage.local, storage.session
    ensures navigateTo.Some? ==> navigateTo.value == "/dashboard"
    ensures navigateTo.None? ==> storage.Snapshot() == old(storage.Snapshot())
    ensures navigateTo.Some? <==>
      AuthService.LoginCheck(email, password).None? && response.Success? &&
      AuthService.AcceptResponse(response.value, "Login realizado com sucesso").Success?
    ensures navigateTo.Some? ==>
      var session := AuthService.AcceptResponse(response.value, "Login realizado com sucesso").value;
      storage.Snapshot() == SignInStoresAsWritten(old(storage.Snapshot()), JsToString(session.token), stringify(session.user), rememberMe)
  {
    var r := storage.Login(email, password, false, response, stringify);
    if r.Success? {
      navigateTo := Some("/dashboard");
    } else {
      navigateTo := None;
    }
  }

  /** onSubmit in sign-in mode with the checkbox passed through. */
  method SubmitSignIn(storage: AuthService.AuthStorage, email: Option<Json>, password: Option<Json>, rememberMe: bool,
                      response: Result<Json, string>, stringify: Json -> string)
    returns (navigateTo: Option<string>)
    requires storage.local != storage.session
    modifies storage.local, storage.session
    ensures navigateTo.Some? ==> navigateTo.value == "/dashboard"
    ensures navigateTo.None? ==> storage.Snapshot() == old(storage.Snapshot())
    ensures navigateTo.Some? <==>
      AuthService.LoginCheck(email, password).None? && response.Success? &&
      AuthService.AcceptResponse(response.value, "Login realizado com sucesso").Success?
    ensures navigateTo.Some? ==>
      var session := AuthService.AcceptResponse(response.value, "Login realizado com sucesso").value;
      storage.Snapshot() == SignInStores(old(storage.Snapshot()), JsToString(session.token), stringify(session.user), rememberMe)
  {
    var r := storage.Login(email, password, rememberMe, response, stringify);
    if r.Success? {
      navigateTo := Some("/dashboard");
    } else {
      navigateTo := None;
    }
  }
}

=== FILE: modal.dfy ===
/**
 * The dialog component and its hooks: the confirmation dialog's record and
 * the handlers that open, confirm, cancel and hide it; the open/closed
 * flag of useModal; the Tab focus wrap inside an open dialog; and when
 * Escape or a backdrop click closes it.
 */
module Modal {
  import opened Outcomes
  import opened JsValue

  // ------------------------------------------------------ confirm record

  /** A callback held by the record: the no-op default, or whatever truthy value the caller gave. */
  datatype Callback = Noop | Supplied(f: Json)

  /**
   * useConfirmModal's record. The initial record has no button texts,
   * variants or icon (`None`, so ConfirmModal's own defaults apply).
   */
  datatype ConfirmState = ConfirmState(
    isOpen: bool,
    title: Json,
    message: Json,
    description: Json,
    confirmText: Option<Json>,
    cancelText: Option<Json>,
    confirmVariant: Option<Json>,
    cancelVariant: Option<Json>,
    icon: Option<Json>,
    iconVariant: Option<Json>,
    onConfirm: Callback,
    onCancel: Callback,
    loading: bool)

  function InitialConfirmState(): (s: ConfirmState)
    ensures !s.isOpen && !s.loading && s.title == JStr("") && s.confirmText.None?
  {
    ConfirmState(false, JStr(""), JStr(""), JStr(""), None, None, None, None, None, None, Noop, Noop, false)
  }

  /** `options.<key> || default` */
  function WithDefault(options: map<string, Json>, key: string, default: string): (r: Json)
    ensures key in options && Truthy(options[key]) ==> r == options[key]
    ensures !(key in options && Truthy(options[key])) ==> r == JStr(default)
  {
    OrElse(Get(JObj(options), key), JStr(default))
  }

  /** `options.<key> || (() => {})` */
  function CallbackOption(options: map<string, Json>, key: string): (c: Callback)
    ensures c.Noop? <==> !(key in options && Truthy(options[key]))
  {
    if key in options && Truthy(options[key]) then Supplied(options[key]) else Noop
  }

  /** showConfirm(options): a fresh, open, idle record with every falsy option replaced by its default. */
  function Shown(options: map<string, Json>): (s: ConfirmState)
    ensures s.isOpen && !s.loading
    ensures s.title == WithDefault(options, "title", "Confirmação")
    ensures s.message == WithDefault(options, "message", "") && s.description == WithDefault(options, "description", "")
    ensures s.confirmText == Some(WithDefault(options, "confirmText", "Confirmar"))
    ensures s.cancelText == Some(WithDefault(options, "cancelText", "Cancelar"))
    ensures s.confirmVariant == Some(WithDefault(options, "confirmVariant", "primary"))
    ensures s.cancelVariant == Some(WithDefault(options, "cancelVariant", "secondary"))
    ensures s.icon == Some(WithDefault(options, "icon", "❓"))
    ensures s.iconVariant == Some(WithDefault(options, "iconVariant", "info"))
    ensures s.onConfirm == CallbackOption(options, "onConfirm") && s.onCancel == CallbackOption(options, "onCancel")
  {
    ConfirmState(
      true,
      WithDefault(options, "title", "Confirmação"),
      WithDefault(options, "message", ""),
      WithDefault(options, "description", ""),
      Some(WithDefault(options, "confirmText", "Confirmar")),
      Some(WithDefault(options, "cancelText", "Cancelar")),
      Some(WithDefault(options, "confirmVariant", "primary")),
      Some(WithDefault(options, "cancelVariant", "secondary")),
      Some(WithDefault(options, "icon", "❓")),
      Some(WithDefault(options, "iconVariant", "info")),
      CallbackOption(options, "onConfirm"),
      CallbackOption(options, "onCancel"),
      false)
  }

  /** With no options at all the dialog shows the stock title, buttons and icon. */
  lemma EmptyOptionsGiveDefaults()
    ensures var s := Shown(map[]);
      s.title == JStr("Confirmação") && s.confirmText == Some(JStr("Confirmar")) &&
      s.cancelText == Some(JStr("Cancelar")) && s.icon == Some(JStr("❓")) &&
      s.onConfirm == Noop && s.onCancel == Noop
  {
  }

  /** hideConfirm: only `isOpen` changes. */
  function Hidden(s: ConfirmState): (r: ConfirmState)
    ensures !r.isOpen && r.(isOpen := s.isOpen) == s
  {
    s.(isOpen := false)
  }

  /**
   * The record once handleConfirm's callback has settled: closed after a
   * success, as it was after a failure, and idle either way. The no-op
   * default always succeeds.
   */
  function Confirmed(s: ConfirmState, outcome: Result<(), string>): (r: ConfirmState)
    ensures !r.loading
    ensures r.isOpen <==> s.isOpen && s.onConfirm.Supplied? && outcome.Failure?
    ensures r.(isOpen := s.isOpen, loading := s.loading) == s
  {
    var succeeded := s.onConfirm.Noop? || outcome.Success?;
    var busy := s.(loading := true);
    var settled := if succeeded then Hidden(busy) else busy;
    settled.(loading := false)
  }

  /**
   * Confirming a freshly shown dialog closes it when the callback succeeds
   * and leaves it open, ready to try again, when it fails; the texts shown
   * are those showConfirm set.
   */
  lemma {:induction false} ConfirmAfterShow(options: map<string, Json>, outcome: Result<(), string>)
    ensures var shown := Shown(options); var r := Confirmed(shown, outcome);
      (r.isOpen <==> "onConfirm" in options && Truthy(options["onConfirm"]) && outcome.Failure?) &&
      !r.loading && r.title == shown.title && r.message == shown.message
    ensures var r := Confirmed(Shown(options), outcome);
      r.isOpen ==> Confirmed(r, Success(())) == Hidden(r)
  {
    var shown := Shown(options);
    assert shown.onConfirm.Noop? <==> !("onConfirm" in options && Truthy(options["onConfirm"]));
  }

  /** Hiding twice is hiding once, and cancelling an already closed dialog changes nothing. */
  lemma HideIdempotent(s: ConfirmState)
    ensures Hidden(Hidden(s)) == Hidden(s)
    ensures !s.isOpen ==> Hidden(s) == s
  {
  }

  /** useConfirmModal: the record behind the confirmation dialog. */
  class ConfirmDialog {
    var state: ConfirmState

    constructor ()
      ensures state == InitialConfirmState()
    {
      state := InitialConfirmState();
    }

    method ShowConfirm(options: map<string, Json>)
      modifies this
      ensures state == Shown(options)
    {
      state := Shown(options);
    }

    method HideConfirm()
      modifies this
      ensures state == Hidden(old(state))
    {
      state := state.(isOpen := false);
    }

    /**
     * handleConfirm: `loading` is set while the callback runs (reported in
     * `loadingWhileRunning`), the dialog is hidden on success, and `loading`
     * is cleared at the end whatever the outcome. `outcome` is what the
     * caller's callback does; the no-op default does nothing and succeeds.
     */
    method HandleConfirm(outcome: Result<(), string>) returns (loadingWhileRunning: bool)
      modifies this
      ensures loadingWhileRunning
      ensures state == Confirmed(old(state), outcome)
    {
      state := state.(loading := true);
      loadingWhileRunning := state.loading;
      var succeeded := state.onConfirm.Noop? || outcome.Success?;
      if succeeded {
        HideConfirm();
      }
      state := state.(loading := false);
    }

    /**
     * handleCancel: the caller's onCancel, then hide. `outcome` is how the
     * caller's callback ended; one that throws skips the hiding and the error
     * leaves the handler, while the stock no-op never throws.
     */
    method HandleCancel(outcome: Result<(), string>) returns (threw: bool)
      modifies this
      ensures threw <==> state.onCancel.Supplied? && outcome.Failure?
      ensures threw ==> state == old(state)
      ensures !threw ==> state == Hidden(old(state))
    {
      threw := state.onCancel.Supplied? && outcome.Failure?;
      if !threw {
        HideConfirm();
      }
    }
  }

  // -------------------------------------------------------------- useModal

  /** useModal(initialState = false): one open/closed flag. */
  class ModalFlag {
    var isOpen: bool

    constructor (initialState: Option<bool>)
      ensures isOpen == (initialState.Some? && initialState.value)
    {
      isOpen := initialState.Some? && initialState.value;
    }

    method OpenModal()
      modifies this
      ensures isOpen
    {
      isOpen := true;
    }

    method CloseModal()
      modifies this
      ensures !isOpen
    {
      isOpen := false;
    }

    method ToggleModal()
      modifies this
      ensures isOpen == !old(isOpen)
    {
      isOpen := !isOpen;
    }
  }

  // ------------------------------------------------------------ focus wrap

  /** What a key press inside the dialog does to focus: nothing special, or focus moved (and the default prevented). */
  datatype FocusMove = Stay | MoveTo(index: nat)

  /**
   * handleKeyDown over `count` focusable elements, the active element
   * being the one at `active` (None when it is none of them).
   */
  function FocusWrap(key: string, shift: bool, count: nat, active: Option<nat>): (r: FocusMove)
    ensures r.MoveTo? ==> key == "Tab" && r.index < count
    ensures key == "Tab" && count > 0 && !shift && active == Some(count - 1) ==> r == MoveTo(0)
    ensures key == "Tab" && count > 0 && shift && active == Some(0) ==> r == MoveTo(count - 1)
    ensures r.MoveTo? ==> (if shift then active == Some(0) else active == Some(count - 1))
  {
    if key != "Tab" || count == 0 then Stay
    else if shift then (if active == Some(0) then MoveTo(count - 1) else Stay)
    else if active == Some(count - 1) then MoveTo(0)
    else Stay
  }

  /**
   * Focus never leaves the dialog by Tab: wrapping forward from the last
   * element and then back with Shift+Tab returns to it, and from any
   * element strictly inside the cycle the browser's own move is kept.
   */
  lemma {:induction false} FocusWrapCycles(count: nat, i: nat)
    requires 0 < count
    ensures FocusWrap("Tab", false, count, Some(count - 1)) == MoveTo(0)
    ensures FocusWrap("Tab", true, count, Some(0)) == MoveTo(count - 1)
    ensures 0 < i < count - 1 ==> FocusWrap("Tab", false, count, Some(i)) == Stay && FocusWrap("Tab", true, count, Some(i)) == Stay
    ensures FocusWrap("Tab", false, count, None) == Stay
  {
  }

  // ------------------------------------------------------------ close guards

  /** The Escape listener closes only an open dialog that allows it. */
  predicate EscapeCloses(key: string, closeOnEscape: bool, isOpen: bool)
  {
    key == "Escape" && closeOnEscape && isOpen
  }

  /** A click closes only when it lands on the backdrop itself and the dialog allows it. */
  predicate BackdropCloses(targetIsBackdrop: bool, closeOnBackdrop: bool)
  {
    targetIsBackdrop && closeOnBackdrop
  }

  /** ConfirmModal's guards and disabled buttons, all derived from `loading`. */
  datatype ConfirmControls = ConfirmControls(closeOnBackdrop: bool, closeOnEscape: bool, cancelDisabled: bool, confirmDisabled: bool, closeButtonDisabled: bool)

  function ConfirmModalControls(loading: bool): (c: ConfirmControls)
    ensures c.closeOnBackdrop == !loading && c.closeOnEscape == !loading
    ensures c.cancelDisabled == loading && c.confirmDisabled == loading && c.closeButtonDisabled == loading
  {
    ConfirmControls(!loading, !loading, loading, loading, loading)
  }

  /**
   * While a confirmation runs, nothing closes the dialog: not Escape, not a
   * backdrop click, and every button is disabled. Once idle, Escape on the
   * open dialog and a click on its backdrop both close it.
   */
  lemma {:induction false} NoCloseWhileConfirming(key: string, targetIsBackdrop: bool)
    ensures var c := ConfirmModalControls(true);
      !EscapeCloses(key, c.closeOnEscape, true) && !BackdropCloses(targetIsBackdrop, c.closeOnBackdrop) &&
      c.cancelDisabled && c.confirmDisabled && c.closeButtonDisabled
    ensures var c := ConfirmModalControls(false);
      EscapeCloses("Escape", c.closeOnEscape, true) && BackdropCloses(true, c.closeOnBackdrop)
  {
  }

  /** A hidden dialog ignores Escape. */
  lemma ClosedIgnoresEscape(closeOnEscape: bool)
    ensures !EscapeCloses("Escape", closeOnEscape, false)
  {
  }
}

=== FILE: outcomes.dfy ===
/** Optional values and results, used wherever the source returns `null`/`undefined` or throws. */
module Outcomes {
  datatype Option<T> = None | Some(value: T)

  datatype Result<T, E> = Success(value: T) | Failure(error: E)
  {
    predicate IsFailure() { Failure? }
  }
}

=== FILE: qr_code.dfy ===
/**
 * The QR code service (`qrCodeService`): one scanner engine at a time, the
 * routing of decoded text to the caller (parsed JSON or the raw text), the
 * exam-payload validator and its generators, and the de-duplicating
 * continuous-scan callback with its 32-bit string hash.
 *
 * The camera library, the clock and `JSON.parse` are parameters: `clearOk`,
 * `renderOk` and `startOk` say whether the engine call settles without
 * throwing, `now` is `Date.now()`, `parse` is the JSON text parser (None when
 * it throws).
 */
module QrCode {
  import opened Outcomes
  import opened JsValue
  import opened JsString

  // ---------------------------------------------------------------- configuration

  /** DEFAULT_CONFIG: 10 frames per second, a 250x250 scan box, square aspect, no flip, rear camera. */
  function DefaultConfig(): map<string, Json>
  {
    map[
      "fps" := JNum(10),
      "qrbox" := JObj(map["width" := JNum(250), "height" := JNum(250)]),
      "aspectRatio" := JNum(1),
      "disableFlip" := JBool(false),
      "videoConstraints" := JObj(map["facingMode" := JStr("environment")])
    ]
  }

  /** `{ ...DEFAULT_CONFIG, ...config }`: every default is present unless the caller overrides it. */
  function FinalConfig(config: map<string, Json>): (r: map<string, Json>)
    ensures r.Keys == DefaultConfig().Keys + config.Keys
    ensures forall k :: k in config ==> r[k] == config[k]
    ensures forall k :: k in DefaultConfig() && k !in config ==> r[k] == DefaultConfig()[k]
  {
    DefaultConfig() + config
  }

  // ---------------------------------------------------------------- the scanner engine

  /** The engine object the service holds in `this.scanner`. */
  datatype Engine =
    | PageScanner(elementId: string, config: map<string, Json>)                      // Html5QrcodeScanner, rendered
    | CameraScanner(elementId: string, cameraId: string, config: map<string, Json>)  // Html5Qrcode, started on a camera

  /** What a success callback hands to `onSuccess`: the parsed JSON value, or the raw text when it does not parse. */
  function DecodedValue(text: string, parse: string -> Option<Json>): (v: Json)
    ensures parse(text).Some? ==> v == parse(text).value
    ensures parse(text).None? ==> v == JStr(text)
  {
    if parse(text).Some? then parse(text).value else JStr(text)
  }

  /** The error callback forwards an engine error to `onError` unless it is the per-frame "nothing found" error. */
  predicate ForwardsScanError(error: string, hasOnError: bool)
  {
    hasOnError && !Contains(error, "NotFoundException")
  }

  class ScannerService {
    var scanner: Option<Engine>
    var isScanning: bool

    constructor ()
      ensures scanner == None && !isScanning
    {
      scanner := None;
      isScanning := false;
    }

    /** stopScanner: clears the engine; when `clear()` throws, it reports false and changes nothing. */
    method StopScanner(clearOk: bool) returns (ok: bool)
      modifies this
      ensures ok <==> old(scanner).None? || clearOk
      ensures ok ==> scanner == None && !isScanning
      ensures !ok ==> scanner == old(scanner) && isScanning == old(isScanning)
    {
      if scanner.Some? && !clearOk {
        return false;
      }
      scanner := None;
      isScanning := false;
      ok := true;
    }

    /** initScanner: stops a held engine first, then holds a fresh page scanner (even when that stop failed). */
    method InitScanner(elementId: string, config: map<string, Json>, clearOk: bool) returns (engine: Engine)
      modifies this
      ensures engine == PageScanner(elementId, FinalConfig(config)) && scanner == Some(engine)
      ensures isScanning == (old(isScanning) && !(old(scanner).Some? && clearOk))
    {
      if scanner.Some? {
        var _ := StopScanner(clearOk);
      }
      engine := PageScanner(elementId, FinalConfig(config));
      scanner := Some(engine);
    }

    /** startScanning: stop when scanning, init, render; `ok` is false where the source rethrows. */
    method StartScanning(elementId: string, config: map<string, Json>, clearOk: bool, renderOk: bool)
      returns (ok: bool)
      modifies this
      ensures ok == renderOk
      ensures scanner == Some(PageScanner(elementId, FinalConfig(config)))
      ensures isScanning == (renderOk || (old(isScanning) && old(scanner).Some? && !clearOk))
    {
      if isScanning {
        var _ := StopScanner(clearOk);
      }
      var _ := InitScanner(elementId, config, clearOk);
      if !renderOk {
        return false;
      }
      isScanning := true;
      ok := true;
    }

    /**
     * The page scanner's success callback: marks the service scanning and
     * calls `onSuccess` with the decoded value. `throws` says on which values
     * the caller's `onSuccess` throws: the catch meant for `JSON.parse` then
     * calls it a second time with the raw text. `delivered` lists the calls.
     */
    method OnPageScannerDecode(text: string, parse: string -> Option<Json>, throws: Json -> bool)
      returns (delivered: seq<Json>)
      modifies this
      ensures isScanning && scanner == old(scanner)
      ensures |delivered| >= 1 && delivered[0] == DecodedValue(text, parse)
      ensures |delivered| == 2 <==> parse(text).Some? && throws(parse(text).value)
      ensures |delivered| == 2 ==> delivered[1] == JStr(text)
      ensures |delivered| <= 2
    {
      isScanning := true;
      if parse(text).Some? {
        delivered := [parse(text).value];
        if throws(parse(text).value) {
          delivered := delivered + [JStr(text)];
        }
      } else {
        delivered := [JStr(text)];
      }
    }

    /** startScanningWithCamera: stops a HELD engine (not a scanning flag), then starts a camera engine. */
    method StartScanningWithCamera(elementId: string, cameraId: string, config: map<string, Json>,
                                   clearOk: bool, startOk: bool)
      returns (ok: bool)
      modifies this
      ensures ok == startOk
      ensures scanner == Some(CameraScanner(elementId, cameraId, FinalConfig(config)))
      ensures isScanning == (startOk || (old(isScanning) && (old(scanner).None? || !clearOk)))
    {
      if scanner.Some? {
        var _ := StopScanner(clearOk);
      }
      scanner := Some(CameraScanner(elementId, cameraId, FinalConfig(config)));
      if !startOk {
        return false;
      }
      isScanning := true;
      ok := true;
    }

    /** cleanup, run on `beforeunload` and `popstate`: stops a held engine. */
    method Cleanup(clearOk: bool)
      modifies this
      ensures old(scanner).Some? && clearOk ==> scanner == None && !isScanning
      ensures !(old(scanner).Some? && clearOk) ==> scanner == old(scanner) && isScanning == old(isScanning)
    {
      if scanner.Some? {
        var _ := StopScanner(clearOk);
      }
    }

    /** The `visibilitychange` listener: a hidden page stops a running scan. */
    method OnVisibilityChange(hidden: bool, clearOk: bool)
      modifies this
      ensures hidden && old(isScanning) && (old(scanner).None? || clearOk) ==> scanner == None && !isScanning
      ensures !(hidden && old(isScanning) && (old(scanner).None? || clearOk)) ==>
        scanner == old(scanner) && isScanning == old(isScanning)
    {
      if hidden && isScanning {
        var _ := StopScanner(clearOk);
      }
    }
  }

  /** scanFile: a decoded image yields the parsed value or raw text; an unreadable one fails with a fixed message. */
  function ScanFile(decoded: Option<string>, parse: string -> Option<Json>): (r: Result<Json, string>)
    ensures decoded.None? <==> r == Failure("Não foi possível ler o QR Code da imagem")
    ensures decoded.Some? ==> r == Success(DecodedValue(decoded.value, parse))
  {
    if decoded.None? then Failure("Não foi possível ler o QR Code da imagem")
    else Success(DecodedValue(decoded.value, parse))
  }

  // ---------------------------------------------------------------- cameras and support

  datatype Device = Device(id: string, labelText: string)

  /** getCameras: each device with its label, or "Câmera <id>" when the label is empty; [] when enumeration fails. */
  function GetCameras(devices: Option<seq<Device>>): (cams: seq<Device>)
    ensures devices.None? ==> cams == []
    ensures devices.Some? ==> |cams| == |devices.value|
    ensures devices.Some? ==> forall k :: 0 <= k < |cams| ==>
      cams[k].id == devices.value[k].id && cams[k].labelText != "" &&
      (devices.value[k].labelText != "" ==> cams[k].labelText == devices.value[k].labelText) &&
      (devices.value[k].labelText == "" ==> cams[k].labelText == "Câmera " + devices.value[k].id)
  {
    if devices.None? then []
    else seq(|devices.value|, k requires 0 <= k < |devices.value| => CameraEntry(devices.value[k]))
  }

  /** One listed camera: its id, and its label or "Câmera <id>" when the label is blank. */
  function CameraEntry(d: Device): (r: Device)
    ensures r.id == d.id && r.labelText != ""
    ensures d.labelText != "" ==> r.labelText == d.labelText
    ensures d.labelText == "" ==> r.labelText == "Câmera " + d.id
  {
    Device(d.id, if d.labelText != "" then d.labelText else "Câmera " + d.id)
  }

  /** checkCameraSupport: at least one camera could be enumerated. */
  predicate CheckCameraSupport(devices: Option<seq<Device>>)
  {
    devices.Some? && |devices.value| > 0
  }

  /** The toast requestCameraPermission shows for a refused `getUserMedia`, by error name. */
  function PermissionErrorToast(errorName: string): string
  {
    if errorName == "NotAllowedError" then "Acesso à câmera negado. Verifique as configurações do navegador."
    else if errorName == "NotFoundError" then "Nenhuma câmera encontrada."
    else if errorName == "NotSupportedError" then "Câmera não suportada neste navegador."
    else "Erro ao acessar a câmera."
  }

  /** The browser facts getSupportInfo reads. */
  datatype Browser = Browser(hasMediaDevices: bool, mediaDevicesHasGetUserMedia: bool, isSecureContext: bool, hostname: string)

  datatype Requirements = Requirements(https: bool, mediaDevices: bool, getUserMedia: bool)

  datatype SupportInfo = SupportInfo(
    hasMediaDevices: bool, hasGetUserMedia: bool, isSecureContext: bool, isLocalhost: bool,
    isSupported: bool, requirements: Requirements)

  /** isSupported: `getUserMedia` exists (no secure-context test). */
  predicate IsSupported(b: Browser)
  {
    b.hasMediaDevices && b.mediaDevicesHasGetUserMedia
  }

  function GetSupportInfo(b: Browser): (info: SupportInfo)
    ensures info.isSupported <==> info.requirements.getUserMedia && info.requirements.https
    ensures info.isSupported <==> IsSupported(b) && (b.isSecureContext || b.hostname in {"localhost", "127.0.0.1"})
    ensures info.requirements.https <==> b.isSecureContext || b.hostname in {"localhost", "127.0.0.1"}
    ensures info.hasGetUserMedia == info.requirements.getUserMedia == IsSupported(b)
    ensures info.hasMediaDevices == info.requirements.mediaDevices == b.hasMediaDevices
    ensures info.isSecureContext == b.isSecureContext
    ensures info.isLocalhost <==> b.hostname in {"localhost", "127.0.0.1"}
    ensures info.hasGetUserMedia ==> info.hasMediaDevices
  {
    var hasGetUserMedia := b.hasMediaDevices && b.mediaDevicesHasGetUserMedia;
    var isLocalhost := b.hostname == "localhost" || b.hostname == "127.0.0.1";
    SupportInfo(b.hasMediaDevices, hasGetUserMedia, b.isSecureContext, isLocalhost,
      hasGetUserMedia && (b.isSecureContext || isLocalhost),
      Requirements(b.isSecureContext || isLocalhost, b.hasMediaDevices, hasGetUserMedia))
  }

  /** The one place the source's secure-context rule matters: plain-HTTP pages off localhost. */
  lemma SupportedButInsecure(b: Browser)
    requires IsSupported(b) && !b.isSecureContext && b.hostname == "example.org"
    ensures !GetSupportInfo(b).isSupported && !GetSupportInfo(b).requirements.https
  {
  }

  // ---------------------------------------------------------------- exam QR payloads

  const MillisPerDay: int := 1000 * 60 * 60 * 24
  const MaxQrAgeDays: int := 30
  /** The largest magnitude of a valid Date time value (section 21.4.1.31 of ECMA-262). */
  const MaxDateMillis: int := 8_640_000_000_000_000

  /** A time value inside the Date range, or an Invalid Date (TimeClip, section 21.4.1.31 of ECMA-262). */
  function TimeClip(t: Option<int>): (r: Option<int>)
    ensures r.Some? <==> t.Some? && -MaxDateMillis <= t.value <= MaxDateMillis
    ensures r.Some? ==> r == t
  {
    if t.Some? && -MaxDateMillis <= t.value <= MaxDateMillis then t else None
  }

  /**
   * `new Date(v).getTime()` for a payload timestamp; None is an Invalid Date
   * (NaN). Text goes through the date-string parser `parseDate` (the format
   * of section 21.4.1.32 of ECMA-262 and whatever else the browser accepts);
   * an array or object is first turned into its text.
   */
  function DateMillis(v: Json, parseDate: string -> Option<int>): (r: Option<int>)
    ensures r.Some? ==> -MaxDateMillis <= r.value <= MaxDateMillis
    ensures v.JNum? ==> r == TimeClip(Some(v.n))
    ensures v.JStr? ==> r == TimeClip(parseDate(v.s))
    ensures v.JArr? || v.JObj? ==> r == TimeClip(parseDate(JsToString(v)))
  {
    match v
    case JNum(n) => TimeClip(Some(n))
    case JBool(b) => Some(if b then 1 else 0)
    case JNull => Some(0)
    case JStr(s) => TimeClip(parseDate(s))
    case _ => TimeClip(parseDate(JsToString(v)))
  }

  /** `diffDays > 30`, with the day count kept exact: more than 30 whole days of milliseconds have passed. */
  predicate Expired(timestamp: Json, now: int, parseDate: string -> Option<int>)
  {
    var d := DateMillis(timestamp, parseDate);
    d.Some? && now - d.value > MaxQrAgeDays * MillisPerDay
  }

  datatype Validation =
    | Valid(examId: Json, version: Json, timestamp: Option<Json>)
    | Invalid(error: string, warning: bool)

  /** `typeof v === 'object'` for a non-null value. */
  predicate IsObject(v: Json)
  {
    v.JObj? || v.JArr?
  }

  /** The value the validator inspects: text is parsed (None when JSON.parse throws), anything else is used as is. */
  function QrPayload(qrData: Json, parse: string -> Option<Json>): (p: Option<Json>)
    ensures !qrData.JStr? ==> p == Some(qrData)
    ensures qrData.JStr? ==> p == parse(qrData.s)
  {
    if qrData.JStr? then parse(qrData.s) else Some(qrData)
  }

  /** The checks before the timestamp pass: an object with a truthy exam_id and no foreign type. */
  predicate IsExamPayload(data: Json)
  {
    Truthy(data) && IsObject(data) && TruthyOpt(Get(data, "exam_id")) &&
    !(TruthyOpt(Get(data, "type")) && Get(data, "type") != Some(JStr("exam")))
  }

  /**
   * validateExamQRCode: text is parsed first; then, in this order, a non-object,
   * a missing exam id, a type other than "exam" and a timestamp older than 30
   * days are refused; otherwise the exam id, the version (1 when absent or
   * falsy) and the timestamp are returned.
   */
  function ValidateExamQRCode(qrData: Json, parse: string -> Option<Json>, parseDate: string -> Option<int>, now: int)
    : (r: Validation)
    ensures r.Valid? ==> Truthy(r.examId) && Truthy(r.version)
    ensures r.Invalid? ==> (r.warning <==> r.error == "QR Code expirado")
    // the failure of JSON.parse
    ensures QrPayload(qrData, parse).None? ==> r == Invalid("Formato de QR Code inválido", false)
    // the checks, each applying once the ones before it passed
    ensures var p := QrPayload(qrData, parse);
      p.Some? && !(Truthy(p.value) && IsObject(p.value)) ==> r == Invalid("QR Code inválido", false)
    ensures var p := QrPayload(qrData, parse);
      p.Some? && Truthy(p.value) && IsObject(p.value) && !TruthyOpt(Get(p.value, "exam_id")) ==>
      r == Invalid("ID da prova não encontrado", false)
    ensures var p := QrPayload(qrData, parse);
      p.Some? && Truthy(p.value) && IsObject(p.value) && TruthyOpt(Get(p.value, "exam_id")) &&
      TruthyOpt(Get(p.value, "type")) && Get(p.value, "type") != Some(JStr("exam")) ==>
      r == Invalid("QR Code não é de uma prova", false)
    ensures var p := QrPayload(qrData, parse);
      p.Some? && IsExamPayload(p.value) && TruthyOpt(Get(p.value, "timestamp")) &&
      Expired(Get(p.value, "timestamp").value, now, parseDate) ==>
      r == Invalid("QR Code expirado", true)
    // acceptance: exactly the payloads that pass every check, with their fields
    ensures r.Valid? <==> var p := QrPayload(qrData, parse);
      p.Some? && IsExamPayload(p.value) &&
      !(TruthyOpt(Get(p.value, "timestamp")) && Expired(Get(p.value, "timestamp").value, now, parseDate))
    ensures r.Valid? ==> var data := QrPayload(qrData, parse).value;
      Get(data, "exam_id") == Some(r.examId) && r.version == OrElse(Get(data, "version"), JNum(1)) &&
      r.timestamp == Get(data, "timestamp")
  {
    var parsed := QrPayload(qrData, parse);
    if parsed.None? then Invalid("Formato de QR Code inválido", false)
    else
      var data := parsed.value;
      if !Truthy(data) || !IsObject(data) then Invalid("QR Code inválido", false)
      else if !TruthyOpt(Get(data, "exam_id")) then Invalid("ID da prova não encontrado", false)
      else if TruthyOpt(Get(data, "type")) && Get(data, "type") != Some(JStr("exam")) then
        Invalid("QR Code não é de uma prova", false)
      else if TruthyOpt(Get(data, "timestamp")) && Expired(Get(data, "timestamp").value, now, parseDate) then
        Invalid("QR Code expirado", true)
      else
        Valid(Get(data, "exam_id").value, OrElse(Get(data, "version"), JNum(1)), Get(data, "timestamp"))
  }

  /** An ISO timestamp string that the browser reads as an instant more than 30 days back makes the code expire. */
  lemma IsoTimestampExpires(examId: Json, stamp: string, issued: int, parseDate: string -> Option<int>,
                            parse: string -> Option<Json>, now: int)
    requires Truthy(examId) && stamp != ""
    requires parseDate(stamp) == Some(issued) && -MaxDateMillis <= issued <= MaxDateMillis
    requires now - issued > MaxQrAgeDays * MillisPerDay
    ensures ValidateExamQRCode(JObj(map["type" := JStr("exam"), "exam_id" := examId, "timestamp" := JStr(stamp)]),
                               parse, parseDate, now) == Invalid("QR Code expirado", true)
  {
    var data := JObj(map["type" := JStr("exam"), "exam_id" := examId, "timestamp" := JStr(stamp)]);
    assert Get(data, "timestamp") == Some(JStr(stamp));
    assert Get(data, "type") == Some(JStr("exam"));
    assert Get(data, "exam_id") == Some(examId);
  }

  /** generateExamQRData: the object that is serialised; `version` is None when the argument is omitted. */
  function GenerateExamQRData(examId: Json, version: Option<Json>, now: int): (payload: Json)
    ensures Get(payload, "type") == Some(JStr("exam")) && Get(payload, "exam_id") == Some(examId)
    ensures Get(payload, "timestamp") == Some(JNum(now))
    ensures version.None? ==> Get(payload, "version") == Some(JNum(1))
  {
    JObj(map[
      "type" := JStr("exam"),
      "exam_id" := examId,
      "version" := if version.Some? then version.value else JNum(1),
      "timestamp" := JNum(now)])
  }

  /** generateCorrectionQRData */
  function GenerateCorrectionQRData(examId: Json, answerId: Json, studentName: Json, now: int): (payload: Json)
    ensures Get(payload, "type") == Some(JStr("correction")) && Get(payload, "exam_id") == Some(examId)
    ensures Get(payload, "answer_id") == Some(answerId) && Get(payload, "student_name") == Some(studentName)
  {
    JObj(map[
      "type" := JStr("correction"),
      "exam_id" := examId,
      "answer_id" := answerId,
      "student_name" := studentName,
      "timestamp" := JNum(now)])
  }

  /** A generated exam code, read back through its text within 30 days, is valid with the same id and version. */
  lemma GeneratedExamCodeValidates(examId: Json, version: Option<Json>, issued: int, text: string,
                                   parse: string -> Option<Json>, parseDate: string -> Option<int>, now: int)
    requires parse(text) == Some(GenerateExamQRData(examId, version, issued))
    requires Truthy(examId)
    requires -MaxDateMillis <= issued <= MaxDateMillis
    requires now - issued <= MaxQrAgeDays * MillisPerDay
    ensures ValidateExamQRCode(JStr(text), parse, parseDate, now)
         == Valid(examId, OrElse(Some(if version.Some? then version.value else JNum(1)), JNum(1)), Some(JNum(issued)))
  {
  }

  /** The same code read more than 30 days after it was issued is refused as expired, with the warning flag. */
  lemma GeneratedExamCodeExpires(examId: Json, version: Option<Json>, issued: int, text: string,
                                 parse: string -> Option<Json>, parseDate: string -> Option<int>, now: int)
    requires parse(text) == Some(GenerateExamQRData(examId, version, issued))
    requires Truthy(examId) && issued != 0
    requires -MaxDateMillis <= issued <= MaxDateMillis
    requires now - issued > MaxQrAgeDays * MillisPerDay
    ensures ValidateExamQRCode(JStr(text), parse, parseDate, now) == Invalid("QR Code expirado", true)
  {
  }

  /** A correction code is never accepted as an exam code. */
  lemma CorrectionCodeIsNotAnExam(examId: Json, answerId: Json, name: Json, issued: int, now: int,
                                  parse: string -> Option<Json>, parseDate: string -> Option<int>)
    requires Truthy(examId)
    ensures ValidateExamQRCode(GenerateCorrectionQRData(examId, answerId, name, issued), parse, parseDate, now)
         == Invalid("QR Code não é de uma prova", false)
  {
  }

  /** Handing the validator text or the value that text parses to (a non-string) gives the same verdict. */
  lemma ValidateTextOrValue(text: string, v: Json, parse: string -> Option<Json>, parseDate: string -> Option<int>,
                            now: int)
    requires parse(text) == Some(v) && !v.JStr?
    ensures ValidateExamQRCode(JStr(text), parse, parseDate, now) == ValidateExamQRCode(v, parse, parseDate, now)
  {
  }

  // ---------------------------------------------------------------- hashCode

  const TwoTo32: int := 0x1_0000_0000
  const TwoTo31: int := 0x8000_0000

  /** ToInt32 (section 7.1.6 of ECMA-262): the signed 32-bit integer congruent to `x` modulo 2^32. */
  function ToInt32(x: int): (r: int)
    ensures -TwoTo31 <= r < TwoTo31
  {
    var m := x % TwoTo32;
    if m >= TwoTo31 then m - TwoTo32 else m
  }

  lemma {:induction false} ToInt32Periodic(x: int, k: int)
    ensures ToInt32(x + k * TwoTo32) == ToInt32(x)
  {
    assert (x + k * TwoTo32) % TwoTo32 == x % TwoTo32;
  }

  /** `ToInt32(x) << 5` equals ToInt32(32x), so one step of the source's loop is ToInt32(31h + c). */
  lemma {:induction false} HashStep(h: int, c: int)
    ensures ToInt32(ToInt32(h * 32) - h + c) == ToInt32(31 * h + c)
  {
    var m := (h * 32) % TwoTo32;
    var q := (h * 32) / TwoTo32;
    assert h * 32 == q * TwoTo32 + m;
    if m >= TwoTo31 {
      assert ToInt32(h * 32) - h + c == (31 * h + c) + (-q - 1) * TwoTo32;
      ToInt32Periodic(31 * h + c, -q - 1);
    } else {
      assert ToInt32(h * 32) - h + c == (31 * h + c) + (-q) * TwoTo32;
      ToInt32Periodic(31 * h + c, -q);
    }
  }

  /** The hash of a sequence of code units: h starts at 0 and becomes ToInt32(31h + unit) for each unit. */
  function HashOf(units: seq<int>): (h: int)
    ensures -TwoTo31 <= h < TwoTo31
  {
    if units == [] then 0 else ToInt32(31 * HashOf(units[..|units| - 1]) + units[|units| - 1])
  }

  /** hashCode: the loop of the source, `hash = ((hash << 5) - hash) + char; hash = hash & hash`. */
  method HashCode(str: string) returns (hash: int)
    ensures hash == HashOf(Utf16Units(str))
    ensures -TwoTo31 <= hash < TwoTo31
  {
    var units := Utf16Units(str);
    hash := 0;
    var i := 0;
    while i < |units|
      invariant 0 <= i <= |units|
      invariant hash == HashOf(units[..i])
    {
      var unit := units[i];
      HashStep(hash, unit);
      assert units[..i + 1][..i] == units[..i];
      assert HashOf(units[..i + 1]) == ToInt32(31 * hash + unit);
      var shifted := ToInt32(hash * 32);
      hash := ToInt32(shifted - hash + unit);
      i := i + 1;
    }
    assert units[..|units|] == units;
  }

  /** "Aa" and "BB" hash alike, so the continuous scanner takes one for a repeat of the other. */
  lemma DistinctCodesCollide()
    ensures HashOf(Utf16Units("Aa")) == HashOf(Utf16Units("BB")) == 2112
  {
    assert Utf16Units("A") == [65];
    assert Utf16Units("B") == [66];
    assert Utf16Units("Aa") == Utf16Units("A") + [97];
    assert Utf16Units("BB") == Utf16Units("B") + [66];
    assert [65, 97][..1] == [65];
    assert [66, 66][..1] == [66];
  }

  // ---------------------------------------------------------------- continuous scanning

  /**
   * What `this.hashCode(value)` does with a value the success callback hands
   * on: a string is hashed. `null.length` throws (None). Any other value
   * enters the loop when `0 < value.length`, reading `length` as a property
   * and comparing it as a number, and then throws because it has no
   * `charCodeAt` (None); otherwise the loop never runs and the hash is 0.
   */
  function HashOfDelivered(v: Json): (r: Option<int>)
    ensures v.JStr? ==> r == Some(HashOf(Utf16Units(v.s)))
    ensures v.JNull? ==> r.None?
    ensures !v.JStr? && !v.JNull? ==> (r.None? <==> ComparedLength(v).Some? && ComparedLength(v).value > 0)
    ensures !v.JStr? && r.Some? ==> r.value == 0
  {
    if v.JStr? then Some(HashOf(Utf16Units(v.s)))
    else if v.JNull? then None
    else
      var n := ComparedLength(v);
      if n.Some? && n.value > 0 then None else Some(0)
  }

  /** Objects whose `length` reads as a positive number make the hash throw; an empty array hashes to 0. */
  lemma LengthObjectsThrow()
    ensures HashOfDelivered(JObj(map["length" := JStr("3")])).None?
    ensures HashOfDelivered(JObj(map["length" := JArr([JNum(2)])])).None?
    ensures HashOfDelivered(JObj(map["length" := JBool(true)])).None?
    ensures HashOfDelivered(JArr([])) == Some(0)
    ensures HashOfDelivered(JObj(map[])) == Some(0)
  {
    assert TextNumber("3") == Some(3);
    ArraysCompareAsTheirText(2);
  }

  /** A scheduled `scannedCodes.delete(hash)`, due at `due`. */
  datatype Removal = Removal(hash: int, due: int)

  /** The state the continuous-scan closure captures. */
  datatype DedupState = DedupState(scannedCodes: set<int>, lastScanTime: int, pending: seq<Removal>)

  const InitialDedup := DedupState({}, 0, [])

  /** `config.cooldown || 2000` */
  function Cooldown(configured: Option<int>): (c: int)
    ensures c != 0
  {
    if configured.Some? && configured.value != 0 then configured.value else 2000
  }

  /** setTimeout clamps a negative delay to zero. */
  function TimerDue(now: int, delay: int): int
  {
    if delay < 0 then now else now + delay
  }

  /** The closure's verdict on one call: the hash threw, the code is a recent repeat, or it is passed on. */
  datatype Offer = Threw | Suppressed | Accepted(hash: int)

  /** One call of the closure with `value` at time `now`. */
  function Offer1(st: DedupState, cooldown: int, value: Json, now: int): (res: (DedupState, Offer))
    ensures res.1.Threw? <==> HashOfDelivered(value).None?
    ensures res.1.Suppressed? <==> (HashOfDelivered(value).Some? &&
      now - st.lastScanTime < cooldown && HashOfDelivered(value).value in st.scannedCodes)
    ensures !res.1.Accepted? ==> res.0 == st
    ensures res.1.Accepted? ==> (res.1.hash == HashOfDelivered(value).value &&
      res.0.scannedCodes == st.scannedCodes + {res.1.hash} && res.0.lastScanTime == now)
  {
    var h := HashOfDelivered(value);
    if h.None? then (st, Threw)
    else if now - st.lastScanTime < cooldown && h.value in st.scannedCodes then (st, Suppressed)
    else
      (DedupState(st.scannedCodes + {h.value}, now, st.pending + [Removal(h.value, TimerDue(now, cooldown * 2))]),
       Accepted(h.value))
  }

  /**
   * One decoded text through startScanning's success callback into the
   * closure: the parsed value is offered first; when the closure throws on it,
   * the catch offers the raw text. The second component is what `onScan` gets.
   */
  function OnContinuousDecode(st: DedupState, cooldown: int, text: string, parse: string -> Option<Json>, now: int)
    : (res: (DedupState, Option<Json>))
    ensures res.1.Some? ==> res.1.value == DecodedValue(text, parse) || res.1.value == JStr(text)
    ensures res.1.None? ==> res.0 == st
    // the parsed value is passed on iff the closure accepts it
    ensures Offer1(st, cooldown, DecodedValue(text, parse), now).1.Accepted? ==>
      res == (Offer1(st, cooldown, DecodedValue(text, parse), now).0, Some(DecodedValue(text, parse)))
    // a suppressed repeat is dropped
    ensures Offer1(st, cooldown, DecodedValue(text, parse), now).1.Suppressed? ==> res == (st, None)
    // when hashing the parsed value throws, the raw text is offered in its place
    ensures Offer1(st, cooldown, DecodedValue(text, parse), now).1.Threw? ==>
      (if Offer1(st, cooldown, JStr(text), now).1.Accepted?
       then res == (Offer1(st, cooldown, JStr(text), now).0, Some(JStr(text)))
       else res == (st, None))
  {
    var first := Offer1(st, cooldown, DecodedValue(text, parse), now);
    if first.1.Accepted? then (first.0, Some(DecodedValue(text, parse)))
    else if first.1.Suppressed? then (st, None)
    else
      var second := Offer1(st, cooldown, JStr(text), now);
      if second.1.Accepted? then (second.0, Some(JStr(text))) else (st, None)
  }

  /**
   * The same decoded text when the caller's `onScan` may throw (`throws`
   * says on which values). A throw while the parsed value is passed on
   * lands in the catch meant for `JSON.parse`, which runs the closure again
   * with the raw text: a second hash, a second timer and possibly a second
   * delivery. A throw during a call made from the catch leaves the callback;
   * the calls already made stand. The second component lists what `onScan`
   * was called with, in order.
   */
  function DecodeWithCallback(st: DedupState, cooldown: int, text: string, parse: string -> Option<Json>, now: int,
                              throws: Json -> bool): (res: (DedupState, seq<Json>))
    ensures |res.1| <= 2
    // a callback that returns normally: exactly the single delivery OnContinuousDecode describes
    ensures !throws(DecodedValue(text, parse)) ==>
      res == (OnContinuousDecode(st, cooldown, text, parse, now).0,
              if OnContinuousDecode(st, cooldown, text, parse, now).1.Some?
              then [OnContinuousDecode(st, cooldown, text, parse, now).1.value] else [])
    // a parsed value accepted and then thrown on: the raw text goes through the closure from the new state
    ensures parse(text).Some? && throws(parse(text).value) &&
            Offer1(st, cooldown, parse(text).value, now).1.Accepted? ==>
      var first := Offer1(st, cooldown, parse(text).value, now).0;
      if Offer1(first, cooldown, JStr(text), now).1.Accepted?
      then res == (Offer1(first, cooldown, JStr(text), now).0, [parse(text).value, JStr(text)])
      else res == (first, [parse(text).value])
    ensures |res.1| == 2 ==> parse(text).Some? && throws(parse(text).value) && res.1 == [parse(text).value, JStr(text)]
  {
    var value := DecodedValue(text, parse);
    var first := Offer1(st, cooldown, value, now);
    if first.1.Accepted? then
      if parse(text).Some? && throws(value) then
        var second := Offer1(first.0, cooldown, JStr(text), now);
        if second.1.Accepted? then (second.0, [value, JStr(text)]) else (first.0, [value])
      else (first.0, [value])
    else if first.1.Suppressed? then (st, [])
    else
      var second := Offer1(st, cooldown, JStr(text), now);
      if second.1.Accepted? then (second.0, [JStr(text)]) else (st, [])
  }

  /** A parsed object whose delivery throws reaches `onScan` twice, the second time as raw text. */
  lemma ThrowingCallbackDeliversTwice(text: string, parse: string -> Option<Json>, now: int, throws: Json -> bool)
    requires parse(text) == Some(JObj(map[])) && throws(JObj(map[]))
    requires HashOf(Utf16Units(text)) != 0
    ensures DecodeWithCallback(InitialDedup, 2000, text, parse, now, throws).1 == [JObj(map[]), JStr(text)]
  {
    var v := JObj(map[]);
    assert DecodedValue(text, parse) == v;
    assert HashOfDelivered(v) == Some(0);
    var first := Offer1(InitialDedup, 2000, v, now);
    assert first.1.Accepted? && first.0.scannedCodes == {0};
    var second := Offer1(first.0, 2000, JStr(text), now);
    assert HashOfDelivered(JStr(text)) == Some(HashOf(Utf16Units(text)));
    assert second.1.Accepted?;
  }

  /** The timers due by `now` fire: their hashes leave the set and the timers are gone. */
  function FireDue(st: DedupState, now: int): (r: DedupState)
    ensures r.lastScanTime == st.lastScanTime
    ensures r.scannedCodes == st.scannedCodes - DueHashes(st.pending, now)
    ensures forall k :: 0 <= k < |r.pending| ==> r.pending[k].due > now
  {
    DedupState(st.scannedCodes - DueHashes(st.pending, now), st.lastScanTime, NotDue(st.pending, now))
  }

  function DueHashes(p: seq<Removal>, now: int): (hs: set<int>)
    ensures forall k :: 0 <= k < |p| && p[k].due <= now ==> p[k].hash in hs
  {
    if p == [] then {} else DueHashes(p[..|p| - 1], now) + (if p[|p| - 1].due <= now then {p[|p| - 1].hash} else {})
  }

  /** Exactly the hashes of the timers due by `now` are removed. */
  lemma {:induction false} DueHashesExactly(p: seq<Removal>, now: int)
    ensures forall h :: h in DueHashes(p, now) <==> exists k :: 0 <= k < |p| && p[k].due <= now && p[k].hash == h
  {
    if p != [] {
      var q := p[..|p| - 1];
      DueHashesExactly(q, now);
      forall h | h in DueHashes(p, now)
        ensures exists k :: 0 <= k < |p| && p[k].due <= now && p[k].hash == h
      {
        if h in DueHashes(q, now) {
          var k :| 0 <= k < |q| && q[k].due <= now && q[k].hash == h;
          assert p[k] == q[k];
        } else {
          assert p[|p| - 1].due <= now && p[|p| - 1].hash == h;
        }
      }
    }
  }

  function NotDue(p: seq<Removal>, now: int): (r: seq<Removal>)
    ensures |r| <= |p|
    ensures forall k :: 0 <= k < |r| ==> r[k].due > now && r[k] in p
  {
    if p == [] then [] else NotDue(p[..|p| - 1], now) + (if p[|p| - 1].due > now then [p[|p| - 1]] else [])
  }

  /** Every timer not yet due stays pending, and only those, in the order scheduled. */
  lemma {:induction false} NotDueExactly(p: seq<Removal>, now: int)
    ensures forall x :: x in NotDue(p, now) <==> x in p && x.due > now
  {
    if p != [] {
      var q := p[..|p| - 1];
      NotDueExactly(q, now);
      assert p == q + [p[|p| - 1]];
    }
  }

  /** Scheduling one more timer adds it at the end of what stays pending, or adds nothing. */
  lemma NotDueAppend(p: seq<Removal>, x: Removal, now: int)
    ensures NotDue(p + [x], now) == NotDue(p, now) + (if x.due > now then [x] else [])
  {
    assert (p + [x])[..|p|] == p;
  }

  /** One more timer in the schedule: its hash is due or it stays pending. */
  lemma PendingStep(p: seq<Removal>, i: nat, now: int)
    requires i < |p|
    ensures NotDue(p[..i + 1], now) == NotDue(p[..i], now) + (if p[i].due > now then [p[i]] else [])
    ensures DueHashes(p[..i + 1], now) == DueHashes(p[..i], now) + (if p[i].due <= now then {p[i].hash} else {})
  {
    assert p[..i + 1][..i] == p[..i];
  }

  /** Firing the due timers removes exactly their hashes and keeps every later timer pending. */
  lemma FireDueExactly(st: DedupState, now: int)
    ensures forall x :: x in FireDue(st, now).pending <==> x in st.pending && x.due > now
    ensures forall h :: h in FireDue(st, now).scannedCodes <==>
      h in st.scannedCodes && !exists k :: 0 <= k < |st.pending| && st.pending[k].due <= now && st.pending[k].hash == h
  {
    NotDueExactly(st.pending, now);
    DueHashesExactly(st.pending, now);
  }

  /** A text that was just passed on is held back when it comes again within the cooldown. */
  lemma RepeatWithinCooldownSuppressed(st: DedupState, cooldown: int, text: string, parse: string -> Option<Json>,
                                       t1: int, t2: int)
    requires OnContinuousDecode(st, cooldown, text, parse, t1).1.Some?
    requires t1 <= t2 < t1 + cooldown
    ensures OnContinuousDecode(OnContinuousDecode(st, cooldown, text, parse, t1).0, cooldown, text, parse, t2).1.None?
  {
  }

  /**
   * A text passed on at t1 is passed on again, as the same value, once the
   * cooldown has run out, even while its removal timer is still pending.
   */
  lemma RepeatAfterCooldownDelivered(st: DedupState, cooldown: int, text: string, parse: string -> Option<Json>,
                                     t1: int, t2: int)
    requires OnContinuousDecode(st, cooldown, text, parse, t1).1.Some?
    requires t2 >= t1 + cooldown
    ensures OnContinuousDecode(OnContinuousDecode(st, cooldown, text, parse, t1).0, cooldown, text, parse, t2).1
            == OnContinuousDecode(st, cooldown, text, parse, t1).1
  {
  }

  /** Once the removal timer of a passed-on text has fired, the same text is passed on again. */
  lemma RepeatAfterTimerDelivered(st: DedupState, cooldown: int, text: string, parse: string -> Option<Json>,
                                  t1: int, t2: int)
    requires parse(text).None?
    requires OnContinuousDecode(st, cooldown, text, parse, t1).1.Some?
    requires t2 >= TimerDue(t1, cooldown * 2)
    ensures OnContinuousDecode(FireDue(OnContinuousDecode(st, cooldown, text, parse, t1).0, t2),
                               cooldown, text, parse, t2).1 == Some(JStr(text))
  {
    var st1 := OnContinuousDecode(st, cooldown, text, parse, t1).0;
    var h := HashOf(Utf16Units(text));
    assert st1.pending[|st1.pending| - 1] == Removal(h, TimerDue(t1, cooldown * 2));
    assert h in DueHashes(st1.pending, t2);
  }

  /** A different code that collides with one just passed on is dropped within the cooldown. */
  lemma CollidingCodeDropped(parse: string -> Option<Json>, t1: int, t2: int)
    requires parse("Aa").None? && parse("BB").None?
    requires t1 <= t2 < t1 + 2000
    ensures OnContinuousDecode(InitialDedup, 2000, "Aa", parse, t1).1 == Some(JStr("Aa"))
    ensures OnContinuousDecode(OnContinuousDecode(InitialDedup, 2000, "Aa", parse, t1).0, 2000, "BB", parse, t2).1.None?
  {
    DistinctCodesCollide();
    var st1 := OnContinuousDecode(InitialDedup, 2000, "Aa", parse, t1).0;
    assert 2112 in st1.scannedCodes && st1.lastScanTime == t1;
    assert HashOfDelivered(JStr("BB")) == Some(2112);
  }

  /** The closure of startContinuousScanning, with its captured set, last time and timers. */
  class ContinuousScan {
    var scannedCodes: set<int>
    var lastScanTime: int
    var pending: seq<Removal>
    const cooldown: int

    function State(): DedupState
      reads this
    {
      DedupState(scannedCodes, lastScanTime, pending)
    }

    constructor (configuredCooldown: Option<int>)
      ensures State() == InitialDedup && cooldown == Cooldown(configuredCooldown)
    {
      scannedCodes := {};
      lastScanTime := 0;
      pending := [];
      cooldown := Cooldown(configuredCooldown);
    }

    /** A decoded text at `now`; `delivered` lists what reaches `onScan`, which throws on the values `throws` names. */
    method OnDecode(text: string, parse: string -> Option<Json>, now: int, throws: Json -> bool)
      returns (delivered: seq<Json>)
      modifies this
      ensures (State(), delivered) == DecodeWithCallback(old(State()), cooldown, text, parse, now, throws)
    {
      var res := DecodeWithCallback(State(), cooldown, text, parse, now, throws);
      scannedCodes, lastScanTime, pending := res.0.scannedCodes, res.0.lastScanTime, res.0.pending;
      delivered := res.1;
    }

    /** The event loop reaches `now`: every removal timer due by then runs, in the order scheduled. */
    method RunTimers(now: int)
      modifies this
      ensures State() == FireDue(old(State()), now)
    {
      var i := 0;
      var remaining: seq<Removal> := [];
      var p := pending;
      while i < |p|
        invariant 0 <= i <= |p| && pending == p
        invariant remaining == NotDue(p[..i], now)
        invariant scannedCodes == old(scannedCodes) - DueHashes(p[..i], now)
        invariant lastScanTime == old(lastScanTime)
      {
        PendingStep(p, i, now);
        if p[i].due <= now {
          scannedCodes := scannedCodes - {p[i].hash};
        } else {
          remaining := remaining + [p[i]];
        }
        i := i + 1;
      }
      assert p[..|p|] == p;
      pending := remaining;
    }
  }
}

=== FILE: qr_scanner_hooks.dfy ===
/**
 * The scanner hooks layered over the QR code service: the camera-scanning
 * session (`useQRScanner`), the image upload checks (`useQRImageScanner`),
 * the scanner configuration (`useQRScannerConfig`), the scan history
 * (`useQRScanHistory`) and the scan counters (`useQRScanStats`).
 *
 * React state is a field of a class; a callback reads the values it closed
 * over, so a method copies the fields it reads at its start and writes its
 * updates as it goes, the last write to a field being the one that renders.
 */
module QrScannerHooks {
  import opened Outcomes
  import opened JsValue
  import opened JsString
  import QrCode

  // ---------------------------------------------------------------- camera preference

  predicate IsRearLabel(labelText: string)
  {
    var l := ToLower(labelText);
    Contains(l, "back") || Contains(l, "rear") || Contains(l, "environment")
  }

  /** `deviceList.find(...)`: the index of the first rear-facing camera. */
  function FirstRear(cams: seq<QrCode.Device>): (r: Option<nat>)
    ensures r.Some? ==> r.value < |cams| && IsRearLabel(cams[r.value].labelText)
    ensures r.Some? ==> forall k :: 0 <= k < r.value ==> !IsRearLabel(cams[k].labelText)
    ensures r.None? ==> forall k :: 0 <= k < |cams| ==> !IsRearLabel(cams[k].labelText)
  {
    if cams == [] then None
    else if IsRearLabel(cams[0].labelText) then Some(0)
    else
      var rest := FirstRear(cams[1..]);
      if rest.Some? then Some(rest.value + 1) else None
  }

  /** `rearCamera?.id || deviceList[0].id` */
  function PreferredCamera(cams: seq<QrCode.Device>): (id: string)
    requires |cams| > 0
    ensures FirstRear(cams).Some? && cams[FirstRear(cams).value].id != "" ==> id == cams[FirstRear(cams).value].id
    ensures FirstRear(cams).None? ==> id == cams[0].id
    ensures FirstRear(cams).Some? && cams[FirstRear(cams).value].id == "" ==> id == cams[0].id
    ensures exists k :: 0 <= k < |cams| && cams[k].id == id
  {
    var rear := FirstRear(cams);
    if rear.Some? && cams[rear.value].id != "" then cams[rear.value].id else cams[0].id
  }

  /** The error text the support check shows, by the first requirement that fails. */
  function SupportError(info: QrCode.SupportInfo): (e: Option<string>)
    ensures e.None? <==> info.isSupported
  {
    if info.isSupported then None
    else if !info.requirements.https then Some("Scanner QR requer HTTPS ou localhost")
    else if !info.requirements.getUserMedia then Some("Navegador não suporta acesso à câmera")
    else Some("Scanner QR não suportado")
  }

  /** The hook's error state after a scanner error: "nothing found" errors leave it as it was. */
  function ErrorAfterScanError(current: Option<string>, scanError: string): (e: Option<string>)
    ensures Contains(scanError, "NotFoundException") ==> e == current
    ensures !Contains(scanError, "NotFoundException") ==> e == Some("Erro no scanner: " + scanError)
  {
    if Contains(scanError, "NotFoundException") then current else Some("Erro no scanner: " + scanError)
  }

  // ---------------------------------------------------------------- useQRScanner

  class QrScannerHook {
    var isScanning: bool
    var isSupported: bool
    var cameras: seq<QrCode.Device>
    var selectedCamera: Option<string>
    var error: Option<string>
    var hasPermission: Option<bool>
    var scannerRef: Option<QrCode.Engine>
    var elementIdRef: Option<string>

    constructor ()
      ensures !isScanning && !isSupported && cameras == [] && selectedCamera.None?
      ensures error.None? && hasPermission.None? && scannerRef.None? && elementIdRef.None?
    {
      isScanning, isSupported, cameras, selectedCamera := false, false, [], None;
      error, hasPermission, scannerRef, elementIdRef := None, None, None, None;
    }

    /** The mount effect: record support and explain a missing requirement. */
    method CheckSupport(browser: QrCode.Browser)
      modifies this
      ensures isSupported == QrCode.GetSupportInfo(browser).isSupported
      ensures error == (if isSupported then old(error) else SupportError(QrCode.GetSupportInfo(browser)))
      ensures isScanning == old(isScanning) && selectedCamera == old(selectedCamera) && hasPermission == old(hasPermission)
    {
      var info := QrCode.GetSupportInfo(browser);
      isSupported := info.isSupported;
      if !info.isSupported {
        error := SupportError(info);
      }
    }

    /**
     * loadCameras: nothing when unsupported; otherwise store the list and,
     * when it is non-empty and no camera is selected yet, select the preferred one.
     */
    method LoadCameras(devices: Option<seq<QrCode.Device>>)
      modifies this
      ensures !old(isSupported) ==> cameras == old(cameras) && selectedCamera == old(selectedCamera)
      ensures old(isSupported) ==> cameras == QrCode.GetCameras(devices)
      ensures old(isSupported) && |cameras| > 0 && !TruthySelection(old(selectedCamera))
        ==> selectedCamera == Some(PreferredCamera(cameras))
      ensures !(old(isSupported) && |cameras| > 0 && !TruthySelection(old(selectedCamera)))
        ==> selectedCamera == old(selectedCamera)
      ensures isScanning == old(isScanning) && error == old(error) && hasPermission == old(hasPermission)
      ensures isSupported == old(isSupported) && scannerRef == old(scannerRef) && elementIdRef == old(elementIdRef)
    {
      if !isSupported {
        return;
      }
      var deviceList := QrCode.GetCameras(devices);
      cameras := deviceList;
      if |deviceList| > 0 && !TruthySelection(selectedCamera) {
        selectedCamera := Some(PreferredCamera(deviceList));
      }
    }

    /** `!!selectedCamera` */
    static predicate TruthySelection(s: Option<string>)
    {
      s.Some? && s.value != ""
    }

    /** requestPermission: `granted` is the answer of the permission probe. */
    method RequestPermission(granted: bool, devices: Option<seq<QrCode.Device>>) returns (r: bool)
      modifies this
      ensures r == granted && hasPermission == Some(granted)
      ensures !granted ==> error == Some("Permissão de câmera negada") && selectedCamera == old(selectedCamera)
      ensures granted ==> error == old(error)
      ensures granted && old(isSupported) ==> cameras == QrCode.GetCameras(devices)
      ensures granted && old(isSupported) && |cameras| > 0 && !TruthySelection(old(selectedCamera))
        ==> selectedCamera == Some(PreferredCamera(cameras))
      ensures !(granted && old(isSupported)) ==> cameras == old(cameras)
      ensures !(granted && old(isSupported) && |cameras| > 0 && !TruthySelection(old(selectedCamera)))
        ==> selectedCamera == old(selectedCamera)
      ensures isScanning == old(isScanning) && isSupported == old(isSupported)
      ensures scannerRef == old(scannerRef) && elementIdRef == old(elementIdRef)
    {
      hasPermission := Some(granted);
      if granted {
        LoadCameras(devices);
      } else {
        error := Some("Permissão de câmera negada");
      }
      r := granted;
    }

    /** stopScanning: the service stop never throws, so the hook always ends not scanning. */
    method StopScanning(svc: QrCode.ScannerService, clearOk: bool)
      modifies this, svc
      ensures !isScanning && scannerRef.None?
      ensures old(svc.scanner).None? || clearOk ==> svc.scanner.None? && !svc.isScanning
      ensures old(svc.scanner).Some? && !clearOk ==> svc.scanner == old(svc.scanner) && svc.isScanning == old(svc.isScanning)
      ensures selectedCamera == old(selectedCamera) && error == old(error) && hasPermission == old(hasPermission)
      ensures isSupported == old(isSupported) && elementIdRef == old(elementIdRef) && cameras == old(cameras)
    {
      var _ := svc.StopScanner(clearOk);
      isScanning := false;
      scannerRef := None;
    }

    /**
     * startScanning. `granted` and `devices` answer the permission probe and
     * camera listing (used only when permission is still unknown); `engineOk`
     * says whether the engine started, `engineError` is its message otherwise.
     * The camera used is the selection the callback closed over.
     */
    method StartScanning(svc: QrCode.ScannerService, elementId: string, config: map<string, Json>,
                         granted: bool, devices: Option<seq<QrCode.Device>>,
                         clearOk: bool, engineOk: bool, engineError: string)
      returns (ok: bool)
      modifies this, svc
      ensures ok <==> old(isSupported) && (old(hasPermission).Some? || granted) && engineOk
      ensures ok ==> isScanning && error.None? && scannerRef == svc.scanner && elementIdRef == Some(elementId)
      ensures !ok ==> !isScanning
      ensures !old(isSupported) ==> (error == Some("Scanner não suportado")
        && svc.scanner == old(svc.scanner) && svc.isScanning == old(svc.isScanning)
        && hasPermission == old(hasPermission))
      ensures old(isSupported) && old(hasPermission).None? ==> hasPermission == Some(granted)
      ensures old(hasPermission).Some? ==> hasPermission == old(hasPermission)
      ensures old(isSupported) && old(hasPermission).None? && !granted ==> (
        error == Some("Permissão de câmera necessária") && (!old(isScanning) ==> svc.scanner == old(svc.scanner)))
      ensures ok && TruthySelection(old(selectedCamera)) ==>
        svc.scanner == Some(QrCode.CameraScanner(elementId, old(selectedCamera).value, QrCode.FinalConfig(config)))
      ensures ok && !TruthySelection(old(selectedCamera)) ==>
        svc.scanner == Some(QrCode.PageScanner(elementId, QrCode.FinalConfig(config)))
      ensures old(isSupported) && (old(hasPermission).Some? || granted) && !engineOk ==> error == Some(engineError)
      // the inline permission request loads the cameras; the scan itself still uses the earlier selection
      ensures old(isSupported) && old(hasPermission).None? && granted ==> cameras == QrCode.GetCameras(devices)
      ensures old(isSupported) && old(hasPermission).None? && granted && |cameras| > 0 && !TruthySelection(old(selectedCamera))
        ==> selectedCamera == Some(PreferredCamera(cameras))
      ensures !(old(isSupported) && old(hasPermission).None? && granted) ==> cameras == old(cameras)
      ensures !(old(isSupported) && old(hasPermission).None? && granted && |cameras| > 0 && !TruthySelection(old(selectedCamera)))
        ==> selectedCamera == old(selectedCamera)
    {
      var wasScanning, permission, camera := isScanning, hasPermission, selectedCamera;
      if !isSupported {
        error := Some("Scanner não suportado");
        isScanning := false;
        return false;
      }
      if wasScanning {
        StopScanning(svc, clearOk);
      }
      elementIdRef := Some(elementId);
      error := None;
      if permission.None? {
        var g := RequestPermission(granted, devices);
        if !g {
          error := Some("Permissão de câmera necessária");
          isScanning := false;
          return false;
        }
      }
      var started;
      if TruthySelection(camera) {
        started := svc.StartScanningWithCamera(elementId, camera.value, config, clearOk, engineOk);
      } else {
        started := svc.StartScanning(elementId, config, clearOk, engineOk);
      }
      if !started {
        error := Some(engineError);
        isScanning := false;
        return false;
      }
      isScanning := true;
      scannerRef := svc.scanner;
      ok := true;
    }

    /** The success callback handed to the service: clears the error before passing the value on. */
    method OnScanSuccess()
      modifies this
      ensures error.None? && isScanning == old(isScanning) && selectedCamera == old(selectedCamera)
    {
      error := None;
    }

    /** The error callback handed to the service. */
    method OnScanError(scanError: string)
      modifies this
      ensures error == ErrorAfterScanError(old(error), scanError)
      ensures isScanning == old(isScanning) && selectedCamera == old(selectedCamera)
    {
      error := ErrorAfterScanError(error, scanError);
    }

    /** switchCamera: select the camera and stop a running scan; the delayed restart does nothing. */
    method SwitchCamera(svc: QrCode.ScannerService, cameraId: string, clearOk: bool)
      modifies this, svc
      ensures selectedCamera == Some(cameraId)
      ensures old(isScanning) && old(elementIdRef).Some? && old(elementIdRef).value != "" ==> !isScanning && scannerRef.None?
      ensures old(isScanning) && old(elementIdRef).Some? && old(elementIdRef).value != "" ==>
        if old(svc.scanner).None? || clearOk then svc.scanner.None? && !svc.isScanning
        else svc.scanner == old(svc.scanner) && svc.isScanning == old(svc.isScanning)
      ensures !(old(isScanning) && old(elementIdRef).Some? && old(elementIdRef).value != "") ==>
        isScanning == old(isScanning) && svc.scanner == old(svc.scanner) && svc.isScanning == old(svc.isScanning)
    {
      var wasScanning := isScanning;
      selectedCamera := Some(cameraId);
      if wasScanning && elementIdRef.Some? && elementIdRef.value != "" {
        StopScanning(svc, clearOk);
        selectedCamera := Some(cameraId);
      }
    }

    /** scanFile: the service's result, and the hook's error message when the image cannot be read. */
    method ScanFile(decoded: Option<string>, parse: string -> Option<Json>) returns (r: Result<Json, string>)
      modifies this
      ensures r == QrCode.ScanFile(decoded, parse)
      ensures r.Failure? ==> error == Some("Não foi possível ler o QR Code da imagem")
      ensures r.Success? ==> error == old(error)
    {
      r := QrCode.ScanFile(decoded, parse);
      if r.Failure? {
        error := Some("Não foi possível ler o QR Code da imagem");
      }
    }
  }

  // ---------------------------------------------------------------- useQRImageScanner

  const MaxImageBytes: int := 5 * 1024 * 1024

  /** The checks scanImage makes before decoding, in order; None lets the file through. */
  function ImageRejection(fileType: string, size: int): (e: Option<string>)
    ensures e.None? <==> fileType in ["image/jpeg", "image/jpg", "image/png", "image/gif"] && size <= MaxImageBytes
  {
    if fileType !in ["image/jpeg", "image/jpg", "image/png", "image/gif"] then
      Some("Tipo de arquivo não suportado. Use JPG, PNG ou GIF.")
    else if size > MaxImageBytes then Some("Arquivo muito grande. Máximo 5MB.")
    else None
  }

  /** A file of exactly 5 MiB passes; one byte more does not. */
  lemma ImageSizeBoundary()
    ensures ImageRejection("image/png", 5242880).None?
    ensures ImageRejection("image/png", 5242881) == Some("Arquivo muito grande. Máximo 5MB.")
  {
  }

  class QrImageScanner {
    var isProcessing: bool
    var result: Option<Json>
    var error: Option<string>

    constructor ()
      ensures !isProcessing && result.None? && error.None?
    {
      isProcessing, result, error := false, None, None;
    }

    /** scanImage: `decoded` is what the decoder reads from the file (consulted only when the checks pass). */
    method ScanImage(fileType: string, size: int, decoded: Option<string>, parse: string -> Option<Json>)
      returns (r: Result<Json, string>)
      modifies this
      ensures !isProcessing
      ensures ImageRejection(fileType, size).Some? ==> r == Failure(ImageRejection(fileType, size).value)
      ensures ImageRejection(fileType, size).None? ==> r == QrCode.ScanFile(decoded, parse)
      ensures r.Success? ==> result == Some(r.value) && error.None?
      ensures r.Failure? ==> result.None? && error == Some(r.error)
    {
      isProcessing := true;
      error := None;
      result := None;
      var rejection := ImageRejection(fileType, size);
      if rejection.Some? {
        r := Failure(rejection.value);
      } else {
        r := QrCode.ScanFile(decoded, parse);
      }
      if r.Success? {
        result := Some(r.value);
      } else {
        error := Some(r.error);
      }
      isProcessing := false;
    }
  }

  // ---------------------------------------------------------------- useQRScannerConfig

  /** The hook's presets: default, fast, precise and mobile; any other name is the default one. */
  function GetPreset(name: string): (p: map<string, Json>)
    ensures name !in {"fast", "precise", "mobile"} ==> p == Box(10, 250)
    ensures "fps" in p && "qrbox" in p && "aspectRatio" in p
    ensures ("videoConstraints" in p) <==> name == "mobile"
  {
    if name == "fast" then Box(20, 200)
    else if name == "precise" then Box(5, 300)
    else if name == "mobile" then
      Box(10, 200)["videoConstraints" := JObj(map[
        "facingMode" := JStr("environment"),
        "width" := JObj(map["ideal" := JNum(1280)]),
        "height" := JObj(map["ideal" := JNum(720)])])]
    else Box(10, 250)
  }

  function Box(fps: int, side: int): map<string, Json>
  {
    map["fps" := JNum(fps), "qrbox" := JObj(map["width" := JNum(side), "height" := JNum(side)]), "aspectRatio" := JNum(1)]
  }

  class QrScannerConfig {
    var config: map<string, Json>

    constructor ()
      ensures config == QrCode.DefaultConfig()
    {
      config := QrCode.DefaultConfig();
    }

    /** updateConfig: a shallow merge, the new keys win and the rest are kept. */
    method UpdateConfig(newConfig: map<string, Json>)
      modifies this
      ensures config.Keys == old(config).Keys + newConfig.Keys
      ensures forall k :: k in newConfig ==> config[k] == newConfig[k]
      ensures forall k :: k in old(config) && k !in newConfig ==> config[k] == old(config)[k]
    {
      config := config + newConfig;
    }

    method ResetConfig()
      modifies this
      ensures config == QrCode.DefaultConfig()
    {
      config := QrCode.DefaultConfig();
    }

    /** applyPreset: merge the named preset over the current configuration. */
    method ApplyPreset(name: string)
      modifies this
      ensures config == old(config) + GetPreset(name)
      ensures name != "mobile" && "videoConstraints" in old(config) ==> config["videoConstraints"] == old(config)["videoConstraints"]
    {
      UpdateConfig(GetPreset(name));
    }
  }

  // ---------------------------------------------------------------- useQRScanHistory

  type HistoryItem = map<string, Json>

  /** The item addToHistory builds: id, data, timestamp and type, with the metadata spread last. */
  function NewHistoryItem(id: string, data: Json, now: int, metadata: map<string, Json>): (item: HistoryItem)
    ensures item.Keys == {"id", "data", "timestamp", "type"} + metadata.Keys
    ensures "type" !in metadata ==> item["type"] == JStr(if data.JStr? then "text" else "object")
    ensures "id" !in metadata ==> item["id"] == JStr(id)
    ensures "data" !in metadata ==> item["data"] == data
    ensures "timestamp" !in metadata ==> item["timestamp"] == JNum(now)
    ensures forall k :: k in metadata ==> item[k] == metadata[k]
  {
    var base := map["id" := JStr(id), "data" := data, "timestamp" := JNum(now),
                    "type" := JStr(if data.JStr? then "text" else "object")];
    assert "id" in base && "data" in base && "type" in base;
    base + metadata
  }

  /** `s.slice(0, end)` (section 23.1.3.28 of ECMA-262): a negative end counts from the back. */
  function SlicePrefix<T>(s: seq<T>, end: int): (r: seq<T>)
    ensures 0 <= end ==> r == s[..if end < |s| then end else |s|]
    ensures end < 0 ==> r == s[..if |s| + end > 0 then |s| + end else 0]
  {
    var e := if end < 0 then (if |s| + end > 0 then |s| + end else 0) else (if end < |s| then end else |s|);
    s[..e]
  }

  /** The history after addToHistory: the item in front, the old items after it, cut to `maxItems`. */
  function HistoryAfterAdd(history: seq<HistoryItem>, item: HistoryItem, maxItems: int): (h: seq<HistoryItem>)
    ensures maxItems >= 0 ==> |h| == if |history| + 1 < maxItems then |history| + 1 else maxItems
    ensures maxItems < 0 ==> |h| == if |history| + 1 + maxItems > 0 then |history| + 1 + maxItems else 0
    ensures |h| > 0 ==> h[0] == item && h[1..] == history[..|h| - 1]
  {
    SlicePrefix([item] + history, maxItems)
  }

  /**
   * `item.id !== id`. Ids are compared by value: the generated ids are
   * strings, and an array or object id (which `!==` would compare by
   * reference) could only come from the caller's metadata.
   */
  predicate KeepsItem(item: HistoryItem, id: Json)
  {
    "id" !in item || item["id"] != id
  }

  /** removeFromHistory: the items whose id differs, in their order. */
  function WithoutId(history: seq<HistoryItem>, id: Json): (h: seq<HistoryItem>)
    ensures |h| <= |history|
    ensures forall k :: 0 <= k < |h| ==> KeepsItem(h[k], id) && h[k] in history
  {
    if history == [] then []
    else (if KeepsItem(history[0], id) then [history[0]] else []) + WithoutId(history[1..], id)
  }

  /** The filter keeps order and repetitions: removing from a concatenation removes from each part in turn. */
  lemma {:induction false} WithoutIdAppend(a: seq<HistoryItem>, b: seq<HistoryItem>, id: Json)
    ensures WithoutId(a + b, id) == WithoutId(a, id) + WithoutId(b, id)
  {
    if a == [] {
      assert a + b == b;
    } else {
      assert (a + b)[0] == a[0];
      assert (a + b)[1..] == a[1..] + b;
      WithoutIdAppend(a[1..], b, id);
    }
  }

  /** Removal keeps every item with another id, and nothing else. */
  lemma {:induction false} WithoutIdKeepsOthers(history: seq<HistoryItem>, id: Json, item: HistoryItem)
    ensures item in WithoutId(history, id) <==> item in history && KeepsItem(item, id)
  {
    if history != [] {
      WithoutIdKeepsOthers(history[1..], id, item);
    }
  }

  /** Removing an id that no item carries leaves the history as it was. */
  lemma {:induction false} WithoutAbsentId(history: seq<HistoryItem>, id: Json)
    requires forall k :: 0 <= k < |history| ==> KeepsItem(history[k], id)
    ensures WithoutId(history, id) == history
  {
    if history != [] {
      WithoutAbsentId(history[1..], id);
    }
  }

  /** Adding an item with a fresh id and then removing that id restores the history (when nothing was cut). */
  lemma AddThenRemove(history: seq<HistoryItem>, item: HistoryItem, maxItems: int)
    requires "id" in item
    requires forall k :: 0 <= k < |history| ==> KeepsItem(history[k], item["id"])
    requires maxItems > |history|
    ensures WithoutId(HistoryAfterAdd(history, item, maxItems), item["id"]) == history
  {
    var h := HistoryAfterAdd(history, item, maxItems);
    assert h == [item] + history;
    assert h[1..] == history;
    WithoutAbsentId(history, item["id"]);
  }

  /** `item.type === type`, for the type values a history item carries. */
  predicate HasType(item: HistoryItem, t: Json)
  {
    "type" in item && item["type"] == t
  }

  /** getHistoryByType: the items of that type, in their order. */
  function ByType(history: seq<HistoryItem>, t: Json): (h: seq<HistoryItem>)
    ensures |h| <= |history|
    ensures forall k :: 0 <= k < |h| ==> HasType(h[k], t)
    ensures forall x :: x in h <==> x in history && HasType(x, t)
  {
    if history == [] then []
    else
      assert forall x :: x in history <==> x == history[0] || x in history[1..];
      (if HasType(history[0], t) then [history[0]] else []) + ByType(history[1..], t)
  }

  /** The type filter keeps order and repetitions. */
  lemma {:induction false} ByTypeAppend(a: seq<HistoryItem>, b: seq<HistoryItem>, t: Json)
    ensures ByType(a + b, t) == ByType(a, t) + ByType(b, t)
  {
    if a == [] {
      assert a + b == b;
    } else {
      assert (a + b)[0] == a[0];
      assert (a + b)[1..] == a[1..] + b;
      ByTypeAppend(a[1..], b, t);
    }
  }

  /** The text searchHistory looks in: the data itself when it is text, else its JSON serialisation. */
  function SearchText(item: HistoryItem, stringify: Json -> string): string
  {
    var data := if "data" in item then item["data"] else JNull;
    if data.JStr? then data.s else stringify(data)
  }

  /** `dataStr.toLowerCase().includes(searchTerm.toLowerCase())` */
  predicate SearchMatches(item: HistoryItem, term: string, stringify: Json -> string)
  {
    Contains(ToLower(SearchText(item, stringify)), ToLower(term))
  }

  /** searchHistory: the whole history for an empty term, otherwise the items whose text contains it, ignoring case. */
  function Search(history: seq<HistoryItem>, term: string, stringify: Json -> string): (h: seq<HistoryItem>)
    ensures term == "" ==> h == history
    ensures term != "" ==> forall x :: x in h <==> x in history && SearchMatches(x, term, stringify)
    ensures term != "" ==> forall k :: 0 <= k < |h| ==> SearchMatches(h[k], term, stringify)
  {
    if term == "" then history else SearchFilter(history, term, stringify)
  }

  /** The filter of searchHistory: the matching items, in their order. */
  function SearchFilter(history: seq<HistoryItem>, term: string, stringify: Json -> string): (h: seq<HistoryItem>)
    ensures |h| <= |history|
    ensures forall k :: 0 <= k < |h| ==> SearchMatches(h[k], term, stringify)
    ensures forall x :: x in h <==> x in history && SearchMatches(x, term, stringify)
  {
    if history == [] then []
    else
      assert forall x :: x in history <==> x == history[0] || x in history[1..];
      (if SearchMatches(history[0], term, stringify) then [history[0]] else []) + SearchFilter(history[1..], term, stringify)
  }

  /** The search filter keeps order and repetitions. */
  lemma {:induction false} SearchFilterAppend(a: seq<HistoryItem>, b: seq<HistoryItem>, term: string,
                                              stringify: Json -> string)
    ensures SearchFilter(a + b, term, stringify) == SearchFilter(a, term, stringify) + SearchFilter(b, term, stringify)
  {
    if a == [] {
      assert a + b == b;
    } else {
      assert (a + b)[0] == a[0];
      assert (a + b)[1..] == a[1..] + b;
      SearchFilterAppend(a[1..], b, term, stringify);
    }
  }

  /** A search for "HISTÓRIA" finds an item whose text is "História". */
  lemma SearchIgnoresAccentedCase(item: HistoryItem, stringify: Json -> string)
    requires "data" in item && item["data"] == JStr("Hist\U{F3}ria")
    ensures Search([item], "HIST\U{D3}RIA", stringify) == [item]
  {
    LowerCaseFoldsAccents();
    assert SearchText(item, stringify) == "Hist\U{F3}ria";
    assert StartsWith(ToLower("Hist\U{F3}ria"), ToLower("HIST\U{D3}RIA"));
  }

  class ScanHistory {
    var history: seq<HistoryItem>
    const maxItems: int

    /** `maxItems` is None when the hook is called without it (50). */
    constructor (maxItemsArg: Option<int>)
      ensures history == [] && maxItems == (if maxItemsArg.Some? then maxItemsArg.value else 50)
    {
      history := [];
      maxItems := if maxItemsArg.Some? then maxItemsArg.value else 50;
    }

    method AddToHistory(id: string, data: Json, now: int, metadata: map<string, Json>) returns (item: HistoryItem)
      modifies this
      ensures item == NewHistoryItem(id, data, now, metadata)
      ensures history == HistoryAfterAdd(old(history), item, maxItems)
    {
      item := NewHistoryItem(id, data, now, metadata);
      history := SlicePrefix([item] + history, maxItems);
    }

    method RemoveFromHistory(id: Json)
      modifies this
      ensures history == WithoutId(old(history), id)
    {
      history := WithoutId(history, id);
    }

    method ClearHistory()
      modifies this
      ensures history == []
    {
      history := [];
    }

    /** getHistoryByType(type): the stored items of that type. */
    function GetHistoryByType(t: string): (r: seq<HistoryItem>)
      reads this
      ensures forall x :: x in r <==> x in history && HasType(x, JStr(t))
    {
      ByType(history, JStr(t))
    }

    /** searchHistory(term): everything for an empty term, else the stored items that match it. */
    function SearchHistory(term: string, stringify: Json -> string): (r: seq<HistoryItem>)
      reads this
      ensures term == "" ==> r == history
      ensures term != "" ==> forall x :: x in r <==> x in history && SearchMatches(x, term, stringify)
    {
      Search(history, term, stringify)
    }
  }

  // ---------------------------------------------------------------- useQRScanStats

  class ScanStats {
    var totalScans: int
    var successfulScans: int
    var failedScans: int
    var lastScanTime: Option<int>
    var scansByType: map<string, int>

    /** Every scan is a success or a failure; each type count is positive and at most the total. */
    predicate Valid()
      reads this
    {
      totalScans == successfulScans + failedScans && successfulScans >= 0 && failedScans >= 0 &&
      forall t :: t in scansByType ==> 0 < scansByType[t] <= totalScans
    }

    constructor ()
      ensures Valid() && totalScans == 0 && lastScanTime.None? && scansByType == map[]
    {
      totalScans, successfulScans, failedScans, lastScanTime, scansByType := 0, 0, 0, None, map[];
    }

    /** recordScan; `dataType` is None when omitted ('unknown'). */
    method RecordScan(success: bool, dataType: Option<string>, now: int)
      requires Valid()
      modifies this
      ensures Valid()
      ensures totalScans == old(totalScans) + 1
      ensures successfulScans == old(successfulScans) + (if success then 1 else 0)
      ensures failedScans == old(failedScans) + (if success then 0 else 1)
      ensures lastScanTime == Some(now)
      ensures var t := if dataType.Some? then dataType.value else "unknown";
        scansByType == old(scansByType)[t := (if t in old(scansByType) then old(scansByType)[t] else 0) + 1]
    {
      var t := if dataType.Some? then dataType.value else "unknown";
      totalScans := totalScans + 1;
      if success {
        successfulScans := successfulScans + 1;
      } else {
        failedScans := failedScans + 1;
      }
      lastScanTime := Some(now);
      scansByType := scansByType[t := (if t in scansByType then scansByType[t] else 0) + 1];
    }

    method ResetStats()
      modifies this
      ensures Valid() && totalScans == 0 && successfulScans == 0 && failedScans == 0
      ensures lastScanTime.None? && scansByType == map[]
    {
      totalScans, successfulScans, failedScans, lastScanTime, scansByType := 0, 0, 0, None, map[];
    }
  }
}

=== FILE: questions_page.dfy ===
/**
 * The question bank page: the difficulty counters, the tag column, the
 * question form's alternatives and tags, the payload it submits and how the
 * detail view letters the alternatives and marks the correct one.
 */
module QuestionsPage {
  import opened Outcomes
  import opened JsValue
  import opened JsString
  import opened Listing

  // ------------------------------------------------------------- counters

  /** The header counters. */
  datatype QuestionStats = QuestionStats(total: Json, facil: nat, medio: nat, dificil: nat)

  function Stats(questions: seq<Json>, pagination: Json): (s: QuestionStats)
    ensures s.total == OrElse(Get(pagination, "total_items"), JNum(0))
    ensures s.facil == CountWhere(questions, "nivel_dificuldade", "Fácil")
    ensures s.medio == CountWhere(questions, "nivel_dificuldade", "Médio")
    ensures s.dificil == CountWhere(questions, "nivel_dificuldade", "Difícil")
    ensures s.facil + s.medio + s.dificil <= |questions|
  {
    CountsPartition(questions, "nivel_dificuldade", "Fácil", "Médio", "Difícil");
    QuestionStats(OrElse(Get(pagination, "total_items"), JNum(0)),
                  CountWhere(questions, "nivel_dificuldade", "Fácil"),
                  CountWhere(questions, "nivel_dificuldade", "Médio"),
                  CountWhere(questions, "nivel_dificuldade", "Difícil"))
  }

  // ------------------------------------------------------------ tag column

  /** The tag column: the tags shown and the "+n" badge, if any. */
  datatype TagCell = TagCell(shown: seq<Json>, more: Option<string>)

  /**
   * The tag column's renderer: up to three tags and "+n" for the rest.
   * Nothing for a missing list; None when the value has no usable `slice`
   * and `map` (a string, number or object), which makes the render throw.
   */
  function TagColumn(value: Option<Json>): (r: Option<TagCell>)
    ensures value.None? || value == Some(JNull) ==> r == Some(TagCell([], None))
    ensures r.None? <==> value.Some? && value.value != JNull && !value.value.JArr?
    ensures r.Some? && value.Some? && value.value.JArr? ==>
      var items := value.value.items;
      if |items| <= 3 then r.value == TagCell(items, None)
      else r.value == TagCell(items[..3], Some("+" + IntToString(|items| - 3)))
  {
    if value.None? || value.value == JNull then Some(TagCell([], None))
    else if !value.value.JArr? then None
    else
      var items := value.value.items;
      if |items| <= 3 then Some(TagCell(items, None))
      else Some(TagCell(items[..3], Some("+" + IntToString(|items| - 3))))
  }

  // ----------------------------------------------------------- alternatives

  /** addAlternative: one more empty alternative, only while there are fewer than five. */
  function WithAlternative(alternatives: seq<Json>): (r: seq<Json>)
    ensures |alternatives| < 5 ==> r == alternatives + [JStr("")]
    ensures |alternatives| >= 5 ==> r == alternatives
  {
    if |alternatives| < 5 then alternatives + [JStr("")] else alternatives
  }

  /** removeAlternative(index): only while there are more than two; an index outside the list removes nothing. */
  function WithoutAlternative(alternatives: seq<Json>, index: int): (r: seq<Json>)
    ensures |alternatives| > 2 && 0 <= index < |alternatives| ==> r == alternatives[..index] + alternatives[index + 1..]
    ensures !(|alternatives| > 2 && 0 <= index < |alternatives|) ==> r == alternatives
  {
    if |alternatives| > 2 && 0 <= index < |alternatives| then alternatives[..index] + alternatives[index + 1..]
    else alternatives
  }

  /** From two to five alternatives, adding and removing keep the count between two and five. */
  lemma AlternativeCountStaysInRange(alternatives: seq<Json>, index: int)
    requires 2 <= |alternatives| <= 5
    ensures 2 <= |WithAlternative(alternatives)| <= 5
    ensures 2 <= |WithoutAlternative(alternatives, index)| <= 5
  {
  }

  // ------------------------------------------------------------------ tags

  /** No surrounding whitespace. */
  predicate Trimmed(s: string)
  {
    s == [] || (!IsJsWhitespace(s[0]) && !IsJsWhitespace(s[|s| - 1]))
  }

  predicate NoDuplicates(tags: seq<Json>)
  {
    forall i, j :: 0 <= i < j < |tags| ==> tags[i] != tags[j]
  }

  /** Every tag was typed in: a non-empty trimmed string. */
  predicate TypedTags(tags: seq<Json>)
  {
    forall i :: 0 <= i < |tags| ==> tags[i].JStr? && tags[i].s != "" && Trimmed(tags[i].s)
  }

  /** addTag: the trimmed input joins the list unless it is blank or already there; the input is then cleared. */
  function AddedTag(tags: seq<Json>, input: string): (r: (seq<Json>, string))
    ensures Trim(input) != "" && JStr(Trim(input)) !in tags ==> r == (tags + [JStr(Trim(input))], "")
    ensures !(Trim(input) != "" && JStr(Trim(input)) !in tags) ==> r == (tags, input)
    ensures NoDuplicates(tags) ==> NoDuplicates(r.0)
    ensures TypedTags(tags) ==> TypedTags(r.0)
  {
    var t := Trim(input);
    if t != "" && JStr(t) !in tags then (tags + [JStr(t)], "") else (tags, input)
  }

  /** removeTag(t): every tag equal to `t` goes; the rest keep their order. */
  function RemovedTag(tags: seq<Json>, t: string): (r: seq<Json>)
    ensures forall x :: x in r <==> x in tags && x != JStr(t)
    ensures |r| <= |tags|
    ensures NoDuplicates(tags) ==> NoDuplicates(r)
    ensures TypedTags(tags) ==> TypedTags(r)
  {
    if tags == [] then []
    else
      var rest := RemovedTag(tags[1..], t);
      assert forall x :: x in tags[1..] ==> x in tags;
      if tags[0] == JStr(t) then rest
      else
        assert NoDuplicates(tags) ==> tags[0] !in tags[1..];
        [tags[0]] + rest
  }

  /** Removing from a concatenation removes from each part, so the other tags keep their order and repetitions. */
  lemma {:induction false} RemovedTagAppend(a: seq<Json>, b: seq<Json>, t: string)
    ensures RemovedTag(a + b, t) == RemovedTag(a, t) + RemovedTag(b, t)
    decreases a
  {
    if a == [] {
      assert a + b == b;
    } else {
      assert (a + b)[0] == a[0];
      assert (a + b)[1..] == a[1..] + b;
      RemovedTagAppend(a[1..], b, t);
    }
  }

  /** In a duplicate-free list, removing a tag cuts exactly its one position out. */
  lemma {:induction false} RemovedTagCutsOne(tags: seq<Json>, i: nat)
    requires NoDuplicates(tags) && i < |tags| && tags[i].JStr?
    ensures RemovedTag(tags, tags[i].s) == tags[..i] + tags[i + 1..]
    decreases i
  {
    var t := tags[i].s;
    if i == 0 {
      assert JStr(t) !in tags[1..];
      RemovedTagAbsent(tags[1..], t);
    } else {
      RemovedTagCutsOne(tags[1..], i - 1);
      assert tags[1..][i - 1] == tags[i];
      assert tags[0] != JStr(t);
      assert tags[..i] == [tags[0]] + tags[1..][..i - 1];
      assert tags[i + 1..] == tags[1..][i..];
    }
  }

  /** Removing a tag that is not there changes nothing. */
  lemma {:induction false} RemovedTagAbsent(tags: seq<Json>, t: string)
    requires JStr(t) !in tags
    ensures RemovedTag(tags, t) == tags
    decreases tags
  {
    if tags != [] {
      assert JStr(t) !in tags[1..];
      RemovedTagAbsent(tags[1..], t);
    }
  }

  /** Adding a new tag and removing it again gives the list back. */
  lemma {:induction false} AddThenRemoveTag(tags: seq<Json>, input: string)
    requires NoDuplicates(tags) && Trim(input) != "" && JStr(Trim(input)) !in tags
    ensures RemovedTag(AddedTag(tags, input).0, Trim(input)) == tags
  {
    var added := AddedTag(tags, input).0;
    assert added[|tags|] == JStr(Trim(input));
    assert added[..|tags|] == tags;
    RemovedTagCutsOne(added, |tags|);
    assert added[|tags| + 1..] == [];
  }

  // -------------------------------------------------------------- the form

  /** The question form: the alternatives field array, the tag list and the tag input. */
  class QuestionForm {
    var alternatives: seq<Json>
    var tags: seq<Json>
    var tagInput: string

    /** A new question: two empty alternatives and no tags. */
    constructor ()
      ensures alternatives == [JStr(""), JStr("")] && tags == [] && tagInput == ""
    {
      alternatives := [JStr(""), JStr("")];
      tags := [];
      tagInput := "";
    }

    /** The tags and alternatives stay well-formed from the blank form on. */
    predicate Valid()
      reads this
    {
      2 <= |alternatives| <= 5 && NoDuplicates(tags) && TypedTags(tags)
    }

    method AddAlternative()
      modifies this
      ensures alternatives == WithAlternative(old(alternatives)) && tags == old(tags) && tagInput == old(tagInput)
      ensures old(Valid()) ==> Valid()
    {
      if |alternatives| < 5 {
        alternatives := alternatives + [JStr("")];
      }
    }

    method RemoveAlternative(index: int)
      modifies this
      ensures alternatives == WithoutAlternative(old(alternatives), index) && tags == old(tags) && tagInput == old(tagInput)
      ensures old(Valid()) ==> Valid()
    {
      if |alternatives| > 2 && 0 <= index < |alternatives| {
        alternatives := alternatives[..index] + alternatives[index + 1..];
      }
    }

    method SetTagInput(value: string)
      modifies this
      ensures tagInput == value && tags == old(tags) && alternatives == old(alternatives)
      ensures old(Valid()) ==> Valid()
    {
      tagInput := value;
    }

    method AddTag()
      modifies this
      ensures (tags, tagInput) == AddedTag(old(tags), old(tagInput)) && alternatives == old(alternatives)
      ensures old(Valid()) ==> Valid()
    {
      var t := Trim(tagInput);
      if t != "" && JStr(t) !in tags {
        tags := tags + [JStr(t)];
        tagInput := "";
      }
    }

    method RemoveTag(t: string)
      modifies this
      ensures tags == RemovedTag(old(tags), t) && alternatives == old(alternatives) && tagInput == old(tagInput)
      ensures old(Valid()) ==> Valid()
    {
      tags := RemovedTag(tags, t);
    }

    /** Opening the form for a new question: back to the blank form, whatever was typed before. */
    method ResetForNew()
      modifies this
      ensures alternatives == [JStr(""), JStr("")] && tags == [] && tagInput == old(tagInput)
      ensures Valid()
    {
      alternatives := [JStr(""), JStr("")];
      tags := [];
    }

    /**
     * Opening the form on an existing question: its alternatives and tags as
     * they are. `question.alternativas.map` throws a TypeError when the
     * alternatives are missing or not a list; the effect then stops before
     * setting anything.
     */
    method ResetForEdit(question: map<string, Json>) returns (outcome: Result<(), string>)
      modifies this
      ensures outcome.Failure? <==> !("alternativas" in question && question["alternativas"].JArr?)
      ensures outcome.Failure? ==> outcome.error == "TypeError" && alternatives == old(alternatives) && tags == old(tags)
      ensures outcome.Success? ==> alternatives == question["alternativas"].items
      ensures outcome.Success? ==>
        tags == (if "tags_assuntos" in question && Truthy(question["tags_assuntos"]) && question["tags_assuntos"].JArr?
                 then question["tags_assuntos"].items else [])
      ensures tagInput == old(tagInput)
    {
      if !("alternativas" in question && question["alternativas"].JArr?) {
        return Failure("TypeError");
      }
      alternatives := question["alternativas"].items;
      tags := if "tags_assuntos" in question && Truthy(question["tags_assuntos"]) && question["tags_assuntos"].JArr?
              then question["tags_assuntos"].items else [];
      outcome := Success(());
    }
  }

  // --------------------------------------------------------------- payload

  /** `values.filter(Boolean)`: the truthy values, in order. */
  function KeepTruthy(values: seq<Json>): (r: seq<Json>)
    ensures |r| <= |values|
    ensures forall i :: 0 <= i < |r| ==> Truthy(r[i])
    ensures forall x :: x in r <==> x in values && Truthy(x)
  {
    if values == [] then []
    else
      var rest := KeepTruthy(values[1..]);
      assert forall x :: x in values <==> x == values[0] || x in values[1..];
      if Truthy(values[0]) then [values[0]] + rest else rest
  }

  /** `filter(Boolean)` keeps order and repetitions: filtering a concatenation filters each part in turn. */
  lemma {:induction false} KeepTruthyAppend(a: seq<Json>, b: seq<Json>)
    ensures KeepTruthy(a + b) == KeepTruthy(a) + KeepTruthy(b)
  {
    if a == [] {
      assert a + b == b;
    } else {
      assert (a + b)[0] == a[0];
      assert (a + b)[1..] == a[1..] + b;
      KeepTruthyAppend(a[1..], b);
    }
  }

  /** With no empty alternative nothing is dropped. */
  lemma {:induction false} KeepTruthyKeepsAllTruthy(values: seq<Json>)
    requires forall i :: 0 <= i < |values| ==> Truthy(values[i])
    ensures KeepTruthy(values) == values
  {
    if values != [] {
      KeepTruthyKeepsAllTruthy(values[1..]);
    }
  }

  /** onSubmit's payload: the form data with the non-empty alternatives and the local tag list. */
  function QuestionPayload(data: map<string, Json>, alternatives: seq<Json>, tags: seq<Json>): (p: map<string, Json>)
    ensures "alternativas" in p && p["alternativas"] == JArr(KeepTruthy(alternatives))
    ensures "tags_assuntos" in p && p["tags_assuntos"] == JArr(tags)
    ensures forall k :: k in data && k !in {"alternativas", "tags_assuntos"} ==> k in p && p[k] == data[k]
    ensures p.Keys == data.Keys + {"alternativas", "tags_assuntos"}
  {
    data["alternativas" := JArr(KeepTruthy(alternatives))]["tags_assuntos" := JArr(tags)]
  }

  /**
   * Editing a question whose alternatives are all filled in and submitting
   * without changes sends the same alternatives and tags back.
   */
  lemma {:induction false} EditRoundTrip(question: map<string, Json>, data: map<string, Json>)
    requires "alternativas" in question && question["alternativas"].JArr?
    requires forall i :: 0 <= i < |question["alternativas"].items| ==> Truthy(question["alternativas"].items[i])
    requires "tags_assuntos" in question && question["tags_assuntos"].JArr?
    ensures var p := QuestionPayload(data, question["alternativas"].items, question["tags_assuntos"].items);
      p["alternativas"] == question["alternativas"] && p["tags_assuntos"] == question["tags_assuntos"]
  {
    KeepTruthyKeepsAllTruthy(question["alternativas"].items);
  }

  // ---------------------------------------------------------- detail view

  /** `String.fromCharCode(65 + index)` */
  function Letter(index: nat): (c: char)
    requires index < 26
    ensures 'A' <= c <= 'Z'
  {
    (65 + index) as char
  }

  /** Alternative `index` is shown as correct iff its letter is `resposta_correta`. */
  predicate MarkedCorrect(index: nat, answer: Option<Json>)
    requires index < 26
  {
    StrictEquals(Some(JStr([Letter(index)])), answer)
  }

  /**
   * With the answer a letter among the first `count`, exactly its
   * alternative is marked; with any other answer none is.
   */
  lemma {:induction false} OneCorrectAlternative(count: nat, answer: Option<Json>)
    requires count <= 26
    ensures forall i :: 0 <= i < count ==>
      (MarkedCorrect(i, answer) <==> answer == Some(JStr([Letter(i)])))
    ensures forall i, j :: 0 <= i < j < count ==> !(MarkedCorrect(i, answer) && MarkedCorrect(j, answer))
  {
    forall i, j | 0 <= i < j < count
      ensures !(MarkedCorrect(i, answer) && MarkedCorrect(j, answer))
    {
      assert Letter(i) != Letter(j);
      assert JStr([Letter(i)]) != JStr([Letter(j)]) by {
        assert [Letter(i)][0] != [Letter(j)][0];
      }
    }
  }
}

=== FILE: table.dfy ===
/**
 * The data table: nested-field lookup by dotted path, the search filter,
 * the column sort, the sort-header toggle, cell fallbacks, the header
 * checkbox, the pagination footer and the selection state of `useTable`.
 *
 * Inside the component, `getNestedValue` is a `const` declared after the two
 * memoised derivations that call it, so during a render those calls reach
 * it before its initialisation and throw a ReferenceError. `ViewAsWritten`
 * models that; `View` is the derivation with the helper available, which
 * the rest of this module describes.
 */
module Table {
  import opened Outcomes
  import opened JsValue
  import opened JsString

  // ------------------------------------------------------ nested value

  /** `value[key]` on a value that is truthy: own fields, array elements and `length`. */
  function Property(v: Json, key: string): (r: Option<Json>)
    ensures v.JObj? ==> r == Get(v, key)
  {
    match v
    case JObj(fields) => if key in fields then Some(fields[key]) else None
    case JArr(xs) =>
      if key == "length" then Some(JNum(|xs|))
      else
        var i := ArrayIndex(key, |xs|);
        if i.Some? then Some(xs[i.value]) else None
    case JStr(s) => if key == "length" then Some(JNum(Length(s))) else None
    case _ => None
  }

  /** The element index a property key names, if it names one below `n`. */
  function ArrayIndex(key: string, n: nat): (r: Option<nat>)
    ensures r.Some? ==> r.value < n && NatToString(r.value) == key
    ensures r.None? ==> forall i :: 0 <= i < n ==> NatToString(i) != key
  {
    if n == 0 then None
    else if NatToString(n - 1) == key then Some(n - 1)
    else ArrayIndex(key, n - 1)
  }

  /** One step of the reduce: `value && value[key]`. */
  function Step(v: Option<Json>, key: string): (r: Option<Json>)
    ensures !TruthyOpt(v) ==> r == v
  {
    if TruthyOpt(v) then Property(v.value, key) else v
  }

  /** The reduce over the path's keys. */
  function Walk(v: Option<Json>, keys: seq<string>): Option<Json>
    decreases keys
  {
    if keys == [] then v else Walk(Step(v, keys[0]), keys[1..])
  }

  /** getNestedValue(obj, path) */
  function NestedValue(obj: Json, path: string): Option<Json>
  {
    Walk(Some(obj), Split(path, '.'))
  }

  /** Once the walk meets a falsy value, that value is the result. */
  lemma {:induction false} FalsyStopsWalk(v: Option<Json>, keys: seq<string>)
    requires !TruthyOpt(v)
    ensures Walk(v, keys) == v
    decreases keys
  {
    if keys != [] {
      FalsyStopsWalk(Step(v, keys[0]), keys[1..]);
    }
  }

  /** Walking a path is walking its first part and then the rest. */
  lemma {:induction false} WalkAppend(v: Option<Json>, first: seq<string>, rest: seq<string>)
    ensures Walk(v, first + rest) == Walk(Walk(v, first), rest)
    decreases first
  {
    if first == [] {
      assert first + rest == rest;
    } else {
      assert (first + rest)[0] == first[0];
      assert (first + rest)[1..] == first[1..] + rest;
      WalkAppend(Step(v, first[0]), first[1..], rest);
    }
  }

  /** Hence a falsy value met after any prefix of the path is the final result. */
  lemma FalsyPrefixDecides(v: Option<Json>, keys: seq<string>, n: nat)
    requires n <= |keys| && !TruthyOpt(Walk(v, keys[..n]))
    ensures Walk(v, keys) == Walk(v, keys[..n])
  {
    assert keys == keys[..n] + keys[n..];
    WalkAppend(v, keys[..n], keys[n..]);
    FalsyStopsWalk(Walk(v, keys[..n]), keys[n..]);
  }

  /** Two object levels: "a.b" reads field b of field a. */
  lemma {:induction false} TwoLevelPath(a: string, b: string, inner: map<string, Json>, outer: map<string, Json>)
    requires '.' !in a && '.' !in b && a in outer && outer[a] == JObj(inner)
    ensures NestedValue(JObj(outer), a + "." + b) == (if b in inner then Some(inner[b]) else None)
  {
    var path := a + "." + b;
    assert path[|a|] == '.';
    assert path[..|a|] == a;
    var i := FirstIndex(path, '.');
    assert i == |a|;
    assert path[i + 1..] == b;
    assert Split(b, '.') == [b];
    assert Split(path, '.') == [a, b];
    assert Step(Some(JObj(outer)), a) == Some(JObj(inner));
    assert Walk(Some(JObj(outer)), [a, b]) == Walk(Some(JObj(inner)), [b]);
    assert Walk(Some(JObj(inner)), [b]) == Walk(Step(Some(JObj(inner)), b), []);
  }

  // ------------------------------------------------------------ search

  /** `String(value || '')` */
  function CellString(v: Option<Json>): string
  {
    if TruthyOpt(v) then JsToString(v.value) else ""
  }

  /** Some column's text contains the term, ignoring the case of Basic Latin and Latin-1 letters. */
  predicate Matches(item: Json, columnKeys: seq<string>, term: string)
  {
    exists c :: 0 <= c < |columnKeys| && Contains(ToLower(CellString(NestedValue(item, columnKeys[c]))), ToLower(term))
  }

  /** `xs` keeps some of the elements of `ys`, in their order. */
  predicate SubsequenceOf(xs: seq<Json>, ys: seq<Json>)
    decreases ys
  {
    if xs == [] then true
    else if ys == [] then false
    else (xs[0] == ys[0] && SubsequenceOf(xs[1..], ys[1..])) || SubsequenceOf(xs, ys[1..])
  }

  lemma {:induction false} SubsequenceOfSelf(ys: seq<Json>)
    ensures SubsequenceOf(ys, ys)
    decreases ys
  {
    if ys != [] {
      SubsequenceOfSelf(ys[1..]);
    }
  }

  /** `data.filter(item => columns.some(...))` */
  function FilterMatching(data: seq<Json>, columnKeys: seq<string>, term: string): (r: seq<Json>)
    ensures SubsequenceOf(r, data)
    ensures forall i :: 0 <= i < |r| ==> Matches(r[i], columnKeys, term)
    ensures forall i :: 0 <= i < |data| && Matches(data[i], columnKeys, term) ==> data[i] in r
    decreases data
  {
    if data == [] then []
    else
      var rest := FilterMatching(data[1..], columnKeys, term);
      if Matches(data[0], columnKeys, term) then
        assert forall i :: 1 <= i < |data| ==> data[i] == data[1..][i - 1];
        [data[0]] + rest
      else
        assert forall i :: 1 <= i < |data| ==> data[i] == data[1..][i - 1];
        RestIsSubsequence(rest, data);
        rest
  }

  /** Filtering a concatenation filters each part, so the kept rows stay in order with their repetitions. */
  lemma {:induction false} FilterMatchingAppend(a: seq<Json>, b: seq<Json>, columnKeys: seq<string>, term: string)
    ensures FilterMatching(a + b, columnKeys, term) == FilterMatching(a, columnKeys, term) + FilterMatching(b, columnKeys, term)
    decreases a
  {
    if a == [] {
      assert a + b == b;
    } else {
      assert (a + b)[0] == a[0];
      assert (a + b)[1..] == a[1..] + b;
      FilterMatchingAppend(a[1..], b, columnKeys, term);
    }
  }

  lemma RestIsSubsequence(rest: seq<Json>, data: seq<Json>)
    requires data != [] && SubsequenceOf(rest, data[1..])
    ensures SubsequenceOf(rest, data)
  {
  }

  /** filteredData: unchanged without a term or when search is off. */
  function Filtered(data: seq<Json>, columnKeys: seq<string>, term: string, searchable: bool): (r: seq<Json>)
    ensures term == "" || !searchable ==> r == data
    ensures SubsequenceOf(r, data)
  {
    if term == "" || !searchable then
      SubsequenceOfSelf(data);
      data
    else FilterMatching(data, columnKeys, term)
  }

  // -------------------------------------------------------------- sort

  /** Code-unit order, as `<` compares two strings. */
  predicate LexLess(a: seq<int>, b: seq<int>)
    decreases a
  {
    if a == [] then b != []
    else if b == [] then false
    else if a[0] != b[0] then a[0] < b[0]
    else LexLess(a[1..], b[1..])
  }

  lemma {:induction false} LexLessIrreflexive(a: seq<int>)
    ensures !LexLess(a, a)
    decreases a
  {
    if a != [] {
      LexLessIrreflexive(a[1..]);
    }
  }

  lemma {:induction false} LexLessTransitive(a: seq<int>, b: seq<int>, c: seq<int>)
    requires LexLess(a, b) && LexLess(b, c)
    ensures LexLess(a, c)
    decreases a
  {
    if a != [] && b != [] && c != [] && a[0] == b[0] && b[0] == c[0] {
      LexLessTransitive(a[1..], b[1..], c[1..]);
    }
  }

  /**
   * `a < b` on two key values: numbers by value, strings by code units.
   * Any other pair compares false both ways, as `undefined` (NaN) does.
   */
  predicate Less(a: Option<Json>, b: Option<Json>)
  {
    if a.Some? && b.Some? && a.value.JNum? && b.value.JNum? then a.value.n < b.value.n
    else if a.Some? && b.Some? && a.value.JStr? && b.value.JStr? then LexLess(Utf16Units(a.value.s), Utf16Units(b.value.s))
    else false
  }

  lemma LessIrreflexive(a: Option<Json>)
    ensures !Less(a, a)
  {
    if a.Some? && a.value.JStr? {
      LexLessIrreflexive(Utf16Units(a.value.s));
    }
  }

  lemma LessTransitive(a: Option<Json>, b: Option<Json>, c: Option<Json>)
    requires Less(a, b) && Less(b, c)
    ensures Less(a, c)
  {
    if a.Some? && a.value.JStr? {
      LexLessTransitive(Utf16Units(a.value.s), Utf16Units(b.value.s), Utf16Units(c.value.s));
    }
  }

  /** The comparator: -1, 1 or 0 for a before, after or level with b in the chosen direction. */
  function Comparator(a: Option<Json>, b: Option<Json>, ascending: bool): int
  {
    if Less(a, b) then (if ascending then -1 else 1)
    else if Less(b, a) then (if ascending then 1 else -1)
    else 0
  }

  /** `a` must come before `b`. */
  predicate Before(a: Option<Json>, b: Option<Json>, ascending: bool)
  {
    Comparator(a, b, ascending) < 0
  }

  lemma BeforeIrreflexive(a: Option<Json>, ascending: bool)
    ensures !Before(a, a, ascending)
  {
    LessIrreflexive(a);
  }

  lemma BeforeTransitive(a: Option<Json>, b: Option<Json>, c: Option<Json>, ascending: bool)
    requires Before(a, b, ascending) && Before(b, c, ascending)
    ensures Before(a, c, ascending)
  {
    if ascending {
      LessTransitive(a, b, c);
    } else {
      LessTransitive(c, b, a);
      LessIrreflexive(a);
      if Less(a, c) {
        LessTransitive(a, c, a);
      }
    }
  }

  /** The sort key of a row. */
  function KeyOf(item: Json, key: string): Option<Json>
  {
    NestedValue(item, key)
  }

  /** No row comes after a row it must precede. */
  predicate SortedBy(xs: seq<Json>, key: string, ascending: bool)
  {
    forall i, j :: 0 <= i < j < |xs| ==> !Before(KeyOf(xs[j], key), KeyOf(xs[i], key), ascending)
  }

  /** Insert `x` after every row it need not precede. */
  function Insert(x: Json, s: seq<Json>, key: string, ascending: bool): (r: seq<Json>)
    ensures multiset(r) == multiset(s) + multiset{x}
    ensures |r| == |s| + 1
    decreases s
  {
    if s == [] then [x]
    else if Before(KeyOf(x, key), KeyOf(s[0], key), ascending) then [x] + s
    else
      assert s == [s[0]] + s[1..];
      [s[0]] + Insert(x, s[1..], key, ascending)
  }

  /** Placing `x` in front keeps the order when it must precede the first row. */
  lemma InsertFrontSorted(x: Json, s: seq<Json>, key: string, ascending: bool)
    requires s != [] && SortedBy(s, key, ascending) && Before(KeyOf(x, key), KeyOf(s[0], key), ascending)
    ensures SortedBy([x] + s, key, ascending)
  {
    var r := [x] + s;
    forall i, j | 0 <= i < j < |r| ensures !Before(KeyOf(r[j], key), KeyOf(r[i], key), ascending) {
      if i == 0 && Before(KeyOf(r[j], key), KeyOf(x, key), ascending) {
        BeforeTransitive(KeyOf(r[j], key), KeyOf(x, key), KeyOf(s[0], key), ascending);
        if j == 1 {
          BeforeIrreflexive(KeyOf(s[0], key), ascending);
        }
      }
    }
  }

  /** Keeping the first row in front keeps the order when `x` need not precede it. */
  lemma InsertBehindSorted(x: Json, s: seq<Json>, inner: seq<Json>, key: string, ascending: bool)
    requires s != [] && SortedBy(s, key, ascending) && !Before(KeyOf(x, key), KeyOf(s[0], key), ascending)
    requires SortedBy(inner, key, ascending) && multiset(inner) == multiset(s[1..]) + multiset{x}
    ensures SortedBy([s[0]] + inner, key, ascending)
  {
    var r := [s[0]] + inner;
    var t := s[1..];
    forall i, j | 0 <= i < j < |r| ensures !Before(KeyOf(r[j], key), KeyOf(r[i], key), ascending) {
      if i == 0 {
        var e := r[j];
        assert e == inner[j - 1];
        assert e in multiset(inner);
        if e != x {
          assert e in multiset(t);
          var k :| 0 <= k < |t| && t[k] == e;
          assert s[k + 1] == e;
        }
      } else {
        assert r[i] == inner[i - 1] && r[j] == inner[j - 1];
      }
    }
  }

  lemma {:induction false} InsertSorted(x: Json, s: seq<Json>, key: string, ascending: bool)
    requires SortedBy(s, key, ascending)
    ensures SortedBy(Insert(x, s, key, ascending), key, ascending)
    decreases s
  {
    if s == [] {
    } else if Before(KeyOf(x, key), KeyOf(s[0], key), ascending) {
      InsertFrontSorted(x, s, key, ascending);
    } else {
      var t := s[1..];
      assert SortedBy(t, key, ascending) by {
        forall i, j | 0 <= i < j < |t| ensures !Before(KeyOf(t[j], key), KeyOf(t[i], key), ascending) {
          assert t[i] == s[i + 1] && t[j] == s[j + 1];
        }
      }
      InsertSorted(x, t, key, ascending);
      InsertBehindSorted(x, s, Insert(x, t, key, ascending), key, ascending);
    }
  }

  /** An insertion sort: each row in turn is inserted after the rows it need not precede. */
  function SortRows(xs: seq<Json>, key: string, ascending: bool): (r: seq<Json>)
    ensures multiset(r) == multiset(xs)
    ensures SortedBy(r, key, ascending)
    decreases |xs|
  {
    if xs == [] then []
    else
      var init := xs[..|xs| - 1];
      assert xs == init + [xs[|xs| - 1]];
      var sorted := SortRows(init, key, ascending);
      InsertSorted(xs[|xs| - 1], sorted, key, ascending);
      Insert(xs[|xs| - 1], sorted, key, ascending)
  }

  /** The sort state: the column key (`null` at first) and the direction. */
  datatype SortConfig = SortConfig(key: Option<string>, ascending: bool)

  /** sortedData: unchanged without a key or when sorting is off. */
  function Sorted(rows: seq<Json>, config: SortConfig, sortable: bool): (r: seq<Json>)
    ensures config.key.None? || config.key.value == "" || !sortable ==> r == rows
    ensures multiset(r) == multiset(rows)
    ensures config.key.Some? && config.key.value != "" && sortable ==> SortedBy(r, config.key.value, config.ascending)
  {
    if config.key.None? || config.key.value == "" || !sortable then rows
    else SortRows(rows, config.key.value, config.ascending)
  }

  /** The rows the table shows: filtered, then sorted. */
  function View(data: seq<Json>, columnKeys: seq<string>, term: string, searchable: bool,
                config: SortConfig, sortable: bool): (r: seq<Json>)
    ensures multiset(r) == multiset(Filtered(data, columnKeys, term, searchable))
  {
    Sorted(Filtered(data, columnKeys, term, searchable), config, sortable)
  }

  /**
   * The derivation as written: the filter callback runs (and reaches the
   * uninitialised helper) as soon as there is a term, a row and a column; the
   * comparator runs as soon as there is a key and two rows.
   */
  function ViewAsWritten(data: seq<Json>, columnKeys: seq<string>, term: string, searchable: bool,
                         config: SortConfig, sortable: bool): (r: Result<seq<Json>, string>)
    ensures r.Success? ==> r.value == View(data, columnKeys, term, searchable, config, sortable)
    ensures r.Failure? <==>
      (term != "" && searchable && data != [] && columnKeys != []) ||
      (config.key.Some? && config.key.value != "" && sortable && |Filtered(data, columnKeys, term, searchable)| >= 2)
    ensures r.Failure? ==> r.error == "ReferenceError"
  {
    if term != "" && searchable && data != [] && columnKeys != [] then Failure("ReferenceError")
    else
      var filtered := Filtered(data, columnKeys, term, searchable);
      if config.key.Some? && config.key.value != "" && sortable && |filtered| >= 2 then Failure("ReferenceError")
      else Success(View(data, columnKeys, term, searchable, config, sortable))
  }

  /** Typing "a" over one row with a name column breaks the table as written; the intended filter keeps the row. */
  lemma SearchBreaksAsWritten()
    ensures var row := JObj(map["name" := JStr("Ana")]);
      ViewAsWritten([row], ["name"], "a", true, SortConfig(None, true), true).Failure? &&
      View([row], ["name"], "a", true, SortConfig(None, true), true) == [row]
  {
    var row := JObj(map["name" := JStr("Ana")]);
    assert Split("name", '.') == ["name"];
    assert NestedValue(row, "name") == Some(JStr("Ana"));
    assert ToLower("Ana") == "ana";
    assert Contains("ana", "a");
    assert Matches(row, ["name"], "a");
    assert FilterMatching([], ["name"], "a") == [];
  }

  // -------------------------------------------------------- sort header

  /** handleSort's new configuration: 'desc' only when re-clicking the key sorted 'asc'. */
  function NextSort(config: SortConfig, key: string): (r: SortConfig)
    ensures r.key == Some(key)
    ensures !r.ascending <==> config.key == Some(key) && config.ascending
  {
    SortConfig(Some(key), !(config.key == Some(key) && config.ascending))
  }

  /** Re-clicking the sorted column flips the direction; a new column starts ascending. */
  lemma SortHeaderToggles(config: SortConfig, key: string)
    ensures config.key == Some(key) ==> NextSort(config, key).ascending == !config.ascending
    ensures config.key != Some(key) ==> NextSort(config, key) == SortConfig(Some(key), true)
    ensures NextSort(NextSort(NextSort(config, key), key), key) == NextSort(config, key)
  {
  }

  /** The table component's own state: the search term and the sort configuration. */
  class TableControls {
    const sortable: bool
    var searchTerm: string
    var sortConfig: SortConfig

    constructor (sortable: bool)
      ensures this.sortable == sortable && searchTerm == "" && sortConfig == SortConfig(None, true)
    {
      this.sortable := sortable;
      searchTerm := "";
      sortConfig := SortConfig(None, true);
    }

    /** handleSearch: the new term, also handed to `onSearch`. */
    method HandleSearch(term: string) returns (forwarded: string)
      modifies this
      ensures searchTerm == term && forwarded == term && sortConfig == old(sortConfig)
    {
      searchTerm := term;
      forwarded := term;
    }

    /** handleSort: a no-op when sorting is off; otherwise the new configuration, also handed to `onSort`. */
    method HandleSort(key: string) returns (emitted: Option<SortConfig>)
      modifies this
      ensures !sortable ==> sortConfig == old(sortConfig) && emitted.None?
      ensures sortable ==> sortConfig == NextSort(old(sortConfig), key) && emitted == Some(sortConfig)
      ensures searchTerm == old(searchTerm)
    {
      if !sortable {
        return None;
      }
      sortConfig := NextSort(sortConfig, key);
      emitted := Some(sortConfig);
    }

    /** A header click: columns marked `sortable: false` ignore it. */
    method HeaderClick(columnKey: string, columnSortable: Option<Json>) returns (emitted: Option<SortConfig>)
      modifies this
      ensures columnSortable == Some(JBool(false)) ==> sortConfig == old(sortConfig) && emitted.None?
      ensures columnSortable != Some(JBool(false)) && sortable ==> sortConfig == NextSort(old(sortConfig), columnKey)
      ensures !sortable ==> sortConfig == old(sortConfig)
      ensures searchTerm == old(searchTerm)
    {
      emitted := None;
      if columnSortable != Some(JBool(false)) {
        emitted := HandleSort(columnKey);
      }
    }
  }

  // ------------------------------------------------------------- cells

  /**
   * What renderCell produces: the column's own renderer, a locale format, a
   * status badge or the plain value; Throws is the TypeError that `value?.toLowerCase()`
   * raises in a status cell whose value is neither text nor null/undefined.
   */
  datatype Cell = Custom | Formatted | StatusBadge(className: string, text: Json) | Plain(text: Json) | Throws

  function RenderCell(value: Option<Json>, hasRender: bool, columnType: Option<string>): (c: Cell)
    ensures hasRender ==> c == Custom
    ensures !hasRender && !TruthyOpt(value) && columnType != Some("status") && columnType != Some("currency") ==>
      c == Plain(JStr("-"))
    ensures !hasRender && columnType == Some("status") ==>
      (c.Throws? <==> value.Some? && !value.value.JStr? && !value.value.JNull?)
    ensures !hasRender && columnType == Some("status") && value.Some? && value.value.JStr? && value.value.s != "" ==>
      c == StatusBadge("status-" + ToLower(value.value.s), value.value)
    ensures !hasRender && columnType == Some("status") && (value.None? || value == Some(JNull) || value == Some(JStr(""))) ==>
      c == StatusBadge("status-inactive", JStr("N/A"))
    ensures !hasRender && (columnType.None? || columnType.value !in {"date", "datetime", "currency", "status"}) ==>
      c == Plain(OrElse(value, JStr("-")))
    ensures c.Throws? ==> !hasRender && columnType == Some("status")
    ensures c == Formatted <==>
      !hasRender &&
      (((columnType == Some("date") || columnType == Some("datetime")) && TruthyOpt(value)) ||
       (columnType == Some("currency") && value.Some? && value.value.JNum?))
    ensures !hasRender && columnType == Some("currency") && !(value.Some? && value.value.JNum?) ==>
      c == Plain(OrElse(value, JStr("-")))
  {
    if hasRender then Custom
    else if columnType == Some("date") && TruthyOpt(value) then Formatted
    else if columnType == Some("datetime") && TruthyOpt(value) then Formatted
    else if columnType == Some("currency") && value.Some? && value.value.JNum? then Formatted
    else if columnType == Some("status") then
      if value.Some? && !value.value.JStr? && !value.value.JNull? then Throws
      else
        var lower := if value.Some? && value.value.JStr? then ToLower(value.value.s) else "";
        StatusBadge("status-" + (if lower != "" then lower else "inactive"), OrElse(value, JStr("N/A")))
    else Plain(OrElse(value, JStr("-")))
  }

  // ---------------------------------------------------- header checkbox

  /** isAllSelected */
  predicate AllSelected(selectable: bool, selectedCount: nat, rowCount: nat)
  {
    selectable && selectedCount == rowCount && rowCount > 0
  }

  /** isIndeterminate */
  predicate Indeterminate(selectable: bool, selectedCount: nat, rowCount: nat)
  {
    selectable && selectedCount > 0 && selectedCount < rowCount
  }

  /**
   * The header checkbox is never both checked and indeterminate; with a
   * selectable, non-empty table and no more selected than shown, it is
   * exactly one of unchecked, indeterminate or checked.
   */
  lemma HeaderCheckboxStates(selectable: bool, selectedCount: nat, rowCount: nat)
    ensures !(AllSelected(selectable, selectedCount, rowCount) && Indeterminate(selectable, selectedCount, rowCount))
    ensures selectable && 0 < rowCount && selectedCount <= rowCount ==>
      (selectedCount == 0 <==> !AllSelected(selectable, selectedCount, rowCount) && !Indeterminate(selectable, selectedCount, rowCount))
    ensures !selectable ==> !AllSelected(selectable, selectedCount, rowCount) && !Indeterminate(selectable, selectedCount, rowCount)
  {
  }

  // -------------------------------------------------------- pagination

  /** TablePagination's derived values. */
  datatype Footer = Footer(startItem: int, endItem: int, info: string, previousDisabled: bool, nextDisabled: bool)

  function Min(a: int, b: int): int
  {
    if a <= b then a else b
  }

  /** TablePagination(currentPage = 1, totalPages = 1, totalItems = 0, itemsPerPage = 10) */
  function PaginationFooter(currentPage: int, totalPages: int, totalItems: int, itemsPerPage: int): (f: Footer)
    ensures f.startItem == (currentPage - 1) * itemsPerPage + 1
    ensures f.endItem == Min(currentPage * itemsPerPage, totalItems)
    ensures totalItems <= 0 ==> f.info == "Nenhum item encontrado"
    ensures totalItems > 0 ==>
      f.info == "Mostrando " + IntToString(f.startItem) + " a " + IntToString(f.endItem) + " de " + IntToString(totalItems) + " itens"
    ensures f.previousDisabled <==> currentPage <= 1
    ensures f.nextDisabled <==> currentPage >= totalPages
  {
    var startItem := (currentPage - 1) * itemsPerPage + 1;
    var endItem := Min(currentPage * itemsPerPage, totalItems);
    var info := if totalItems > 0 then
        "Mostrando " + IntToString(startItem) + " a " + IntToString(endItem) + " de " + IntToString(totalItems) + " itens"
      else "Nenhum item encontrado";
    Footer(startItem, endItem, info, currentPage <= 1, currentPage >= totalPages)
  }

  /**
   * On a page that holds items, the footer names a non-empty window of at
   * most one page of items inside 1..totalItems, and consecutive pages'
   * windows meet without gap or overlap.
   */
  lemma {:induction false} FooterWindow(currentPage: int, totalPages: int, totalItems: int, itemsPerPage: int)
    requires itemsPerPage > 0 && currentPage >= 1 && (currentPage - 1) * itemsPerPage < totalItems
    ensures var f := PaginationFooter(currentPage, totalPages, totalItems, itemsPerPage);
      1 <= f.startItem <= f.endItem <= totalItems && f.endItem - f.startItem < itemsPerPage
    ensures PaginationFooter(currentPage + 1, totalPages, totalItems, itemsPerPage).startItem ==
      Min(currentPage * itemsPerPage, totalItems) + 1 || currentPage * itemsPerPage >= totalItems
  {
    var start := (currentPage - 1) * itemsPerPage + 1;
    assert (currentPage - 1) * itemsPerPage >= 0 by {
      assert currentPage - 1 >= 0;
    }
    assert currentPage * itemsPerPage == (currentPage - 1) * itemsPerPage + itemsPerPage;
    assert (currentPage + 1 - 1) * itemsPerPage == currentPage * itemsPerPage;
  }

  // --------------------------------------------------------- selection

  /** `row.id` */
  function RowId(row: Json): Option<Json>
  {
    Get(row, "id")
  }

  /**
   * `rows.filter(row => row.id !== id)`. A row that is not an object has no
   * `id` here; in the source a `null` or `undefined` row would throw instead.
   */
  function WithoutRowId(rows: seq<Json>, id: Option<Json>): (r: seq<Json>)
    ensures SubsequenceOf(r, rows)
    ensures forall i :: 0 <= i < |r| ==> !StrictEquals(RowId(r[i]), id)
    ensures forall i :: 0 <= i < |rows| && !StrictEquals(RowId(rows[i]), id) ==> rows[i] in r
    decreases rows
  {
    if rows == [] then []
    else
      var rest := WithoutRowId(rows[1..], id);
      assert forall i :: 1 <= i < |rows| ==> rows[i] == rows[1..][i - 1];
      if StrictEquals(RowId(rows[0]), id) then
        RestIsSubsequence(rest, rows);
        rest
      else [rows[0]] + rest
  }

  lemma {:induction false} WithoutRowIdAppend(a: seq<Json>, b: seq<Json>, id: Option<Json>)
    ensures WithoutRowId(a + b, id) == WithoutRowId(a, id) + WithoutRowId(b, id)
    decreases a
  {
    if a == [] {
      assert a + b == b;
    } else {
      assert (a + b)[0] == a[0];
      assert (a + b)[1..] == a[1..] + b;
      WithoutRowIdAppend(a[1..], b, id);
    }
  }

  /** Selecting a row with a number or string id and then deselecting it restores the earlier selection, minus that id. */
  lemma SelectThenDeselect(previous: seq<Json>, item: Json)
    requires RowId(item).Some? && (RowId(item).value.JNum? || RowId(item).value.JStr?)
    ensures WithoutRowId(previous + [item], RowId(item)) == WithoutRowId(previous, RowId(item))
  {
    WithoutRowIdAppend(previous, [item], RowId(item));
    assert WithoutRowId([item], RowId(item)) == [];
  }

  /** useTable: rows, loading and error flags, the selection and the page controls. */
  class TableState {
    var data: seq<Json>
    var loading: bool
    var error: Json
    var selectedRows: seq<Json>
    var currentPage: int
    var itemsPerPage: int

    /** useTable(initialData = []) */
    constructor (initialData: seq<Json>)
      ensures data == initialData && !loading && error == JNull && selectedRows == []
      ensures currentPage == 1 && itemsPerPage == 10
    {
      data := initialData;
      loading := false;
      error := JNull;
      selectedRows := [];
      currentPage := 1;
      itemsPerPage := 10;
    }

    /** handleSelect(item, checked): append, or drop every row sharing the item's id. */
    method HandleSelect(item: Json, checked: bool)
      modifies this
      ensures checked ==> selectedRows == old(selectedRows) + [item]
      ensures !checked ==> selectedRows == WithoutRowId(old(selectedRows), RowId(item))
      ensures data == old(data) && loading == old(loading) && error == old(error)
      ensures currentPage == old(currentPage) && itemsPerPage == old(itemsPerPage)
    {
      if checked {
        selectedRows := selectedRows + [item];
      } else {
        selectedRows := WithoutRowId(selectedRows, RowId(item));
      }
    }

    /** handleSelectAll(checked): a copy of all rows, or nothing. */
    method HandleSelectAll(checked: bool)
      modifies this
      ensures selectedRows == (if checked then data else [])
      ensures data == old(data) && loading == old(loading) && error == old(error)
      ensures currentPage == old(currentPage) && itemsPerPage == old(itemsPerPage)
    {
      selectedRows := if checked then data else [];
    }

    method ClearSelection()
      modifies this
      ensures selectedRows == []
      ensures data == old(data) && loading == old(loading) && error == old(error)
      ensures currentPage == old(currentPage) && itemsPerPage == old(itemsPerPage)
    {
      selectedRows := [];
    }

    /** setData: new rows clear the error. */
    method UpdateData(newData: seq<Json>)
      modifies this
      ensures data == newData && error == JNull
      ensures selectedRows == old(selectedRows) && loading == old(loading)
      ensures currentPage == old(currentPage) && itemsPerPage == old(itemsPerPage)
    {
      data := newData;
      error := JNull;
    }

    method SetLoadingState(isLoading: bool)
      modifies this
      ensures loading == isLoading
      ensures data == old(data) && error == old(error) && selectedRows == old(selectedRows)
      ensures currentPage == old(currentPage) && itemsPerPage == old(itemsPerPage)
    {
      loading := isLoading;
    }

    /** setError: an error also ends loading. */
    method SetErrorState(message: Json)
      modifies this
      ensures error == message && !loading
      ensures data == old(data) && selectedRows == old(selectedRows)
      ensures currentPage == old(currentPage) && itemsPerPage == old(itemsPerPage)
    {
      error := message;
      loading := false;
    }
  }
}

=== FILE: web_storage.dfy ===
/** The Web Storage areas (`window.localStorage`, `window.sessionStorage`): string keys to string values. */
module WebStorage {
  import opened Outcomes

  class KeyValueStore {
    var items: map<string, string>

    constructor ()
      ensures items == map[]
    {
      items := map[];
    }

    /** `getItem(key)`: `null` (None) for a key that is not stored. */
    function GetItem(key: string): (r: Option<string>)
      reads this
      ensures r.Some? <==> key in items
      ensures r.Some? ==> r.value == items[key]
    {
      if key in items then Some(items[key]) else None
    }

    method SetItem(key: string, value: string)
      modifies this
      ensures items == old(items)[key := value]
    {
      items := items[key := value];
    }

    method RemoveItem(key: string)
      modifies this
      ensures items == old(items) - {key}
    {
      items := items - {key};
    }
  }
}
